=== FILE: README.md ===
# shop!ManeF/x storefront — a Dafny model of its decision rules

shop!ManeF/x is a Next.js storefront for Kirkland Minoxidil kits, sold in Ghana.
Most of it binds Supabase tables to React components. What is left once
rendering and I/O are taken away is a set of small rules and state
transitions. This project models each of them as pure functions over
immutable Dafny values and proves properties about them:

- the support chat: the answer route (context assembly, prompt template,
  reply envelope) and the chat window's send state machine, plus the
  end-to-end guarantee that every accepted question gets exactly one reply;
- the client store: wishlist toggling and the cart actions with their
  invariant (unique ids, quantities ≥ 1), and the older wishlist hook;
- the cart's consumers: drawer subtotal and labels, navbar counts and active
  links, and the product page's quantity picker;
- the admin route guard in the request proxy;
- the promotion countdown, two-digit display, deal price and expiry;
- the admin analytics windows, revenue sums, growth figure and low-stock card;
- the stock badges and image fallback on the "New Arrivals" strip;
- the shop listing's category and search filters, ordering, empty state,
  search-box URL update and category sidebar;
- the WhatsApp button's number cleaning and link, the newsletter form, and
  the sign-up form's password gate.

Remote services are inputs rather than code: Gemini embedding and
generation, Supabase RPC, queries and auth, and `fetch`. They appear as
function-typed oracles (`string -> Result<…>`) or as outcome values
(`Option`/`Result`). The chat route also returns the sequence of remote
calls it made, so properties can talk about calls that are never issued.
Money is `real`, timestamps are integer milliseconds, and strings are
`seq<char>`.

Shared modules: `Wrappers` (Option/Result), `Text` (JavaScript string
built-ins: trim, startsWith, includes, join, padStart, `String(n)`, ASCII
lower-casing), `Seqs` (filtering a sequence by key) and `SearchParams` (the
`get`/`set`/`delete` part of `URLSearchParams`). `Brand` holds the support
phone number that several components hard-code.

### Behaviour worth knowing

The chat answer service is simpler and less forgiving than a reader might
expect. The model follows what the code does:

- A retrieval error is rethrown, so the request ends in the 500 envelope.
  It does not fall back to an empty context, and generation is never
  attempted (`ChatRoute.Post`).
- The route does not validate the message. A blank message is embedded like
  any other; only the chat window rejects blank input (`ChatRoute.Post`,
  `ChatClient.BeginSend`).
- There is no context budget: every retrieved chunk is joined in full.
- The threshold 0.3 and the chunk count 5 are literals, not configuration.
- Every failure reaches the browser as a 500 with a fixed `error` string,
  not as a user-facing fallback. The chat window supplies the fallback text
  itself.

Outside the chat, the analytics "last week" boundary is measured from
today's local midnight, not from the current instant. This is because
`now.setHours(0,0,0,0)` mutates `now` before the week boundaries are taken.

## Model

| member | source | states |
|---|---|---|
| ChatRoute.ContextText | app/api/chat/route.ts:34 | the context is never empty, and a null chunk list gives exactly "No internal context found." |
| ChatRoute.ContextKeepsEveryChunk | app/api/chat/route.ts:34 | with two or more chunks, every chunk's content appears verbatim at its own offset, in returned order, followed by a blank line unless it is last |
| ChatRoute.ContextIsSentinelIff | app/api/chat/route.ts:34 | the sentinel appears exactly for a null or empty list, or a single chunk whose content is empty or equals the sentinel |
| ChatRoute.BuildPrompt | app/api/chat/route.ts:41-56 | the prompt is the rules preamble, then the context, then the question header, then the message verbatim, then only the closing whitespace |
| ChatRoute.QuestionIsLast | app/api/chat/route.ts:54-56 | nothing but whitespace follows the question in the prompt |
| ChatRoute.PromptRoundTrip | app/api/chat/route.ts:51-55 | context and question can be read back unchanged from the prompt |
| ChatRoute.PromptStatesRules | app/api/chat/route.ts:42-49 | every prompt carries the persona, the "use ONLY the provided context" rule, +233535023614 and "24-48 hour delivery in Accra" |
| ChatRoute.Post | app/api/chat/route.ts:8-78 | 200 iff the body is `{text}`; every failure is the fixed 500 envelope; the parsed message is embedded first, unchecked; retrieval always asks for threshold 0.3 and 5 chunks; an RPC error ends the request with no generation call; on success the text is the generator's answer to the built prompt |
| ChatClient.BeginSend | components/shop/ai-chat-window.tsx:29-34 | a send is refused exactly when loading or the text (`customMsg` or else input) is whitespace; otherwise one user message with that text is appended, the input cleared and loading set |
| ChatClient.HandleSend | components/shop/ai-chat-window.tsx:28-58 | a refused send changes nothing; an accepted one keeps the history as a prefix, appends the user message and then one bot message, clears the input and ends not loading |
| ChatClient.BotReplyCases | components/shop/ai-chat-window.tsx:45-54 | the bot reply (`BotReply`) is the server text when it is non-empty, otherwise the fixed fallback, which contains +233535023614 |
| ChatClient.AcceptedSendReply | components/shop/ai-chat-window.tsx:32-57 | an accepted send grows the history by exactly two, ending with the reply to the text sent |
| ChatClient.HandleSendKeepsSettled | components/shop/ai-chat-window.tsx:28-58 | starting from a settled history (greeting, then alternating question and reply), every completed send leaves it settled |
| ChatClient.InitialSettled | components/shop/ai-chat-window.tsx:9-12 | the initial history is settled |
| ChatClient.EveryQuestionAnsweredOnce | components/shop/ai-chat-window.tsx:36-57 | against the route, each accepted question gets exactly one bot reply: the generated text on a non-empty 200, the WhatsApp fallback otherwise |
| ShopStore.ToggleWishlist | store/use-shop.ts:27-32 | membership of the id flips; every other id keeps its position and multiplicity; an absent id is appended at the end; the cart is untouched |
| ShopStore.ToggleTwiceRestores | store/use-shop.ts:29-31 | toggling an absent id twice restores the original state |
| ShopStore.AddToCart | store/use-shop.ts:33-46 | an existing id gains exactly one unit and nothing else changes; a new id is appended as one line of quantity 1, whatever quantity the product carried |
| ShopStore.ClampedAdd | store/use-shop.ts:51 | the result is at least 1, and equals q + delta unless that is below 1 |
| ShopStore.UpdateQuantity | store/use-shop.ts:47-54 | only lines with the id change, to `max(1, q + delta)`; ids, length and other lines are kept |
| ShopStore.RemoveFromCart | store/use-shop.ts:55-58 | the id is gone, other ids keep their membership, and the length drops by the number of matching lines |
| ShopStore.RemoveKeepsOrder | store/use-shop.ts:57 | removal distributes over concatenation, so the remaining lines keep their relative order |
| ShopStore.ClearCart | store/use-shop.ts:59 | the cart becomes empty and the wishlist is untouched |
| ShopStore.AddToCartKeepsValid | store/use-shop.ts:33-46 | unique ids and quantities ≥ 1 are preserved by `addToCart` |
| ShopStore.UpdateQuantityKeepsValid | store/use-shop.ts:47-54 | the cart invariant is preserved by `updateQuantity` |
| ShopStore.RemoveFromCartKeepsValid | store/use-shop.ts:55-58 | the cart invariant is preserved by `removeFromCart` |
| ShopStore.ClearCartKeepsValid | store/use-shop.ts:59 | the cleared cart satisfies the invariant |
| WishlistHook.ToggleWishlist | hooks/use-wishlist.ts:13-27 | membership of the product's id flips; an absent product is appended at the end with the "Added" toast; a present one is removed with the "Removed" toast |
| WishlistHook.ToggleKeepsOthers | hooks/use-wishlist.ts:14-21 | apart from the toggled id, the list is exactly what it was, in order |
| WishlistHook.ToggleKeepsOtherMembership | hooks/use-wishlist.ts:13-25 | membership (`IsInWishlist`) of every other id is unchanged |
| CartDrawer.ComputeSubtotal | components/cart-drawer.tsx:11 | the loop computes the left fold of price × quantity over the lines |
| CartDrawer.SubtotalAppend | components/cart-drawer.tsx:11 | the subtotal of a concatenation is the sum of the subtotals |
| CartDrawer.SubtotalReplace | components/cart-drawer.tsx:11 | replacing one line changes the subtotal by exactly the difference of the two line totals |
| CartDrawer.SubtotalAfterAddExisting | components/cart-drawer.tsx:11 | adding a product already in a valid cart raises the subtotal by that line's price |
| CartDrawer.SubtotalAfterAddNew | components/cart-drawer.tsx:11 | adding a new product raises the subtotal by its price |
| CartDrawer.HeaderLabelCountsLines | components/cart-drawer.tsx:25 | the drawer header (`HeaderLabel`) shows the number of lines, not units, followed by "Item" exactly when there is one line |
| CartDrawer.LineImage | components/cart-drawer.tsx:50 | the image is the line's non-empty URL, and the placeholder exactly when the URL is missing or empty; never empty |
| CartDrawer.PressEffects | components/cart-drawer.tsx:63-86 | minus lowers a line by one but not below 1, plus raises it by one, and trash removes the line's id |
| Navbar.ComputeCartCount | components/navbar.tsx:18 | the loop computes the sum of the line quantities |
| Navbar.CartCountAppend | components/navbar.tsx:18 | the count of a concatenation is the sum of the counts |
| Navbar.CartCountAtLeastLines | components/navbar.tsx:18 | in a valid cart the unit count is at least the number of lines |
| Navbar.CartCountReplace | components/navbar.tsx:18 | replacing one line changes the count by the difference of the quantities |
| Navbar.CartCountAfterAdd | components/navbar.tsx:18 | `addToCart` on a valid cart raises the badge count by exactly one |
| Navbar.CartBadgeIffNonEmpty | components/navbar.tsx:67 | for a valid cart the badge shows iff mounted and the cart has a line |
| Navbar.WishlistCount | components/navbar.tsx:14-19 | the store has no `wishlist` field, so the count is always 0 |
| Navbar.WishlistBadgeNeverShows | components/navbar.tsx:77-81 | the wishlist badge never shows, even right after an id is wishlisted |
| Navbar.IntendedWishlistCount | components/navbar.tsx:19 | the corrected count is 0 exactly when no id is wishlisted |
| Navbar.IntendedBadgeTracksWishlist | components/navbar.tsx:79 | with the corrected count the badge shows iff mounted and something is wishlisted; wishlisting shows it, and emptying the list hides it |
| Navbar.ActiveIndex | components/navbar.tsx:58-97 | returns a link whose href equals the pathname exactly, and none only when no link matches |
| Navbar.AtMostOneActive | components/navbar.tsx:58-97 | with distinct hrefs, an active link is the only one |
| Navbar.BarsHighlightOne | components/navbar.tsx:25-39 | both bars have distinct hrefs; "/shop" highlights Shop/Explore, "/shop/kit-1" highlights nothing, "/wishlist" highlights the mobile Wishlist tab |
| ProductActions.InitialQty | components/shop/Product-actions.tsx:8 | the counter starts at exactly 1, the lowest value the minus button allows |
| ProductActions.Decrement | components/shop/Product-actions.tsx:18 | minus lowers the counter by one but never below 1 |
| ProductActions.CounterAtLeastOne | components/shop/Product-actions.tsx:8-25 | any sequence of presses leaves the counter (`Counter`) at least 1 |
| ProductActions.CounterBounds | components/shop/Product-actions.tsx:8-25 | the counter (`Counter`) lies between 1 and 1 + the number of plus presses, reaching it when every press is plus; one more plus raises it by one and one more minus lowers it by one, not below 1 |
| ProductActions.HeartFlips | components/shop/Product-actions.tsx:10-34 | the heart button flips whether the product is wishlisted and leaves the cart alone |
| ProductActions.Payload | components/shop/Product-actions.tsx:45 | the payload is the product with `quantity` set to the counter |
| ProductActions.AddIgnoresQuantity | components/shop/Product-actions.tsx:45 | the resulting cart does not depend on the counter value |
| ProductActions.AddAddsOneUnit | components/shop/Product-actions.tsx:45 | whatever the counter shows, adding raises the cart count by exactly one and keeps the cart valid |
| Proxy.ToLogin | proxy.ts:33-35 | the login redirect changes only the pathname, to "/login" |
| Proxy.ToDashboard | proxy.ts:47-50 | the unauthorized redirect goes to "/dashboard" with `error=unauthorized`, and every other query parameter is kept |
| Proxy.Proxy | proxy.ts:5-55 | paths outside "/admin" pass; a guarded path without a user goes to login; one whose profile is missing or not admin goes to the dashboard |
| Proxy.PassesIff | proxy.ts:12-54 | a request passes exactly when the path is unguarded or the user is a signed-in admin |
| Proxy.RedirectsSettle | proxy.ts:32-51 | neither redirect target is guarded, so following a redirect is passed through |
| Proxy.PrefixGuard | proxy.ts:12 | every path starting with "/admin" is guarded, "/administrator" included; "/dashboard" and "/adm" are not |
| Promotions.CalculateTimeLeft | components/promotions/promotion-section.tsx:11-20 | null exactly when the difference is at most 0 ms; otherwise hours in [0,24) and minutes and seconds in [0,60) |
| Promotions.JsFloorModIsIntegerMod | components/promotions/promotion-section.tsx:16-18 | for a positive difference, JavaScript's `Math.floor((d / k) % n)` on reals equals integer `(d / k) % n` |
| Promotions.CountdownMatchesSource | components/promotions/promotion-section.tsx:16-18 | each unit equals the source's real-number floor-of-remainder expression |
| Promotions.TimeLeftRecombines | components/promotions/promotion-section.tsx:16-18 | h·3600 + m·60 + s equals the whole seconds of the difference mod 86400 |
| Promotions.TimeLeftIgnoresWholeDays | components/promotions/promotion-section.tsx:16-18 | adding any number of whole days to the target leaves (h, m, s) unchanged |
| Promotions.Pad2RoundTrip | components/promotions/promotion-section.tsx:48 | a value below 100 displays as exactly two digits that read back as the value |
| Promotions.CellsReadBack | components/promotions/promotion-section.tsx:42-51 | the timer shows three cells H, M, S, each two digits reading back as its unit |
| Promotions.DealPrice | components/promotions/promotion-section.tsx:125 | the deal price is the list price less the discount's share of it: for a non-negative price and a discount in [0,100] it lies in [0, price], equal to the price at 0 % and to 0 at 100 % |
| Promotions.DealPriceBounds | components/promotions/promotion-section.tsx:125 | for a non-negative price and a discount in [0,100], the deal price lies in [0, price], equalling the price at 0 and 0 at 100 |
| Promotions.Expire | components/promotions/promotion-section.tsx:131 | the expired id is gone, every other promo stays, and nothing new appears |
| Promotions.ExpireKeepsOrder | components/promotions/promotion-section.tsx:131 | expiry distributes over concatenation and leaves a list without that id unchanged |
| Promotions.TickRemovesOnlyExpired | components/promotions/promotion-section.tsx:26-34 | one timer tick (`Tick`) removes its promo exactly when its end time has passed, and no other promo |
| Analytics.LocalMidnight | components/admin/analytics-summary.tsx:30 | the start of today is a local midnight no later than now and less than a day before it |
| Analytics.WindowsAt | components/admin/analytics-summary.tsx:29-32 | last week and two weeks ago are 7 and 14 days before today's midnight |
| Analytics.LastWeekAnchoredAtMidnight | components/admin/analytics-summary.tsx:29-32 | the last-week boundary lies up to a day before "now − 7 days", and equals it only at midnight itself |
| Analytics.PeriodsRelate | components/admin/analytics-summary.tsx:41-46 | no order is in both this week and last week, and today's orders are within this week |
| Analytics.Orders | components/admin/analytics-summary.tsx:41-46 | the filter keeps exactly the orders inside the window, in order and with their multiplicity |
| Analytics.RevenueSnoc | components/admin/analytics-summary.tsx:48-50 | appending an order to the list adds exactly its amount to the revenue |
| Analytics.WeeksCountEachOrderOnce | components/admin/analytics-summary.tsx:42-46 | this week's and last week's orders together never exceed all orders |
| Analytics.TodayCountWithinThisWeek | components/admin/analytics-summary.tsx:41-42 | there are no more of today's orders than this week's |
| Analytics.TodayRevenueWithinThisWeek | components/admin/analytics-summary.tsx:48-50 | with non-negative amounts, today's sales are at most this week's revenue |
| Analytics.JsRound | components/admin/analytics-summary.tsx:57 | `Math.round` lies within half a unit, ties going up |
| Analytics.RevenueGrowthCases | components/admin/analytics-summary.tsx:52-57 | growth (`RevenueGrowth`) is 100 when last week is 0, 0 for equal weeks and 100 for doubled revenue; with positive last-week revenue it is non-negative when revenue did not fall and positive only when it grew |
| Analytics.NotCancelled | components/admin/analytics-summary.tsx:35 | keeps exactly the orders whose status is present and not "cancelled", in order and with their multiplicity; a NULL status fails the SQL comparison and is dropped |
| Analytics.LowStock | components/admin/analytics-summary.tsx:36 | keeps exactly the products whose stock is present and below 5, in order and with their multiplicity; a NULL stock is dropped |
| Analytics.FetchAnalytics | components/admin/analytics-summary.tsx:28-64 | a failed orders query leaves the initial stats; otherwise revenue, order counts, growth and today's sales come from the windows; whenever the products query answers, the low-stock items are exactly its rows whose stock is present and below 5 |
| Analytics.ListedItems | components/admin/analytics-summary.tsx:102 | at most the first two low-stock items are listed |
| Analytics.InventoryHeadlineIff | components/admin/analytics-summary.tsx:98 | the card headline (`InventoryHeadline`) is "Optimal" exactly when nothing is low, otherwise the decimal count followed by " Low" |
| Analytics.OrdersFailureHidesLowStock | components/admin/analytics-summary.tsx:39-63 | when the orders query fails the card reads "Optimal" even if products are low |
| RecentProducts.Badge | components/recent-products/recent-products.tsx:66-87 | a badge shows iff the product is low or out of stock; "Sold Out" iff out of stock; "Low Stock" iff low |
| RecentProducts.BadgeClassifiesStock | components/recent-products/recent-products.tsx:66-79 | the two flags exclude each other, and a badge shows exactly for a known stock from 0 to 5 |
| RecentProducts.CardImageFallback | components/recent-products/recent-products.tsx:92 | the card has a usable image iff either column has one |
| RecentProducts.AfterFetch | components/recent-products/recent-products.tsx:16-28 | loading ends; the rows replace the list only on an error-free reply with data |
| RecentProducts.ShownIffRowsReturned | components/recent-products/recent-products.tsx:24-32 | the strip appears exactly when the query returned at least one row |
| ShopPage.SearchIsSubstring | app/shop/page.tsx:23-25 | for a search text without `%`, `*`, `_` or `\`, `ILIKE '%q%'` is case-insensitive substring search |
| ShopPage.LikeLeadingPercent | app/shop/page.tsx:24 | a leading `%` matches iff the rest matches some suffix |
| ShopPage.LikeLiteralHead | app/shop/page.tsx:24 | a wildcard-free literal matches exactly the same prefix |
| ShopPage.Filter | app/shop/page.tsx:15-25 | kept rows satisfy both filters, and every satisfying row is kept with its multiplicity |
| ShopPage.Insert | app/shop/page.tsx:27 | inserting into a newest-first list keeps it newest first and adds exactly the new row |
| ShopPage.SortNewestFirst | app/shop/page.tsx:27 | the result is ordered by `created_at` descending and is a permutation of the input |
| ShopPage.Listing | app/shop/page.tsx:12-27 | a failed query lists nothing; otherwise newest first, containing exactly the table rows that pass the category and search filters |
| ShopPage.NoParamsListsAll | app/shop/page.tsx:18-25 | without a category (or with "all") and without search text, the whole table is listed |
| ShopPage.EmptyStateCases | app/shop/page.tsx:56-65 | a failed query shows the empty state, and the message names the search text exactly when there is one |
| ShopPage.CurrentCategoryIsAllIff | app/shop/page.tsx:18-51 | the sidebar gets "all" exactly when no category filter applies |
| ShopSearch.TargetParams | components/shop/Shop-search.tsx:14-20 | after the push, `q` is the typed text (absent when empty), and every other parameter reads as before |
| ShopSearch.SearchRoundTrip | components/shop/Shop-search.tsx:10-20 | reloading the pushed URL puts the same text back in the box |
| ShopSearch.TargetIdempotent | components/shop/Shop-search.tsx:12-24 | re-running the effect on the URL it pushed pushes the same URL, so the update settles |
| ShopSearch.SearchKeepsCategory | components/shop/Shop-search.tsx:14-20 | the category parameter survives a search, and the listing filters by name exactly when the text is non-empty |
| ShopFilters.Target | components/shop/Shop-filters.tsx:25 | the URL a category button pushes goes to "/shop" with that category and no search text |
| ShopFilters.AtMostOneHighlighted | components/shop/Shop-filters.tsx:5-27 | the four ids are distinct, so at most one button is highlighted |
| ShopFilters.DefaultHighlightsAll | app/shop/page.tsx:51 | without a category, "All Products" is highlighted and no category filter applies |
| ShopFilters.ClickHighlightsItself | components/shop/Shop-filters.tsx:25-27 | the URL a click pushes leads to a page that highlights the button, filters by it unless it is "all", and has no search text |
| Whatsapp.StripNonDigits | components/ui/whatsapp-button.tsx:18 | the cleaned number holds only digits and is no longer than the input |
| Whatsapp.StripAppend | components/ui/whatsapp-button.tsx:18 | stripping distributes over concatenation, so the digits keep their order |
| Whatsapp.StripKeepsDigits | components/ui/whatsapp-button.tsx:18 | a string of digits is unchanged |
| Whatsapp.StripCounts | components/ui/whatsapp-button.tsx:18 | each digit occurs as often as in the input, and no other character occurs |
| Whatsapp.StripIdempotent | components/ui/whatsapp-button.tsx:18 | stripping twice is stripping once |
| Whatsapp.SupportNumberDigits | components/ui/whatsapp-button.tsx:14-18 | "+233535023614" becomes "233535023614" |
| Whatsapp.ChatUrlNamesNumber | components/ui/whatsapp-button.tsx:18-20 | the number WhatsApp reads from the link is exactly the cleaned number, whatever the encoded message |
| Whatsapp.ButtonLinksSupport | components/ui/whatsapp-button.tsx:9-20 | the button as shipped links to 233535023614 |
| Newsletter.Submit | components/newsletter.tsx:17 | submitting sets the status to loading and keeps email and message |
| Newsletter.ErrorMessage | components/newsletter.tsx:25 | "You're already on the list!" exactly for code 23505, otherwise "Try again later." |
| Newsletter.Complete | components/newsletter.tsx:23-30 | success clears the email and welcomes; an error keeps the email and sets the mapped message |
| Newsletter.ButtonOnlyDisabledWhilePending | components/newsletter.tsx:17-75 | the button is disabled while the insert is pending and enabled once it answers |
| Newsletter.SubscribeOutcomes | components/newsletter.tsx:23-88 | a completed submit (`HandleSubscribe`) either replaces the form with the welcome banner and clears the email, or keeps the form and email and shows the error line |
| Newsletter.DuplicateIff | components/newsletter.tsx:23-25 | the "already on the list" message appears exactly for a 23505 error |
| Newsletter.RetryKeepsEmail | components/newsletter.tsx:23-25 | after a failure the next submit sends the same email, and it too ends not loading |
| SignUp.Begin | components/sign-up-form.tsx:35-36 | each submit sets loading and clears any earlier error first |
| SignUp.HandleSignUp | components/sign-up-form.tsx:32-59 | loading is false afterwards; the sign-up call is made iff the passwords match, with the form's email, password and callback URL; a mismatch shows "Passwords do not match" and does not navigate |
| SignUp.AttemptOutcomes | components/sign-up-form.tsx:38-140 | an attempt navigates to "/auth/sign-up-success" iff the passwords match and the call succeeds; otherwise an error is recorded, and it shows unless it is an `Error` thrown with an empty message |
| SignUp.RemoteErrorShown | components/sign-up-form.tsx:52-55 | a remote failure shows the thrown message, or the generic text for a non-Error |
| SignUp.MismatchIgnoresOutcome | components/sign-up-form.tsx:38-42 | with mismatched passwords the outcome of the (unmade) call is irrelevant |
| SignUp.ErrorFromLatestAttemptOnly | components/sign-up-form.tsx:36 | an earlier error never survives a new attempt |
| Text.TrimEmptyIffAllWhitespace | components/shop/ai-chat-window.tsx:30 | `!s.trim()` holds exactly for strings made only of JavaScript whitespace |
| Text.JoinPartAt | app/api/chat/route.ts:34 | each part appears verbatim at its offset in the join, followed by the separator unless it is last |
| Text.NatToStringRoundTrip | components/promotions/promotion-section.tsx:48 | `String(n)` reads back as n |
| SearchParams.GetAfterSet | components/shop/Shop-search.tsx:16 | after `set`, the name reads as the new value and every other name as before |
| SearchParams.GetAfterDelete | components/shop/Shop-search.tsx:18 | after `delete`, the name is absent and every other name reads as before |
| SearchParams.SetIdempotent | components/shop/Shop-search.tsx:16 | setting the same value twice is setting it once |
| SearchParams.DeleteIdempotent | components/shop/Shop-search.tsx:18 | deleting twice is deleting once |
| ChatRoute.PreambleStatesRules | app/api/chat/route.ts:42-49 | the fixed preamble contains the persona, the grounding rule, the support number and the delivery window |
| ChatRoute.RuleUnsureNamesPhone | app/api/chat/route.ts:47 | the "if unsure" rule names +233535023614 |
| ChatRoute.RuleDeliveryNamesWindow | app/api/chat/route.ts:49 | the shipping rule names "24-48 hour delivery in Accra" |
| ChatRoute.PromptContainsPreamble | app/api/chat/route.ts:41-56 | every prompt, whatever the context and question, contains the preamble |
| ChatClient.RouteReply | app/api/chat/route.ts:63-76 | the route answers 200 exactly when its body is a `{text}` body |
| ChatClient.ReplyBecomesBotMessage | components/shop/ai-chat-window.tsx:45-54 | a 200 reply with non-empty text becomes that text; any other reply becomes the fallback |
| Promotions.TimeLeftIgnoresOneDay | components/promotions/promotion-section.tsx:16-18 | moving the target one day later leaves a running countdown unchanged |
| Promotions.DaySecondsPeriodic | components/promotions/promotion-section.tsx:16-18 | the seconds within the day that the timer shows repeat every 86 400 000 ms |
| ShopPage.CurrentCategory | app/shop/page.tsx:51 | the sidebar always receives a non-empty category |
| ShopStore.MapQuantity | store/use-shop.ts:49-53 | the cart keeps its length and ids; only lines with the id get the new quantity |
| Seqs.Drop | store/use-shop.ts:57 | filtering out a key leaves no line with it, keeps only original lines, keeps every line with another key, and shrinks by the count of matches |
| Seqs.DropAppend | store/use-shop.ts:57 | filtering distributes over concatenation |
| Seqs.DropAbsent | hooks/use-wishlist.ts:18 | filtering out a key no element has changes nothing |
| Seqs.DropKeepsOtherKeys | store/use-shop.ts:57 | every other key is present after filtering exactly when it was before |
| Seqs.DropKeepsUnique | store/use-shop.ts:57 | filtering keeps the keys unique |
| Seqs.DropShrinks | store/use-shop.ts:57 | filtering out a key that occurs makes the list strictly shorter |
| Seqs.CountKeyPositive | store/use-shop.ts:57 | a key that occurs is counted at least once |
| SearchParams.Get | components/shop/Shop-search.tsx:10 | reads the value of the first parameter with the name, and none exactly when no parameter has it |
| SearchParams.GetAppend | components/shop/Shop-search.tsx:16 | appending a parameter only changes reads of a name not present before |
| SearchParams.DeleteAfterSet | components/shop/Shop-search.tsx:15-18 | deleting after setting is deleting alone |
| SearchParams.ReplaceFirstIdempotent | components/shop/Shop-search.tsx:16 | replacing the first occurrence twice with one value is replacing it once |
| ShopSearch.Target | components/shop/Shop-search.tsx:20 | the search always navigates to "/shop" |
| Text.TrimStart | components/shop/ai-chat-window.tsx:30 | removes exactly the leading run of whitespace, leaving a suffix that starts with a non-space |
| Text.TrimEnd | components/shop/ai-chat-window.tsx:30 | removes exactly the trailing run of whitespace, leaving a prefix that ends with a non-space |
| Text.JoinLength | app/api/chat/route.ts:34 | the join is as long as the parts plus one separator between each pair |
| Text.JoinEmptyIff | app/api/chat/route.ts:34 | a join with a non-empty separator is empty exactly for no parts or one empty part |
| Text.JoinSnoc | app/api/chat/route.ts:34 | joining one more part appends the separator and that part |
| Text.ContainsTrans | app/api/chat/route.ts:41-56 | a substring of a substring is a substring |
| Text.NatToString | components/promotions/promotion-section.tsx:48 | `String(n)` is all digits, one digit exactly below 10, and has no leading zero |
| Text.PadStart | components/promotions/promotion-section.tsx:48 | pads on the left with the fill to the width, keeping the string as the suffix |
| Whatsapp.StripLeadingSign | components/ui/whatsapp-button.tsx:18 | a non-digit sign in front of a digit run is dropped and the run is kept |
| Whatsapp.ChatUrl | components/ui/whatsapp-button.tsx:20 | the link always starts with "https://wa.me/" |
| Whatsapp.LeadingDigits | components/ui/whatsapp-button.tsx:20 | reads the longest digit prefix, as WhatsApp reads the number from the link path |
| Whatsapp.LeadingDigitsOfRun | components/ui/whatsapp-button.tsx:20 | a digit run followed by a non-digit is read back whole |
| Analytics.OrdersAppend | components/admin/analytics-summary.tsx:41-46 | the window filter distributes over concatenation |
| Analytics.Revenue | components/admin/analytics-summary.tsx:48-50 | the revenue of no orders is 0, and of orders with non-negative amounts is non-negative |
| Analytics.NotCancelledSnoc | components/admin/analytics-summary.tsx:35 | one more order is kept at the end exactly when its status is present and not "cancelled" |
| Analytics.NotCancelledAppend | components/admin/analytics-summary.tsx:35 | the status filter distributes over concatenation |
| Analytics.LowStockSnoc | components/admin/analytics-summary.tsx:36 | one more product is kept at the end exactly when its stock is present and below 5 |
| Analytics.LowStockAppend | components/admin/analytics-summary.tsx:36 | the stock filter distributes over concatenation |
| Analytics.NullRowsDropped | components/admin/analytics-summary.tsx:35-36 | an order with a NULL status and a product with a NULL stock pass neither filter, while a present status or a stock of 0 does |
| CartDrawer.SubtotalNonNegative | components/cart-drawer.tsx:11 | the subtotal (`Subtotal`) of an empty cart is 0, and of lines with non-negative prices and quantities is non-negative |
| CartDrawer.EmptyStateIffNoFooter | components/cart-drawer.tsx:35-104 | the drawer shows the empty state exactly when it hides the checkout footer, and a hidden footer means a zero subtotal |
| CartDrawer.LineImageFallback | components/cart-drawer.tsx:50 | the placeholder shows exactly for a missing or empty URL or one naming the placeholder; any other image is the line's own URL |
| CartDrawer.AddExistingBumpsLine | store/use-shop.ts:35-43 | adding a product already in a valid cart replaces its line with the same line one unit higher and leaves the other lines in place |
| CartDrawer.LineTotalBump | components/cart-drawer.tsx:11 | one more unit raises a line's total by exactly its price |
| ShopPage.StarInSearchIsWildcard | app/shop/page.tsx:24 | a `*` typed into the search box matches any run, as `%` does, so "a*c" finds "abc"; an escaped `\*` does not |
| ShopPage.SearchPatternEndsInWildcard | app/shop/page.tsx:24 | the built pattern always ends in an unescaped `%`, so a trailing backslash in the text escapes that `%` rather than ending the pattern |
| ShopFilters.SettlesWithSearchText | components/shop/Shop-search.tsx:12-20 | after a category click, the search box pushes a URL that keeps the category, highlights the button, and carries the box's text as `q` exactly when it is non-empty |
| Text.LowerIdempotent | app/shop/page.tsx:24 | lower-casing (`Lower`) twice is lower-casing once, and leaves a string unchanged exactly when it has no upper-case ASCII letter |
| Proxy.SignedOutRedirectMissesPage | proxy.ts:31-35 | a signed-out request to a guarded path is redirected to "/login", a path that no page or link of the storefront names, while "/auth/login", which every other sign-in link and redirect uses, is one of the storefront's routes |
| Proxy.ToAuthLogin | proxy.ts:33-35 | the corrected sign-in redirect changes only the pathname, to "/auth/login", an existing page that is not guarded |
| Proxy.ProxyIntended | proxy.ts:5-55 | with the corrected sign-in target the guard passes exactly the same requests, and every redirect goes to "/auth/login" or "/dashboard", neither guarded |
| Proxy.IntendedRedirectsArePages | proxy.ts:31-51 | with the correction every redirect lands on one of the page routes, and it goes to "/auth/login" exactly where the code as written goes to "/login" |

## Left out

- Rendering, animation, dialogs and carousels: only the values a component
  computes are modelled, not the markup.
- Persistence: the store's `persist` layer and the wishlist hook's
  `localStorage` reads and writes. Only in-memory transitions are modelled.
- Timers: the countdown's one-second `setInterval` is modelled as one `Tick`
  per call, and the search box's 400 ms debounce as the navigation that
  finally fires. Interleavings of overlapping async handlers are not modelled.
- Remote services are inputs: Gemini embedding and generation, Supabase
  RPC, queries and auth, `fetch`, and the router. Vector similarity is not
  modelled; the RPC's reply is given.
- The proxy's matcher regex, the `updateSession` internals and its cookie
  handling.
- `console` logging in the chat route.
- Browser form validation: the newsletter's `type="email" required` and the
  sign-up inputs' constraints are not modelled.
- The sign-up form's show-password toggle and the chat window's auto-scroll
  and close button.
- The product card's wishlist wiring. It reads the undefined `wishlist`
  field like the navbar does; only the navbar's count is modelled.
- The admin CRUD modals, the login and forgot-password forms, and the static
  pages.
- ShopPage.SortNewestFirst: rows with equal `created_at` may come out in any
  order, because the database fixes none; only the ordering and the
  permutation are stated.
- ShopPage.ILike: lower-cases ASCII letters only. The database's
  locale-aware case folding of other letters is not modelled.
- ShopSearch.Target: the pushed URL is its parameter list. The
  `toString` serialisation and percent-encoding are not modelled.
- Whatsapp.ChatUrl: `encodeURIComponent` is a parameter. Only the link's
  number part is proved; the message part is whatever the encoder returns.
- Analytics.LocalMidnight: local time is a fixed offset from UTC, so
  daylight-saving changes are not modelled.
- Analytics.FetchAnalytics: timestamps are already-parsed milliseconds and
  amounts are already numbers. `new Date(…)` and `Number(…)` are not
  modelled.
- Promotions.CalculateTimeLeft: the target date is already-parsed
  milliseconds. `new Date(targetDate)` and the clock are parameters.
- RecentProducts.AfterFetch: the `is_new` filter, the ordering and the limit
  of 4 are applied by the database. The model takes the returned rows as
  given.
- ChatRoute.Post: the parsed body's `message` is a string. A JSON body
  whose `message` is missing or not a string, which the route passes to the
  embedding call unchecked, is not modelled.
- ShopPage.CategoryParam and ShopPage.QParam: the page's `searchParams`
  prop is taken as an already resolved object, each key read once. A key
  repeated in the URL arriving as an array, and a prop handed over as a
  promise by newer Next.js versions, are not modelled.
- Promotions.DealPrice, CartDrawer.Subtotal and the analytics revenues use
  exact reals. Floating-point rounding and `toFixed(2)` formatting are not
  modelled.

## Findings

| source | as written | input that shows it | evidently intended | confidence | as-written member | corrected member |
|---|---|---|---|---|---|---|
| components/navbar.tsx:14-19 | the wishlist badge counts `state.wishlist`, a field the store does not have, so the count is always 0 | wishlist any product, so the store's `wishlistIds` is non-empty; the badge still does not show | count the store's `wishlistIds`, so the badge shows once something is wishlisted | high (not executed) | Navbar.WishlistBadgeNeverShows | Navbar.IntendedBadgeTracksWishlist |
| proxy.ts:34 | a signed-out visitor to an admin page is redirected to "/login", a path that no page or link of the storefront names; this assumes the app has no `login` page route | request "/admin/orders" with no session: the redirect goes to "/login" | "/auth/login", the sign-in page every other sign-in link and redirect uses | high (not executed) | Proxy.SignedOutRedirectMissesPage | Proxy.ProxyIntended |

=== FILE: analytics.dfy ===
/** The admin dashboard's weekly summary: time windows anchored at today's
    local midnight, order counts and revenue per window, the growth figures,
    and the low-stock card. The two database queries are table snapshots
    (`None` when the query failed); their filters are applied here. The clock
    reading and the local time zone's offset are parameters. */
module Analytics {
  import opened Wrappers
  import Text

  const DayMs: int := 24 * 60 * 60 * 1000

  /** A row of `orders`: `total_amount`, `created_at` as epoch milliseconds,
      and `status`, which may be NULL (`None`). */
  datatype Order = Order(totalAmount: real, createdAt: int, status: Option<string>)

  /** A row of `products`: `name` and `stock_quantity`, which may be NULL. */
  datatype ProductRow = ProductRow(name: string, stockQuantity: Option<int>)

  /** `status <> 'cancelled'` in SQL: a NULL status compares unknown, so the
      row does not pass. */
  predicate Uncancelled(o: Order) {
    o.status.Some? && o.status.value != "cancelled"
  }

  // ---------------------------------------------------------------------
  // Windows
  // ---------------------------------------------------------------------

  datatype Windows = Windows(startOfToday: int, lastWeek: int, twoWeeksAgo: int)

  /** `now.setHours(0, 0, 0, 0)` in a zone `offsetMs` ahead of UTC: the last
      local midnight at or before `nowMs`. */
  function LocalMidnight(nowMs: int, offsetMs: int): (m: int)
    ensures m <= nowMs < m + DayMs
    ensures (m + offsetMs) % DayMs == 0
  {
    ((nowMs + offsetMs) / DayMs) * DayMs - offsetMs
  }

  /** The three boundaries. `setHours` mutates `now`, so `lastWeek` and
      `twoWeeksAgo` are counted back from midnight, not from the clock. */
  function WindowsAt(nowMs: int, offsetMs: int): (w: Windows)
    ensures w.startOfToday == LocalMidnight(nowMs, offsetMs)
    ensures w.lastWeek == w.startOfToday - 7 * DayMs
    ensures w.twoWeeksAgo == w.startOfToday - 14 * DayMs
  {
    var start := LocalMidnight(nowMs, offsetMs);
    Windows(start, start - 7 * DayMs, start - 14 * DayMs)
  }

  /** The "last week" boundary lies up to a day earlier than seven days
      before the clock reading, and meets it only at midnight itself. */
  lemma LastWeekAnchoredAtMidnight(nowMs: int, offsetMs: int)
    ensures var w := WindowsAt(nowMs, offsetMs);
            && nowMs - 7 * DayMs - DayMs < w.lastWeek <= nowMs - 7 * DayMs
            && (w.lastWeek == nowMs - 7 * DayMs <==> (nowMs + offsetMs) % DayMs == 0)
  {
    if (nowMs + offsetMs) % DayMs == 0 {
      assert (nowMs + offsetMs) == ((nowMs + offsetMs) / DayMs) * DayMs;
    }
  }

  datatype Period = Today | ThisWeek | LastWeek

  /** The three `filter` conditions of the source. */
  predicate InPeriod(o: Order, p: Period, w: Windows) {
    match p
    case Today => o.createdAt >= w.startOfToday
    case ThisWeek => o.createdAt > w.lastWeek
    case LastWeek => o.createdAt <= w.lastWeek && o.createdAt > w.twoWeeksAgo
  }

  /** This week and last week never share an order, and today's orders are
      all this week's. */
  lemma PeriodsRelate(nowMs: int, offsetMs: int, o: Order)
    ensures var w := WindowsAt(nowMs, offsetMs);
            && !(InPeriod(o, ThisWeek, w) && InPeriod(o, LastWeek, w))
            && (InPeriod(o, Today, w) ==> InPeriod(o, ThisWeek, w))
  {
  }

  /** `allOrders.filter(...)` for one period, in the original order: each
      order of the period is kept as often as it occurs, every other dropped. */
  function Orders(xs: seq<Order>, p: Period, w: Windows): (r: seq<Order>)
    ensures |r| <= |xs|
    ensures forall i :: 0 <= i < |r| ==> InPeriod(r[i], p, w)
    ensures forall x :: multiset(r)[x] == if InPeriod(x, p, w) then multiset(xs)[x] else 0
  {
    if xs == [] then []
    else
      var front := Orders(xs[..|xs| - 1], p, w);
      var last := xs[|xs| - 1];
      assert xs == xs[..|xs| - 1] + [last];
      assert multiset(xs) == multiset(xs[..|xs| - 1]) + multiset{last};
      if InPeriod(last, p, w) then front + [last] else front
  }

  /** Filtering a concatenation filters each part and keeps them in order. */
  lemma {:induction false} OrdersAppend(a: seq<Order>, b: seq<Order>, p: Period, w: Windows)
    ensures Orders(a + b, p, w) == Orders(a, p, w) + Orders(b, p, w)
  {
    if b != [] {
      var front := b[..|b| - 1];
      assert (a + b)[..|a + b| - 1] == a + front;
      assert (a + b)[|a + b| - 1] == b[|b| - 1];
      OrdersAppend(a, front, p, w);
    } else {
      assert a + b == a;
    }
  }

  /** `reduce((acc, o) => acc + Number(o.total_amount), 0)`: no list of
      non-negative amounts sums to less than zero. */
  function Revenue(xs: seq<Order>): (r: real)
    ensures NonNegativeAmounts(xs) ==> r >= 0.0
    ensures xs == [] ==> r == 0.0
  {
    if xs == [] then 0.0
    else
      assert NonNegativeAmounts(xs) ==> NonNegativeAmounts(xs[..|xs| - 1]);
      Revenue(xs[..|xs| - 1]) + xs[|xs| - 1].totalAmount
  }

  /** Appending one order to a filtered list adds its amount. */
  lemma RevenueSnoc(xs: seq<Order>, x: Order)
    ensures Revenue(xs + [x]) == Revenue(xs) + x.totalAmount
  {
    assert (xs + [x])[..|xs + [x]| - 1] == xs;
  }

  /** Between them this week and last week count each order at most once. */
  lemma {:induction false} WeeksCountEachOrderOnce(xs: seq<Order>, nowMs: int, offsetMs: int)
    ensures var w := WindowsAt(nowMs, offsetMs);
            |Orders(xs, ThisWeek, w)| + |Orders(xs, LastWeek, w)| <= |xs|
  {
    if xs != [] {
      WeeksCountEachOrderOnce(xs[..|xs| - 1], nowMs, offsetMs);
      PeriodsRelate(nowMs, offsetMs, xs[|xs| - 1]);
    }
  }

  /** Today never counts more orders than this week. */
  lemma {:induction false} TodayCountWithinThisWeek(xs: seq<Order>, nowMs: int, offsetMs: int)
    ensures var w := WindowsAt(nowMs, offsetMs);
            |Orders(xs, Today, w)| <= |Orders(xs, ThisWeek, w)|
  {
    if xs != [] {
      TodayCountWithinThisWeek(xs[..|xs| - 1], nowMs, offsetMs);
      PeriodsRelate(nowMs, offsetMs, xs[|xs| - 1]);
    }
  }

  predicate NonNegativeAmounts(xs: seq<Order>) {
    forall i :: 0 <= i < |xs| ==> xs[i].totalAmount >= 0.0
  }

  /** With non-negative amounts, today's revenue never exceeds this week's. */
  lemma {:induction false} TodayRevenueWithinThisWeek(xs: seq<Order>, nowMs: int, offsetMs: int)
    requires NonNegativeAmounts(xs)
    ensures var w := WindowsAt(nowMs, offsetMs);
            Revenue(Orders(xs, Today, w)) <= Revenue(Orders(xs, ThisWeek, w))
  {
    if xs != [] {
      var w := WindowsAt(nowMs, offsetMs);
      var front := xs[..|xs| - 1];
      var last := xs[|xs| - 1];
      assert NonNegativeAmounts(front) by {
        forall i | 0 <= i < |front|
          ensures front[i].totalAmount >= 0.0
        {
          assert front[i] == xs[i];
        }
      }
      TodayRevenueWithinThisWeek(front, nowMs, offsetMs);
      PeriodsRelate(nowMs, offsetMs, last);
      RevenueSnoc(Orders(front, Today, w), last);
      RevenueSnoc(Orders(front, ThisWeek, w), last);
    }
  }

  // ---------------------------------------------------------------------
  // Growth
  // ---------------------------------------------------------------------

  /** `Math.round`: the nearest integer, halves rounded up. */
  function JsRound(x: real): (r: int)
    ensures x - 0.5 < r as real <= x + 0.5
  {
    (x + 0.5).Floor
  }

  /** `lastWeekRev === 0 ? 100 : ((thisWeekRev - lastWeekRev) / lastWeekRev) * 100`, rounded. */
  function RevenueGrowth(thisWeek: real, lastWeek: real): int {
    if lastWeek == 0.0 then 100 else JsRound((thisWeek - lastWeek) / lastWeek * 100.0)
  }

  /** No revenue last week reads as 100 % growth whatever this week made;
      otherwise the figure is the rounded percentage change, so equal weeks
      read 0 and a doubled week reads 100. */
  lemma RevenueGrowthCases(thisWeek: real, lastWeek: real)
    ensures lastWeek == 0.0 ==> RevenueGrowth(thisWeek, lastWeek) == 100
    ensures lastWeek != 0.0 && thisWeek == lastWeek ==> RevenueGrowth(thisWeek, lastWeek) == 0
    ensures lastWeek != 0.0 && thisWeek == 2.0 * lastWeek ==> RevenueGrowth(thisWeek, lastWeek) == 100
    ensures lastWeek > 0.0 && thisWeek >= lastWeek ==> RevenueGrowth(thisWeek, lastWeek) >= 0
    ensures lastWeek > 0.0 && RevenueGrowth(thisWeek, lastWeek) > 0 ==> thisWeek > lastWeek
  {
    if lastWeek != 0.0 {
      var change := (thisWeek - lastWeek) / lastWeek * 100.0;
      if thisWeek == 2.0 * lastWeek {
        assert (thisWeek - lastWeek) / lastWeek == 1.0;
      }
      if lastWeek > 0.0 {
        assert thisWeek >= lastWeek ==> change >= 0.0;
        assert thisWeek <= lastWeek ==> change <= 0.0;
      }
    }
  }

  // ---------------------------------------------------------------------
  // The summary
  // ---------------------------------------------------------------------

  datatype Stats = Stats(
    totalRevenue: real,
    newGrowers: int,
    revenueGrowth: int,
    orderGrowth: int,
    todaySales: real,
    lowStockItems: seq<ProductRow>
  )

  /** The state before (and, when the orders query fails, after) loading. */
  function InitialStats(): Stats {
    Stats(0.0, 0, 0, 0, 0.0, [])
  }

  /** `.neq("status", "cancelled")`: every row with a status other than
      "cancelled" as often as it occurs, every cancelled or NULL-status one
      dropped. */
  function NotCancelled(rows: seq<Order>): (r: seq<Order>)
    ensures forall i :: 0 <= i < |r| ==> Uncancelled(r[i])
    ensures forall x :: multiset(r)[x] == if Uncancelled(x) then multiset(rows)[x] else 0
  {
    if rows == [] then []
    else
      var front := NotCancelled(rows[..|rows| - 1]);
      var last := rows[|rows| - 1];
      assert rows == rows[..|rows| - 1] + [last];
      assert multiset(rows) == multiset(rows[..|rows| - 1]) + multiset{last};
      if Uncancelled(last) then front + [last] else front
  }

  /** One more row at the end is kept exactly when its status is present and
      not "cancelled". */
  lemma NotCancelledSnoc(rows: seq<Order>, x: Order)
    ensures NotCancelled(rows + [x]) == NotCancelled(rows) + (if Uncancelled(x) then [x] else [])
  {
    assert (rows + [x])[..|rows + [x]| - 1] == rows;
  }

  /** The status filter keeps the rows' order. */
  lemma {:induction false} NotCancelledAppend(a: seq<Order>, b: seq<Order>)
    ensures NotCancelled(a + b) == NotCancelled(a) + NotCancelled(b)
  {
    if b != [] {
      var front := b[..|b| - 1];
      var last := b[|b| - 1];
      assert a + b == (a + front) + [last];
      assert b == front + [last];
      NotCancelledSnoc(a + front, last);
      NotCancelledSnoc(front, last);
      NotCancelledAppend(a, front);
    } else {
      assert a + b == a;
    }
  }

  /** The low-stock threshold of the products query. */
  const LowStockBelow: int := 5

  /** `stock_quantity < 5` in SQL: a NULL stock compares unknown, so the row
      does not pass. */
  predicate IsLow(p: ProductRow) {
    p.stockQuantity.Some? && p.stockQuantity.value < LowStockBelow
  }

  /** `.lt("stock_quantity", 5)`: every row with a stock below the threshold
      as often as it occurs, every other one, NULL stock included, dropped. */
  function LowStock(rows: seq<ProductRow>): (r: seq<ProductRow>)
    ensures forall i :: 0 <= i < |r| ==> IsLow(r[i])
    ensures forall x :: multiset(r)[x] == if IsLow(x) then multiset(rows)[x] else 0
  {
    if rows == [] then []
    else
      var front := LowStock(rows[..|rows| - 1]);
      var last := rows[|rows| - 1];
      assert rows == rows[..|rows| - 1] + [last];
      assert multiset(rows) == multiset(rows[..|rows| - 1]) + multiset{last};
      if IsLow(last) then front + [last] else front
  }

  /** One more row at the end is kept exactly when it is below the threshold. */
  lemma LowStockSnoc(rows: seq<ProductRow>, x: ProductRow)
    ensures LowStock(rows + [x]) == LowStock(rows) + (if IsLow(x) then [x] else [])
  {
    assert (rows + [x])[..|rows + [x]| - 1] == rows;
  }

  /** SQL comparisons with NULL fail, so a row whose status or stock is NULL
      is in neither filtered list. */
  lemma NullRowsDropped(amount: real, createdAt: int, name: string)
    ensures NotCancelled([Order(amount, createdAt, None)]) == []
    ensures NotCancelled([Order(amount, createdAt, Some("paid"))]) == [Order(amount, createdAt, Some("paid"))]
    ensures LowStock([ProductRow(name, None)]) == []
    ensures LowStock([ProductRow(name, Some(0))]) == [ProductRow(name, Some(0))]
  {
    assert [Order(amount, createdAt, None)][..0] == [];
    assert [Order(amount, createdAt, Some("paid"))][..0] == [];
    assert [ProductRow(name, None)][..0] == [];
    assert [ProductRow(name, Some(0))][..0] == [];
  }

  /** The stock filter keeps the rows' order. */
  lemma {:induction false} LowStockAppend(a: seq<ProductRow>, b: seq<ProductRow>)
    ensures LowStock(a + b) == LowStock(a) + LowStock(b)
  {
    if b != [] {
      var front := b[..|b| - 1];
      var last := b[|b| - 1];
      assert a + b == (a + front) + [last];
      assert b == front + [last];
      LowStockSnoc(a + front, last);
      LowStockSnoc(front, last);
      LowStockAppend(a, front);
    } else {
      assert a + b == a;
    }
  }

  /** `fetchAnalytics`: everything is set together, and only when the orders
      query returned data. */
  function FetchAnalytics(nowMs: int, offsetMs: int, orderTable: Option<seq<Order>>, productTable: Option<seq<ProductRow>>): (s: Stats)
    ensures orderTable.None? ==> s == InitialStats()
    ensures orderTable.Some? ==>
              var all := NotCancelled(orderTable.value);
              var w := WindowsAt(nowMs, offsetMs);
              && s.totalRevenue == Revenue(Orders(all, ThisWeek, w))
              && s.newGrowers == |Orders(all, ThisWeek, w)|
              && s.orderGrowth == |Orders(all, ThisWeek, w)| - |Orders(all, LastWeek, w)|
              && s.todaySales == Revenue(Orders(all, Today, w))
              && s.revenueGrowth == RevenueGrowth(Revenue(Orders(all, ThisWeek, w)), Revenue(Orders(all, LastWeek, w)))
              && (forall i :: 0 <= i < |s.lowStockItems| ==> IsLow(s.lowStockItems[i]))
              && (productTable.None? ==> s.lowStockItems == [])
              && (productTable.Some? ==> s.lowStockItems == LowStock(productTable.value))
  {
    match orderTable
    case None => InitialStats()
    case Some(rows) =>
      var all := NotCancelled(rows);
      var w := WindowsAt(nowMs, offsetMs);
      var thisWeek := Orders(all, ThisWeek, w);
      var lastWeek := Orders(all, LastWeek, w);
      Stats(
        Revenue(thisWeek),
        |thisWeek|,
        RevenueGrowth(Revenue(thisWeek), Revenue(lastWeek)),
        |thisWeek| - |lastWeek|,
        Revenue(Orders(all, Today, w)),
        LowStock(productTable.GetOr([]))
      )
  }

  /** The inventory card's headline. */
  function InventoryHeadline(items: seq<ProductRow>): string {
    if |items| == 0 then "Optimal" else Text.NatToString(|items|) + " Low"
  }

  /** The names listed under the headline: `slice(0, 2)`. */
  function ListedItems(items: seq<ProductRow>): (r: seq<ProductRow>)
    ensures |r| == if |items| < 2 then |items| else 2
    ensures r == items[..|r|]
  {
    if |items| <= 2 then items else items[..2]
  }

  /** "Optimal" exactly when nothing is low; otherwise the headline is the
      number of low items followed by " Low". */
  lemma InventoryHeadlineIff(items: seq<ProductRow>)
    ensures InventoryHeadline(items) == "Optimal" <==> |items| == 0
    ensures |items| > 0 ==>
              var digits := Text.NatToString(|items|);
              && |digits| < |InventoryHeadline(items)|
              && Text.DecimalValue(InventoryHeadline(items)[..|digits|]) == |items|
              && InventoryHeadline(items)[|digits|..] == " Low"
  {
    if |items| > 0 {
      var digits := Text.NatToString(|items|);
      assert Text.IsDigit(InventoryHeadline(items)[0]);
      assert InventoryHeadline(items)[..|digits|] == digits;
      assert InventoryHeadline(items)[|digits|..] == " Low";
      Text.NatToStringRoundTrip(|items|);
    }
  }

  /** A failed orders query hides the low-stock alert: the card reads
      "Optimal" even when the products query found low stock. */
  lemma OrdersFailureHidesLowStock(nowMs: int, offsetMs: int, products: seq<ProductRow>)
    ensures InventoryHeadline(FetchAnalytics(nowMs, offsetMs, None, Some(products)).lowStockItems) == "Optimal"
  {
  }
}

=== FILE: brand.dfy ===
/** Contact details the storefront hard-codes in several places: the chat
    route's prompt rules, the chat window's fallback reply and the floating
    WhatsApp button all name the same support number. */
module Brand {

  const SupportPhone: string := "+233535023614"
}

=== FILE: cart_drawer.dfy ===
/** The cart drawer: the subtotal fold, the header's line-count label, the
    empty state versus checkout footer, and the three per-line buttons, which
    dispatch to the shop store. */
module CartDrawer {
  import opened Wrappers
  import Text
  import ShopStore

  type CartItem = ShopStore.CartItem

  /** `price * quantity` of one line. */
  function LineTotal(item: CartItem): real {
    item.price * (item.quantity as real)
  }

  /** Lines with non-negative prices and quantities. */
  predicate NonNegativeLines(cart: seq<CartItem>) {
    forall i :: 0 <= i < |cart| ==> cart[i].price >= 0.0 && cart[i].quantity >= 0
  }

  /** The subtotal as a left fold, the way `cart.reduce((acc, item) => acc + …, 0)` runs. */
  function Subtotal(cart: seq<CartItem>): real {
    if cart == [] then 0.0 else Subtotal(cart[..|cart| - 1]) + LineTotal(cart[|cart| - 1])
  }

  /** An empty bag shows 0, and no bag of non-negative lines shows less. */
  lemma {:induction false} SubtotalNonNegative(cart: seq<CartItem>)
    ensures cart == [] ==> Subtotal(cart) == 0.0
    ensures NonNegativeLines(cart) ==> Subtotal(cart) >= 0.0
  {
    if cart != [] && NonNegativeLines(cart) {
      var front := cart[..|cart| - 1];
      assert NonNegativeLines(front) by {
        forall i | 0 <= i < |front|
          ensures front[i].price >= 0.0 && front[i].quantity >= 0
        {
          assert front[i] == cart[i];
        }
      }
      SubtotalNonNegative(front);
      var last := cart[|cart| - 1];
      assert LineTotal(last) >= 0.0;
    }
  }

  /** The subtotal of a cart split in two is the sum of the parts' subtotals. */
  lemma {:induction false} SubtotalAppend(a: seq<CartItem>, b: seq<CartItem>)
    ensures Subtotal(a + b) == Subtotal(a) + Subtotal(b)
  {
    if b == [] {
      assert a + b == a;
    } else {
      assert (a + b)[..|a + b| - 1] == a + b[..|b| - 1];
      SubtotalAppend(a, b[..|b| - 1]);
    }
  }

  /** The reduce loop itself: the accumulator holds the subtotal of the lines
      visited so far. */
  method ComputeSubtotal(cart: seq<CartItem>) returns (acc: real)
    ensures acc == Subtotal(cart)
  {
    acc := 0.0;
    var i := 0;
    while i < |cart|
      invariant 0 <= i <= |cart|
      invariant acc == Subtotal(cart[..i])
    {
      assert cart[..i + 1][..i] == cart[..i];
      acc := acc + LineTotal(cart[i]);
      i := i + 1;
    }
    assert cart[..i] == cart;
  }

  /** Replacing one line changes the subtotal by the difference of the two line totals. */
  lemma SubtotalReplace(cart: seq<CartItem>, k: nat, x: CartItem)
    requires k < |cart|
    ensures Subtotal(cart[k := x]) == Subtotal(cart) - LineTotal(cart[k]) + LineTotal(x)
  {
    var front := cart[..k];
    var back := cart[k + 1..];
    assert cart == front + [cart[k]] + back;
    assert cart[k := x] == front + [x] + back;
    SubtotalAppend(front + [cart[k]], back);
    SubtotalAppend(front, [cart[k]]);
    SubtotalAppend(front + [x], back);
    SubtotalAppend(front, [x]);
    assert [x][..0] == [] && [cart[k]][..0] == [];
  }

  /** In a well-formed cart, adding an existing product bumps that one line. */
  lemma AddExistingBumpsLine(s: ShopStore.ShopState, p: ShopStore.Product, k: nat)
    requires ShopStore.ValidCart(s.cart)
    requires k < |s.cart| && s.cart[k].id == p.id
    ensures ShopStore.AddToCart(s, p).cart == s.cart[k := s.cart[k].(quantity := s.cart[k].quantity + 1)]
  {
    var r := ShopStore.AddToCart(s, p).cart;
    assert ShopStore.ItemId(s.cart[k]) == p.id;
    forall j | 0 <= j < |s.cart| && j != k
      ensures r[j] == s.cart[j]
    {
      assert ShopStore.ItemId(s.cart[j]) != ShopStore.ItemId(s.cart[k]);
    }
  }

  /** Adding a product that is already in a well-formed cart raises the
      subtotal by that line's stored price, whatever the product says. */
  lemma SubtotalAfterAddExisting(s: ShopStore.ShopState, p: ShopStore.Product, k: nat)
    requires ShopStore.ValidCart(s.cart)
    requires k < |s.cart| && s.cart[k].id == p.id
    ensures Subtotal(ShopStore.AddToCart(s, p).cart) == Subtotal(s.cart) + s.cart[k].price
  {
    var bumped := s.cart[k].(quantity := s.cart[k].quantity + 1);
    AddExistingBumpsLine(s, p, k);
    SubtotalReplace(s.cart, k, bumped);
    LineTotalBump(s.cart[k]);
  }

  /** One more unit of a line adds its price to the line total. */
  lemma LineTotalBump(item: CartItem)
    ensures LineTotal(item.(quantity := item.quantity + 1)) == LineTotal(item) + item.price
  {
    assert (item.quantity + 1) as real == item.quantity as real + 1.0;
  }

  /** Adding a product not yet in the cart raises the subtotal by its price,
      once: the new line holds one unit. */
  lemma SubtotalAfterAddNew(s: ShopStore.ShopState, p: ShopStore.Product)
    requires !ShopStore.InCart(s.cart, p.id)
    ensures Subtotal(ShopStore.AddToCart(s, p).cart) == Subtotal(s.cart) + p.price
  {
    var r := ShopStore.AddToCart(s, p).cart;
    assert r == s.cart + [ShopStore.NewLine(p)];
    SubtotalAppend(s.cart, [ShopStore.NewLine(p)]);
    assert [ShopStore.NewLine(p)][..0] == [];
  }

  /** `{cart.length} {cart.length === 1 ? 'Item' : 'Items'}`: the header counts
      lines, not units. */
  function HeaderLabel(cart: seq<CartItem>): string {
    Text.NatToString(|cart|) + " " + (if |cart| == 1 then "Item" else "Items")
  }

  lemma HeaderLabelCountsLines(cart: seq<CartItem>)
    ensures Text.DecimalValue(HeaderLabel(cart)[..|Text.NatToString(|cart|)|]) == |cart|
    ensures var tail := HeaderLabel(cart)[|Text.NatToString(|cart|)| + 1..];
            tail == "Item" <==> |cart| == 1
  {
    var digits := Text.NatToString(|cart|);
    assert HeaderLabel(cart)[..|digits|] == digits;
    Text.NatToStringRoundTrip(|cart|);
  }

  /** `cart.length === 0`: the "bag is empty" panel. */
  predicate ShowsEmptyState(cart: seq<CartItem>) {
    |cart| == 0
  }

  /** `cart.length > 0`: the subtotal and checkout footer. */
  predicate ShowsCheckoutFooter(cart: seq<CartItem>) {
    |cart| > 0
  }

  /** The drawer always shows exactly one of the empty state and the checkout
      footer, and the footer's subtotal is 0 whenever it is hidden. */
  lemma EmptyStateIffNoFooter(cart: seq<CartItem>)
    ensures ShowsEmptyState(cart) <==> !ShowsCheckoutFooter(cart)
    ensures !ShowsCheckoutFooter(cart) ==> Subtotal(cart) == 0.0
  {
    SubtotalNonNegative(cart);
  }

  const Placeholder: string := "/placeholder-product.jpg"

  /** `item.image_url || "/placeholder-product.jpg"` */
  function LineImage(item: CartItem): (src: string)
    ensures src != ""
    ensures item.imageUrl.Some? && item.imageUrl.value != "" ==> src == item.imageUrl.value
    ensures !(item.imageUrl.Some? && item.imageUrl.value != "") ==> src == Placeholder
  {
    if item.imageUrl.Some? && item.imageUrl.value != "" then item.imageUrl.value else Placeholder
  }

  /** The placeholder shows exactly when the line has no usable image of its
      own (or its image is the placeholder itself); otherwise the line's own
      image shows. */
  lemma LineImageFallback(item: CartItem)
    ensures LineImage(item) == Placeholder <==>
            item.imageUrl.None? || item.imageUrl.value == "" || item.imageUrl.value == Placeholder
    ensures LineImage(item) != Placeholder ==> Some(LineImage(item)) == item.imageUrl
  {
  }

  /** The three buttons on a cart line. */
  datatype LineAction = Minus(id: string) | Plus(id: string) | Trash(id: string)

  /** The store call each button makes. */
  function Press(s: ShopStore.ShopState, a: LineAction): ShopStore.ShopState {
    match a
    case Minus(id) => ShopStore.UpdateQuantity(s, id, -1)
    case Plus(id) => ShopStore.UpdateQuantity(s, id, 1)
    case Trash(id) => ShopStore.RemoveFromCart(s, id)
  }

  /** Minus never removes a line (a line at 1 stays at 1); Plus adds one unit;
      only Trash removes, and it removes that line. */
  lemma PressEffects(s: ShopStore.ShopState, k: nat)
    requires k < |s.cart| && s.cart[k].quantity >= 1
    ensures var r := Press(s, Minus(s.cart[k].id));
            |r.cart| == |s.cart| && r.cart[k].quantity == if s.cart[k].quantity == 1 then 1 else s.cart[k].quantity - 1
    ensures var r := Press(s, Plus(s.cart[k].id));
            |r.cart| == |s.cart| && r.cart[k].quantity == s.cart[k].quantity + 1
    ensures !ShopStore.InCart(Press(s, Trash(s.cart[k].id)).cart, s.cart[k].id)
  {
  }
}

=== FILE: chat_client.dfy ===
/** The chat window's `handleSend` as a state machine over
    (input, messages, loading). The network round trip (`fetch` plus
    `response.json()`) is an oracle that yields the JSON body's `text`
    field, or a failure. */
module ChatClient {
  import opened Wrappers
  import Text
  import Brand
  import ChatRoute

  datatype Role = User | Bot

  datatype Message = Message(role: Role, text: string)

  datatype ChatState = ChatState(input: string, messages: seq<Message>, loading: bool)

  /** What the round trip to `/api/chat` produced: the request or the JSON
      parse threw, or the body parsed and may carry a `text` field. */
  datatype FetchResult = NetworkError | JsonBody(text: Option<string>)

  const Greeting: string := "Hi! I'm your ManeF/x Assistant. Ask me anything about our growth kits or shipping!"
  const Fallback: string :=
    "I'm having a quick sync with the lab. Please try again or WhatsApp us at " + Brand.SupportPhone + "."

  /** The quick-suggestion buttons; each calls `handleSend` with its text. */
  const Suggestions: seq<string> := ["What's your WhatsApp?", "Is the Minoxidil original?", "How long is delivery?"]

  /** A fresh window: empty input, not loading, one bot greeting. */
  function Initial(): (s: ChatState)
    ensures s.messages == [Message(Bot, Greeting)]
    ensures s.input == "" && !s.loading
  {
    ChatState("", [Message(Bot, Greeting)], false)
  }

  /** `customMsg || input`: an empty custom message falls back to the input. */
  function TextToSend(customMsg: Option<string>, input: string): string {
    if customMsg.Some? && customMsg.value != "" then customMsg.value else input
  }

  /** The synchronous part of `handleSend`: the guard
      `!textToSend.trim() || loading`, then the user message is appended, the
      input cleared and loading set. `None` means the call returned early. */
  function BeginSend(s: ChatState, customMsg: Option<string>): (r: Option<(ChatState, string)>)
    ensures r.None? <==> s.loading || Text.AllWhitespace(TextToSend(customMsg, s.input))
    ensures r.Some? ==> r.value.1 == TextToSend(customMsg, s.input)
    ensures r.Some? ==> r.value.0 == ChatState("", s.messages + [Message(User, r.value.1)], true)
  {
    var text := TextToSend(customMsg, s.input);
    Text.TrimEmptyIffAllWhitespace(text);
    if Text.Trim(text) == "" || s.loading then None
    else Some((ChatState("", s.messages + [Message(User, text)], true), text))
  }

  /** The bot message the `try`/`catch` produces: the server's `text` when it is
      a non-empty string, otherwise the fixed fallback. */
  function BotReply(f: FetchResult): Message {
    if f.JsonBody? && f.text.Some? && f.text.value != "" then Message(Bot, f.text.value)
    else Message(Bot, Fallback)
  }

  /** The `finally` and the appended bot message. */
  function FinishSend(s: ChatState, f: FetchResult): ChatState {
    s.(messages := s.messages + [BotReply(f)], loading := false)
  }

  /** `handleSend(customMsg)` run to completion with `fetch` answering the request. */
  function HandleSend(s: ChatState, customMsg: Option<string>, fetch: string -> FetchResult): (r: ChatState)
    // rejected sends change nothing
    ensures s.loading || Text.AllWhitespace(TextToSend(customMsg, s.input)) ==> r == s
    // accepted sends add one user message, then one bot message, and stop loading
    ensures !s.loading && !Text.AllWhitespace(TextToSend(customMsg, s.input)) ==>
              && |r.messages| == |s.messages| + 2
              && r.messages[..|s.messages|] == s.messages
              && r.messages[|s.messages|] == Message(User, TextToSend(customMsg, s.input))
              && r.messages[|s.messages| + 1].role == Bot
              && r.input == ""
              && !r.loading
  {
    match BeginSend(s, customMsg)
    case None => s
    case Some((sent, text)) => FinishSend(sent, fetch(text))
  }

  /** The bot reply is the server's text when there is some, and otherwise the
      fallback, which always names the WhatsApp number. */
  lemma BotReplyCases(f: FetchResult)
    ensures BotReply(f).role == Bot
    ensures f.JsonBody? && f.text.Some? && f.text.value != "" ==> BotReply(f).text == f.text.value
    ensures f.NetworkError? || f.text.None? || f.text.value == "" ==>
              BotReply(f).text == Fallback && Text.Contains(BotReply(f).text, Brand.SupportPhone)
  {
    var lead := "I'm having a quick sync with the lab. Please try again or WhatsApp us at ";
    Text.ContainsLeft(lead + Brand.SupportPhone, ".");
    Text.ContainsRight(lead, Brand.SupportPhone);
    Text.ContainsTrans(Fallback, lead + Brand.SupportPhone, Brand.SupportPhone);
  }

  /** An accepted send ends with the bot reply to exactly the text sent. */
  lemma AcceptedSendReply(s: ChatState, customMsg: Option<string>, fetch: string -> FetchResult)
    requires !s.loading && !Text.AllWhitespace(TextToSend(customMsg, s.input))
    ensures |HandleSend(s, customMsg, fetch).messages| == |s.messages| + 2
    ensures HandleSend(s, customMsg, fetch).messages[|s.messages| + 1] == BotReply(fetch(TextToSend(customMsg, s.input)))
  {
  }

  /** A well-formed history: the greeting, then user questions each followed
      immediately by one bot reply, and nothing in flight. */
  predicate Settled(s: ChatState) {
    && !s.loading
    && |s.messages| % 2 == 1
    && s.messages[0] == Message(Bot, Greeting)
    && forall i :: 1 <= i < |s.messages| ==> s.messages[i].role == (if i % 2 == 1 then User else Bot)
  }

  lemma InitialSettled()
    ensures Settled(Initial())
  {
  }

  /** Every completed `handleSend`, accepted or not, keeps the history settled:
      each question gets exactly one reply. */
  lemma HandleSendKeepsSettled(s: ChatState, customMsg: Option<string>, fetch: string -> FetchResult)
    requires Settled(s)
    ensures Settled(HandleSend(s, customMsg, fetch))
  {
    var r := HandleSend(s, customMsg, fetch);
    var text := TextToSend(customMsg, s.input);
    if !Text.AllWhitespace(text) {
      var n := |s.messages|;
      var tail := [Message(User, text), BotReply(fetch(text))];
      assert r.messages == s.messages + tail;
      forall i | 1 <= i < |r.messages|
        ensures r.messages[i].role == (if i % 2 == 1 then User else Bot)
      {
        if i < n {
          assert r.messages[i] == s.messages[i];
        } else {
          assert r.messages[i] == tail[i - n];
        }
      }
    }
  }

  // ---------------------------------------------------------------------
  // End to end, against the server route
  // ---------------------------------------------------------------------

  /** What the window sees of a route reply: a 200 carries `text`; the 500
      envelope parses but has no `text` field. */
  function AsFetchResult(reply: ChatRoute.Reply): FetchResult {
    match reply.body
    case TextBody(t) => JsonBody(Some(t))
    case ErrorBody(_, _) => JsonBody(None)
  }

  /** The route's reply to a parsed request `{ message: text }`. */
  function RouteReply(
    text: string,
    embed: string -> Result<ChatRoute.Vector, string>,
    rpc: ChatRoute.MatchArgs -> ChatRoute.RpcReply,
    generate: string -> Result<string, string>
  ): (reply: ChatRoute.Reply)
    ensures reply.status == 200 <==> reply.body.TextBody?
  {
    ChatRoute.Post(Success(text), embed, rpc, generate).reply
  }

  /** The browser talking to the route: the JSON body `{ message: text }` reaches
      the route as `text`. */
  function ViaRoute(
    embed: string -> Result<ChatRoute.Vector, string>,
    rpc: ChatRoute.MatchArgs -> ChatRoute.RpcReply,
    generate: string -> Result<string, string>
  ): string -> FetchResult {
    text => AsFetchResult(RouteReply(text, embed, rpc, generate))
  }

  /** The bot message for a route reply: the answer text of a 200 with a
      non-empty text, and the fallback for anything else. */
  lemma ReplyBecomesBotMessage(reply: ChatRoute.Reply)
    requires reply.status == 200 <==> reply.body.TextBody?
    ensures reply.status == 200 && reply.body.text != "" ==> BotReply(AsFetchResult(reply)).text == reply.body.text
    ensures reply.status != 200 || reply.body.text == "" ==> BotReply(AsFetchResult(reply)).text == Fallback
  {
    BotReplyCases(AsFetchResult(reply));
  }

  /** End to end: every accepted question gets exactly one bot reply, which is
      the generated answer when the route succeeded with a non-empty text, and
      the WhatsApp fallback after any failure (embedding, retrieval or
      generation) or an empty answer. */
  lemma EveryQuestionAnsweredOnce(
    s: ChatState, customMsg: Option<string>,
    embed: string -> Result<ChatRoute.Vector, string>,
    rpc: ChatRoute.MatchArgs -> ChatRoute.RpcReply,
    generate: string -> Result<string, string>
  )
    requires !s.loading && !Text.AllWhitespace(TextToSend(customMsg, s.input))
    ensures var r := HandleSend(s, customMsg, ViaRoute(embed, rpc, generate));
            var reply := RouteReply(TextToSend(customMsg, s.input), embed, rpc, generate);
            && |r.messages| == |s.messages| + 2
            && r.messages[|s.messages| + 1].role == Bot
            && (reply.status == 200 && reply.body.text != "" ==>
                  r.messages[|s.messages| + 1].text == reply.body.text)
            && (reply.status != 200 || reply.body.text == "" ==>
                  r.messages[|s.messages| + 1].text == Fallback)
  {
    var text := TextToSend(customMsg, s.input);
    var fetch := ViaRoute(embed, rpc, generate);
    AcceptedSendReply(s, customMsg, fetch);
    assert fetch(text) == AsFetchResult(RouteReply(text, embed, rpc, generate));
    ReplyBecomesBotMessage(RouteReply(text, embed, rpc, generate));
  }
}

=== FILE: chat_route.dfy ===
/** The support chat's server route (`POST /api/chat`): embed the question,
    fetch matching knowledge chunks, assemble a context block, render the
    prompt, generate the answer, and wrap it in a JSON envelope.

    The three remote services are oracle parameters: `embed` (the embedding
    model), `rpc` (the `match_site_knowledge` similarity search) and
    `generate` (the text model). The route records which of them it called,
    in order, so that properties such as "no generation after a retrieval
    error" can be stated. */
module ChatRoute {
  import opened Wrappers
  import Text
  import Brand

  /** One row returned by the similarity search; only `content` is read. */
  datatype Chunk = Chunk(content: string)

  type Vector = seq<real>

  /** Arguments of the `match_site_knowledge` remote procedure. */
  datatype MatchArgs = MatchArgs(queryEmbedding: Vector, matchThreshold: real, matchCount: nat)

  /** The `{ data, error }` pair a Supabase RPC call resolves to. */
  datatype RpcReply = RpcReply(data: Option<seq<Chunk>>, error: Option<string>)

  /** A remote call the route issued. */
  datatype Call = Embed(text: string) | Match(args: MatchArgs) | Generate(prompt: string)

  /** JSON body of the response. */
  datatype Body = TextBody(text: string) | ErrorBody(error: string, debug: string)

  datatype Reply = Reply(status: nat, body: Body)

  /** What one request produced: the response and the remote calls made. */
  datatype Outcome = Outcome(reply: Reply, calls: seq<Call>)

  const MatchThreshold: real := 0.3
  const MatchCount: nat := 5

  const ParagraphBreak: string := "\n\n"
  const NoContext: string := "No internal context found."
  const FailureMessage: string := "Brain sync failed. Please contact us on WhatsApp!"

  // ---------------------------------------------------------------------
  // Context assembly
  // ---------------------------------------------------------------------

  function Contents(chunks: seq<Chunk>): (r: seq<string>)
    ensures |r| == |chunks|
    ensures forall i :: 0 <= i < |chunks| ==> r[i] == chunks[i].content
  {
    seq(|chunks|, i requires 0 <= i < |chunks| => chunks[i].content)
  }

  /** `chunks?.map(c => c.content).join("\n\n") || "No internal context found."` */
  function ContextText(chunks: Option<seq<Chunk>>): (r: string)
    ensures r != ""
    ensures chunks.None? ==> r == NoContext
  {
    var joined := if chunks.None? then "" else Text.Join(Contents(chunks.value), ParagraphBreak);
    if joined == "" then NoContext else joined
  }

  /** Grounding: when the search returns several chunks, the context holds each
      chunk's content verbatim, in the order returned, with a blank line
      between neighbours. */
  lemma ContextKeepsEveryChunk(chunks: seq<Chunk>, i: nat)
    requires |chunks| >= 2 && i < |chunks|
    ensures var ctx := ContextText(Some(chunks));
            var at := Text.PartOffset(Contents(chunks), ParagraphBreak, i);
            && at + |chunks[i].content| <= |ctx|
            && ctx[at..at + |chunks[i].content|] == chunks[i].content
            && (i + 1 < |chunks| ==>
                  at + |chunks[i].content| + 2 <= |ctx| &&
                  ctx[at + |chunks[i].content|..at + |chunks[i].content| + 2] == ParagraphBreak)
  {
    var parts := Contents(chunks);
    Text.JoinEmptyIff(parts, ParagraphBreak);
    Text.JoinPartAt(parts, ParagraphBreak, i);
  }

  /** The sentinel appears exactly when nothing (or only an empty chunk) was
      retrieved, or when a single retrieved chunk happens to read exactly like
      the sentinel: two or more chunks always contain a blank line, which the
      sentinel does not. */
  lemma ContextIsSentinelIff(chunks: Option<seq<Chunk>>)
    ensures ContextText(chunks) == NoContext <==>
      || chunks.None?
      || |chunks.value| == 0
      || (|chunks.value| == 1 && (chunks.value[0].content == "" || chunks.value[0].content == NoContext))
  {
    if chunks.Some? && |chunks.value| >= 2 {
      var parts := Contents(chunks.value);
      var j := Text.Join(parts, ParagraphBreak);
      Text.JoinPartAt(parts, ParagraphBreak, 0);
      assert parts[..0] == [];
      assert j[|parts[0]|] == '\n';
      assert forall k :: 0 <= k < |NoContext| ==> NoContext[k] != '\n';
    }
  }

  // ---------------------------------------------------------------------
  // Prompt construction
  // ---------------------------------------------------------------------

  const Persona: string :=
    "You are the ManeF/x AI Assistant, an expert in beard growth and Kirkland products in Ghana. "
  const Instruction: string := "Use the following context to answer the user. "
  const RuleGrounding: string := "- Use ONLY the provided context."
  const RuleUnsure: string := "- If unsure, say you don't know and provide WhatsApp " + Brand.SupportPhone + "."
  const RuleTone: string := "- Be professional, bold, and helpful."
  const DeliveryWindow: string := "24-48 hour delivery in Accra"
  const RuleDelivery: string := "- Mention " + DeliveryWindow + " if they ask about shipping."

  /** Line break plus the template literal's six-space indentation. */
  const Indent: string := "\n      "

  /** Everything the template renders before the context, as five segments:
      persona, grounding rule, fallback rule, delivery rule, context heading. */
  const Head: string := Indent + Persona
  const GroundingLead: string := Indent + Instruction + Indent + Indent + "RULES:" + Indent
  const UnsureLine: string := Indent + RuleUnsure
  const DeliveryLead: string := Indent + RuleTone + Indent
  const ContextLead: string := "\n" + Indent + "CONTEXT:" + Indent
  const Preamble: string :=
    Head + (GroundingLead + RuleGrounding) + UnsureLine + (DeliveryLead + RuleDelivery) + ContextLead

  /** Between the context and the question. */
  const QuestionHeader: string := Indent + Indent + "USER QUESTION:" + Indent

  /** After the question: the closing line of the template literal. */
  const Closing: string := "\n    "

  /** The prompt template: fixed rules, then the context, then the question. */
  function BuildPrompt(context: string, message: string): (p: string)
    ensures |p| == |Preamble| + |context| + |QuestionHeader| + |message| + |Closing|
    ensures Text.StartsWith(p, Preamble)
    ensures p[|Preamble|..|Preamble| + |context|] == context
    ensures p[|Preamble| + |context|..|Preamble| + |context| + |QuestionHeader|] == QuestionHeader
    ensures p[|p| - |Closing| - |message|..|p| - |Closing|] == message
    ensures p[|p| - |Closing|..] == Closing
  {
    Preamble + context + QuestionHeader + message + Closing
  }

  /** Nothing but whitespace follows the question: it is the last thing the
      model reads. */
  lemma QuestionIsLast(context: string, message: string)
    ensures var p := BuildPrompt(context, message);
            Text.AllWhitespace(p[|p| - |Closing|..])
  {
    var p := BuildPrompt(context, message);
    assert p[|p| - |Closing|..] == Closing;
    assert Closing[0] == '\n';
  }

  /** The question is read back from a prompt once the context's length is known. */
  function QuestionOf(prompt: string, contextLength: nat): Option<string> {
    var start := |Preamble| + contextLength + |QuestionHeader|;
    if start + |Closing| <= |prompt| then Some(prompt[start..|prompt| - |Closing|]) else None
  }

  /** The context is read back from a prompt once the question's length is known. */
  function ContextOf(prompt: string, messageLength: nat): Option<string> {
    var tail := |QuestionHeader| + messageLength + |Closing|;
    if |Preamble| + tail <= |prompt| then Some(prompt[|Preamble|..|prompt| - tail]) else None
  }

  /** Context and question are recovered verbatim from the prompt: the template
      neither alters nor truncates either of them. */
  lemma PromptRoundTrip(context: string, message: string)
    ensures QuestionOf(BuildPrompt(context, message), |context|) == Some(message)
    ensures ContextOf(BuildPrompt(context, message), |message|) == Some(context)
  {
  }

  /** The prompt contains its whole preamble. */
  lemma PromptContainsPreamble(context: string, message: string)
    ensures Text.Contains(BuildPrompt(context, message), Preamble)
  {
    var p := BuildPrompt(context, message);
    Text.ContainsLeft(Preamble, p[|Preamble|..]);
    assert p == Preamble + p[|Preamble|..];
  }

  /** The preamble names the persona, the grounding rule, the WhatsApp number
      and the Accra delivery window. */
  lemma PreambleStatesRules()
    ensures Text.Contains(Preamble, Persona)
    ensures Text.Contains(Preamble, RuleGrounding)
    ensures Text.Contains(Preamble, Brand.SupportPhone)
    ensures Text.Contains(Preamble, DeliveryWindow)
  {
    var g := GroundingLead + RuleGrounding;
    var d := DeliveryLead + RuleDelivery;
    var s1 := Head + g;
    var s2 := s1 + UnsureLine;
    var s3 := s2 + d;
    // each segment lies in the preamble
    Text.ContainsLeft(s3, ContextLead);
    Text.ContainsLeft(s2, d);
    Text.ContainsRight(s2, d);
    Text.ContainsLeft(s1, UnsureLine);
    Text.ContainsRight(s1, UnsureLine);
    Text.ContainsLeft(Head, g);
    Text.ContainsRight(Head, g);
    Text.ContainsTrans(Preamble, s3, s2);
    Text.ContainsTrans(Preamble, s3, d);
    Text.ContainsTrans(Preamble, s2, s1);
    Text.ContainsTrans(Preamble, s2, UnsureLine);
    Text.ContainsTrans(Preamble, s1, Head);
    Text.ContainsTrans(Preamble, s1, g);
    // and each rule lies in its segment
    Text.ContainsRight(Indent, Persona);
    Text.ContainsTrans(Preamble, Head, Persona);
    Text.ContainsRight(GroundingLead, RuleGrounding);
    Text.ContainsTrans(Preamble, g, RuleGrounding);
    Text.ContainsRight(Indent, RuleUnsure);
    Text.ContainsTrans(Preamble, UnsureLine, RuleUnsure);
    RuleUnsureNamesPhone();
    Text.ContainsTrans(Preamble, RuleUnsure, Brand.SupportPhone);
    Text.ContainsRight(DeliveryLead, RuleDelivery);
    Text.ContainsTrans(Preamble, d, RuleDelivery);
    RuleDeliveryNamesWindow();
    Text.ContainsTrans(Preamble, RuleDelivery, DeliveryWindow);
  }

  lemma RuleUnsureNamesPhone()
    ensures Text.Contains(RuleUnsure, Brand.SupportPhone)
  {
    var lead := "- If unsure, say you don't know and provide WhatsApp ";
    Text.ContainsLeft(lead + Brand.SupportPhone, ".");
    Text.ContainsRight(lead, Brand.SupportPhone);
    Text.ContainsTrans(RuleUnsure, lead + Brand.SupportPhone, Brand.SupportPhone);
  }

  lemma RuleDeliveryNamesWindow()
    ensures Text.Contains(RuleDelivery, DeliveryWindow)
  {
    Text.ContainsLeft("- Mention " + DeliveryWindow, " if they ask about shipping.");
    Text.ContainsRight("- Mention ", DeliveryWindow);
    Text.ContainsTrans(RuleDelivery, "- Mention " + DeliveryWindow, DeliveryWindow);
  }

  /** Whatever the context and question, the prompt carries the persona, the
      grounding rule, the WhatsApp fallback number and the Accra delivery window. */
  lemma PromptStatesRules(context: string, message: string)
    ensures Text.Contains(BuildPrompt(context, message), Persona)
    ensures Text.Contains(BuildPrompt(context, message), RuleGrounding)
    ensures Text.Contains(BuildPrompt(context, message), Brand.SupportPhone)
    ensures Text.Contains(BuildPrompt(context, message), DeliveryWindow)
  {
    var p := BuildPrompt(context, message);
    PromptContainsPreamble(context, message);
    PreambleStatesRules();
    Text.ContainsTrans(p, Preamble, Persona);
    Text.ContainsTrans(p, Preamble, RuleGrounding);
    Text.ContainsTrans(p, Preamble, Brand.SupportPhone);
    Text.ContainsTrans(p, Preamble, DeliveryWindow);
  }

  // ---------------------------------------------------------------------
  // The request handler
  // ---------------------------------------------------------------------

  /** The error envelope of the `catch` block: status 500, fixed `error`, and the
      thrown error's message as `debug`. */
  function Failed(reason: string): Reply {
    Reply(500, ErrorBody(FailureMessage, reason))
  }

  /** `POST /api/chat`. `request` is the outcome of `req.json()` (its `message`
      field, or the parse error). The message is embedded without any check
      that it is non-blank; a retrieval error is rethrown and ends the request
      in the error envelope; any failure yields status 500. */
  function Post(
    request: Result<string, string>,
    embed: string -> Result<Vector, string>,
    rpc: MatchArgs -> RpcReply,
    generate: string -> Result<string, string>
  ): (out: Outcome)
    // the status tells the body apart
    ensures out.reply.status == 200 <==> out.reply.body.TextBody?
    ensures out.reply.status != 200 ==> out.reply == Failed(out.reply.body.debug)
    // no validation: a parsed message, blank or not, is embedded first
    ensures request.Success? <==> |out.calls| >= 1
    ensures request.Success? ==> out.calls[0] == Embed(request.value)
    // retrieval is always asked for at most 5 chunks scoring at least 0.3
    ensures forall c :: c in out.calls && c.Match? ==>
              c.args.matchThreshold == MatchThreshold && c.args.matchCount == MatchCount
    // every call but the first depends on the previous one succeeding
    ensures |out.calls| >= 2 ==> out.calls[1].Match? && embed(request.value).Success?
    ensures |out.calls| >= 3 ==> out.calls[2].Generate? && rpc(out.calls[1].args).error.None?
    ensures |out.calls| <= 3
    // a retrieval error is fatal: error envelope, and generation never runs
    ensures |out.calls| >= 2 && rpc(out.calls[1].args).error.Some? ==>
              out.reply == Failed(rpc(out.calls[1].args).error.value) && |out.calls| == 2
    // success exactly when all three calls succeed; the answer is the generated text
    ensures out.reply.status == 200 <==> |out.calls| == 3 && generate(out.calls[2].prompt).Success?
    ensures out.reply.status == 200 ==>
              out.calls[2].prompt ==
                BuildPrompt(ContextText(rpc(out.calls[1].args).data), request.value) &&
              out.reply.body.text == generate(out.calls[2].prompt).value
  {
    match request
    case Failure(e) => Outcome(Failed(e), [])
    case Success(message) =>
      match embed(message)
      case Failure(e) => Outcome(Failed(e), [Embed(message)])
      case Success(vector) =>
        var args := MatchArgs(vector, MatchThreshold, MatchCount);
        var reply := rpc(args);
        if reply.error.Some? then
          Outcome(Failed(reply.error.value), [Embed(message), Match(args)])
        else
          var prompt := BuildPrompt(ContextText(reply.data), message);
          match generate(prompt)
          case Failure(e) => Outcome(Failed(e), [Embed(message), Match(args), Generate(prompt)])
          case Success(text) => Outcome(Reply(200, TextBody(text)), [Embed(message), Match(args), Generate(prompt)])
  }
}

=== FILE: navbar.dfy ===
/** The navigation bar: the cart badge count, the wishlist badge count, and
    which link is drawn as active. */
module Navbar {
  import opened Wrappers
  import ShopStore

  type CartItem = ShopStore.CartItem

  /** `cart.reduce((acc, item) => acc + item.quantity, 0)`: units, not lines. */
  function CartCount(cart: seq<CartItem>): int {
    if cart == [] then 0 else CartCount(cart[..|cart| - 1]) + cart[|cart| - 1].quantity
  }

  /** The count of a cart split in two is the sum of the parts' counts. */
  lemma {:induction false} CartCountAppend(a: seq<CartItem>, b: seq<CartItem>)
    ensures CartCount(a + b) == CartCount(a) + CartCount(b)
  {
    if b == [] {
      assert a + b == a;
    } else {
      assert (a + b)[..|a + b| - 1] == a + b[..|b| - 1];
      CartCountAppend(a, b[..|b| - 1]);
    }
  }

  /** The reduce loop: the accumulator holds the count of the lines visited so far. */
  method ComputeCartCount(cart: seq<CartItem>) returns (acc: int)
    ensures acc == CartCount(cart)
  {
    acc := 0;
    var i := 0;
    while i < |cart|
      invariant 0 <= i <= |cart|
      invariant acc == CartCount(cart[..i])
    {
      assert cart[..i + 1][..i] == cart[..i];
      acc := acc + cart[i].quantity;
      i := i + 1;
    }
    assert cart[..i] == cart;
  }

  /** In a well-formed cart every line holds at least one unit, so the count is
      at least the number of lines. */
  lemma {:induction false} CartCountAtLeastLines(cart: seq<CartItem>)
    requires ShopStore.ValidCart(cart)
    ensures CartCount(cart) >= |cart|
  {
    if cart != [] {
      var front := cart[..|cart| - 1];
      assert ShopStore.ValidCart(front) by {
        forall i, j | 0 <= i < j < |front|
          ensures ShopStore.ItemId(front[i]) != ShopStore.ItemId(front[j])
        {
          assert front[i] == cart[i] && front[j] == cart[j];
        }
      }
      CartCountAtLeastLines(front);
    }
  }

  /** Replacing one line changes the count by the difference of the two quantities. */
  lemma CartCountReplace(cart: seq<CartItem>, k: nat, x: CartItem)
    requires k < |cart|
    ensures CartCount(cart[k := x]) == CartCount(cart) - cart[k].quantity + x.quantity
  {
    var front := cart[..k];
    var back := cart[k + 1..];
    assert cart == front + [cart[k]] + back;
    assert cart[k := x] == front + [x] + back;
    CartCountAppend(front + [cart[k]], back);
    CartCountAppend(front, [cart[k]]);
    CartCountAppend(front + [x], back);
    CartCountAppend(front, [x]);
    assert [x][..0] == [] && [cart[k]][..0] == [];
  }

  /** Every `addToCart` raises the badge count by exactly one, whether the line
      is new or already there, and whatever quantity the product carries. */
  lemma CartCountAfterAdd(s: ShopStore.ShopState, p: ShopStore.Product)
    requires ShopStore.ValidCart(s.cart)
    ensures CartCount(ShopStore.AddToCart(s, p).cart) == CartCount(s.cart) + 1
  {
    var r := ShopStore.AddToCart(s, p).cart;
    if ShopStore.InCart(s.cart, p.id) {
      var k :| 0 <= k < |s.cart| && ShopStore.ItemId(s.cart[k]) == p.id;
      var bumped := s.cart[k].(quantity := s.cart[k].quantity + 1);
      forall j | 0 <= j < |s.cart| && j != k
        ensures r[j] == s.cart[j]
      {
        assert ShopStore.ItemId(s.cart[j]) != ShopStore.ItemId(s.cart[k]);
      }
      assert r == s.cart[k := bumped];
      CartCountReplace(s.cart, k, bumped);
    } else {
      assert r == s.cart + [ShopStore.NewLine(p)];
      CartCountAppend(s.cart, [ShopStore.NewLine(p)]);
      assert [ShopStore.NewLine(p)][..0] == [];
    }
  }

  /** `mounted && cartCount > 0`: the badge waits for hydration. */
  predicate ShowCartBadge(mounted: bool, cart: seq<CartItem>) {
    mounted && CartCount(cart) > 0
  }

  /** For a well-formed cart the badge shows exactly when the page is mounted
      and the cart has a line. */
  lemma CartBadgeIffNonEmpty(mounted: bool, cart: seq<CartItem>)
    requires ShopStore.ValidCart(cart)
    ensures ShowCartBadge(mounted, cart) <==> mounted && |cart| > 0
  {
    CartCountAtLeastLines(cart);
  }

  /** `(state.wishlist || []).length`. The store has `wishlistIds` but no
      `wishlist` field, so the selector yields `undefined` and the count is that
      of the empty fallback. */
  function WishlistCount(s: ShopStore.ShopState): (n: nat)
    ensures n == 0
  {
    var selected: Option<seq<string>> := None;
    |selected.GetOr([])|
  }

  /** `mounted && wishlistCount > 0` */
  predicate ShowWishlistBadge(mounted: bool, s: ShopStore.ShopState) {
    mounted && WishlistCount(s) > 0
  }

  /** The wishlist badge never shows, even right after a product is wishlisted. */
  lemma WishlistBadgeNeverShows(mounted: bool, s: ShopStore.ShopState, id: string)
    ensures !ShowWishlistBadge(mounted, s)
    ensures id !in s.wishlistIds ==>
              id in ShopStore.ToggleWishlist(s, id).wishlistIds &&
              !ShowWishlistBadge(mounted, ShopStore.ToggleWishlist(s, id))
  {
  }

  /** The count the badge evidently meant: the store's wishlisted ids. */
  function IntendedWishlistCount(s: ShopStore.ShopState): (n: nat)
    ensures n == 0 <==> s.wishlistIds == []
  {
    |s.wishlistIds|
  }

  predicate ShowIntendedWishlistBadge(mounted: bool, s: ShopStore.ShopState) {
    mounted && IntendedWishlistCount(s) > 0
  }

  /** With the intended count the badge follows the wishlist: it shows once
      something is wishlisted, and a toggle that empties the list hides it. */
  lemma IntendedBadgeTracksWishlist(mounted: bool, s: ShopStore.ShopState, id: string)
    ensures ShowIntendedWishlistBadge(mounted, s) <==> mounted && s.wishlistIds != []
    ensures id !in s.wishlistIds ==> (ShowIntendedWishlistBadge(mounted, ShopStore.ToggleWishlist(s, id)) <==> mounted)
    ensures s.wishlistIds == [id] ==> !ShowIntendedWishlistBadge(mounted, ShopStore.ToggleWishlist(s, id))
  {
  }

  // ---------------------------------------------------------------------
  // Links
  // ---------------------------------------------------------------------

  datatype NavLink = NavLink(title: string, href: string)

  /** The desktop links. */
  const NavLinks: seq<NavLink> := [
    NavLink("Home", "/"),
    NavLink("Shop", "/shop"),
    NavLink("How It Works", "/how-it-works"),
    NavLink("Reviews", "/reviews"),
    NavLink("FAQ/AI Shop Assistant", "/faq")
  ]

  /** The mobile bottom tab bar. */
  const MobileLinks: seq<NavLink> := [
    NavLink("Home", "/"),
    NavLink("Explore", "/shop"),
    NavLink("Wishlist", "/wishlist"),
    NavLink("Help/AI", "/faq"),
    NavLink("Profile", "/auth/login")
  ]

  /** `pathname === link.href`: exact equality, no prefix matching. */
  predicate IsActive(pathname: string, link: NavLink) {
    pathname == link.href
  }

  predicate DistinctHrefs(links: seq<NavLink>) {
    forall i, j :: 0 <= i < j < |links| ==> links[i].href != links[j].href
  }

  /** The position of the active link in a bar, if any. */
  function ActiveIndex(links: seq<NavLink>, pathname: string): (r: Option<nat>)
    ensures r.Some? ==> r.value < |links| && IsActive(pathname, links[r.value])
    ensures r.None? <==> forall i :: 0 <= i < |links| ==> !IsActive(pathname, links[i])
  {
    if links == [] then None
    else if IsActive(pathname, links[0]) then Some(0)
    else
      match ActiveIndex(links[1..], pathname)
      case None => None
      case Some(i) => Some(i + 1)
  }

  /** With distinct hrefs at most one link is active, and it is the one
      `ActiveIndex` finds. */
  lemma AtMostOneActive(links: seq<NavLink>, pathname: string, i: nat)
    requires DistinctHrefs(links)
    requires i < |links| && IsActive(pathname, links[i])
    ensures ActiveIndex(links, pathname) == Some(i)
    ensures forall j :: 0 <= j < |links| && j != i ==> !IsActive(pathname, links[j])
  {
  }

  /** Both bars have distinct hrefs, so each highlights at most one link; a
      sub-page such as a product page highlights none, not even "Shop". */
  lemma BarsHighlightOne(pathname: string)
    ensures DistinctHrefs(NavLinks) && DistinctHrefs(MobileLinks)
    ensures ActiveIndex(NavLinks, "/shop") == Some(1)
    ensures ActiveIndex(MobileLinks, "/shop") == Some(1)
    ensures ActiveIndex(NavLinks, "/shop/kit-1") == None
    ensures ActiveIndex(MobileLinks, "/wishlist") == Some(2)
  {
  }
}

=== FILE: newsletter.dfy ===
/** The newsletter form: submitting inserts the email into the subscribers
    table and maps the outcome to a status and a message. The insert is a
    remote call; its outcome is an input. */
module Newsletter {
  import Wrappers

  datatype Status = Idle | Loading | Success | Error

  datatype Form = Form(email: string, status: Status, message: string)

  /** What the insert returned: nothing on success, or an error whose
      Postgres code may be missing. */
  datatype Insert = Inserted | InsertError(code: Wrappers.Option<string>)

  /** Postgres' unique-violation code: the email is already subscribed. */
  const UniqueViolation: string := "23505"
  const AlreadySubscribed: string := "You're already on the list!"
  const TryAgain: string := "Try again later."
  const Welcome: string := "Welcome to the ManeF/x family!"

  const Initial: Form := Form("", Idle, "")

  /** The state while the insert is pending. */
  function Submit(f: Form): (r: Form)
    ensures r.status == Loading
    ensures r.email == f.email && r.message == f.message
  {
    f.(status := Loading)
  }

  /** The message for a failed insert. */
  function ErrorMessage(code: Wrappers.Option<string>): (m: string)
    ensures m == AlreadySubscribed <==> code == Wrappers.Some(UniqueViolation)
    ensures m == AlreadySubscribed || m == TryAgain
  {
    if code == Wrappers.Some(UniqueViolation) then AlreadySubscribed else TryAgain
  }

  /** The state once the insert has answered. */
  function Complete(f: Form, outcome: Insert): (r: Form)
    ensures outcome.Inserted? ==> r == Form("", Success, Welcome)
    ensures outcome.InsertError? ==> r == Form(f.email, Error, ErrorMessage(outcome.code))
  {
    match outcome
    case Inserted => Form("", Success, Welcome)
    case InsertError(code) => Form(f.email, Error, ErrorMessage(code))
  }

  /** `handleSubscribe`: loading while the insert runs, then its outcome. */
  function HandleSubscribe(f: Form, outcome: Insert): Form {
    Complete(Submit(f), outcome)
  }

  /** `disabled={status === "loading"}` */
  predicate ButtonDisabled(f: Form) {
    f.status == Loading
  }

  /** The form is replaced by the welcome banner on success. */
  predicate FormShown(f: Form) {
    f.status != Success
  }

  /** The red message line under the form. */
  predicate ErrorShown(f: Form) {
    f.status == Error
  }

  /** The button is disabled while the insert is pending and enabled again
      after it answers, whatever the answer. */
  lemma ButtonOnlyDisabledWhilePending(f: Form, outcome: Insert)
    ensures ButtonDisabled(Submit(f))
    ensures !ButtonDisabled(HandleSubscribe(f, outcome))
  {
  }

  /** A completed submit ends in exactly one of two ways: the form gives way
      to the welcome banner with the email cleared, or the form stays with
      the email kept for another try and an error line showing. */
  lemma SubscribeOutcomes(f: Form, outcome: Insert)
    ensures var r := HandleSubscribe(f, outcome);
            && (FormShown(r) <==> outcome.InsertError?)
            && (ErrorShown(r) <==> outcome.InsertError?)
            && (outcome.Inserted? ==> r.email == "" && r.message == Welcome)
            && (outcome.InsertError? ==> r.email == f.email)
  {
  }

  /** "Already on the list" is shown exactly for a duplicate email; every other
      failure, a missing code included, asks to try again later. */
  lemma DuplicateIff(f: Form, outcome: Insert)
    ensures HandleSubscribe(f, outcome).message == AlreadySubscribed
            <==> outcome == InsertError(Wrappers.Some(UniqueViolation))
    ensures outcome.InsertError? && outcome.code != Wrappers.Some(UniqueViolation)
            ==> HandleSubscribe(f, outcome).message == TryAgain
  {
  }

  /** Retrying after a failure submits the same email again. */
  lemma RetryKeepsEmail(f: Form, first: Insert, second: Insert)
    requires first.InsertError?
    ensures Submit(HandleSubscribe(f, first)).email == f.email
    ensures HandleSubscribe(HandleSubscribe(f, first), second).status != Loading
  {
  }
}

=== FILE: product_actions.dfy ===
/** The product page's action panel: a quantity counter, a wishlist heart and
    an "Add to Shopping Bag" button wired to the shop store. */
module ProductActions {
  import opened Wrappers
  import ShopStore
  import Navbar

  /** `useState(1)`: the counter starts at the lowest value the minus button
      allows. */
  function InitialQty(): (q: int)
    ensures q == 1 && Decrement(q) == q
  {
    1
  }

  /** The minus button: `Math.max(1, qty - 1)`. */
  function Decrement(qty: int): (r: int)
    ensures r >= 1
    ensures qty > 1 ==> r == qty - 1
    ensures qty <= 1 ==> r == 1
  {
    if qty - 1 > 1 then qty - 1 else 1
  }

  /** The plus button. */
  function Increment(qty: int): (r: int)
    ensures r == qty + 1
  {
    qty + 1
  }

  datatype Button = Minus | Plus

  /** The counter after a sequence of presses, starting from `useState(1)`. */
  function Counter(presses: seq<Button>): int {
    if presses == [] then InitialQty()
    else
      var before := Counter(presses[..|presses| - 1]);
      match presses[|presses| - 1]
      case Minus => Decrement(before)
      case Plus => Increment(before)
  }

  /** The counter never drops below one, whatever the presses. */
  lemma {:induction false} CounterAtLeastOne(presses: seq<Button>)
    ensures Counter(presses) >= 1
  {
    if presses != [] {
      CounterAtLeastOne(presses[..|presses| - 1]);
    }
  }

  /** How many of the presses were plus. */
  function PlusCount(presses: seq<Button>): nat {
    if presses == [] then 0
    else PlusCount(presses[..|presses| - 1]) + (if presses[|presses| - 1] == Plus then 1 else 0)
  }

  /** The counter is at most one more than the number of plus presses, and
      exactly that when minus was never pressed; one more plus raises it by
      one, one more minus lowers it by one but not below 1. */
  lemma {:induction false} CounterBounds(presses: seq<Button>)
    ensures 1 <= Counter(presses) <= 1 + PlusCount(presses)
    ensures (forall i :: 0 <= i < |presses| ==> presses[i] == Plus) ==> Counter(presses) == 1 + |presses|
    ensures Counter(presses + [Plus]) == Counter(presses) + 1
    ensures Counter(presses + [Minus]) == Decrement(Counter(presses))
  {
    assert (presses + [Plus])[..|presses|] == presses;
    assert (presses + [Minus])[..|presses|] == presses;
    if presses != [] {
      var front := presses[..|presses| - 1];
      assert forall i :: 0 <= i < |front| ==> front[i] == presses[i];
      CounterBounds(front);
    }
  }

  /** `wishlistIds.includes(product.id)` */
  predicate IsWishlisted(s: ShopStore.ShopState, id: string) {
    id in s.wishlistIds
  }

  /** The heart button calls `toggleWishlist(product.id)`, which flips the
      heart and leaves the cart alone. */
  lemma HeartFlips(s: ShopStore.ShopState, id: string)
    ensures IsWishlisted(ShopStore.ToggleWishlist(s, id), id) <==> !IsWishlisted(s, id)
    ensures ShopStore.ToggleWishlist(s, id).cart == s.cart
  {
  }

  /** `{ ...product, quantity: qty }` */
  function Payload(p: ShopStore.Product, qty: int): (r: ShopStore.Product)
    ensures r.quantity == Some(qty)
    ensures r.id == p.id && r.name == p.name && r.price == p.price && r.imageUrl == p.imageUrl
  {
    p.(quantity := Some(qty))
  }

  /** The add button: `addToCart` with the payload. */
  function AddPressed(s: ShopStore.ShopState, p: ShopStore.Product, qty: int): ShopStore.ShopState {
    ShopStore.AddToCart(s, Payload(p, qty))
  }

  /** The counter has no effect on the cart: the store adds one unit whatever
      `qty` the payload carries. */
  lemma AddIgnoresQuantity(s: ShopStore.ShopState, p: ShopStore.Product, q1: int, q2: int)
    ensures AddPressed(s, p, q1) == AddPressed(s, p, q2)
  {
  }

  /** Pressing add after raising the counter to `qty` still adds exactly one
      unit to the badge count. */
  lemma AddAddsOneUnit(s: ShopStore.ShopState, p: ShopStore.Product, presses: seq<Button>)
    requires ShopStore.ValidCart(s.cart)
    ensures Navbar.CartCount(AddPressed(s, p, Counter(presses)).cart) == Navbar.CartCount(s.cart) + 1
    ensures ShopStore.ValidCart(AddPressed(s, p, Counter(presses)).cart)
  {
    Navbar.CartCountAfterAdd(s, Payload(p, Counter(presses)));
    ShopStore.AddToCartKeepsValid(s, Payload(p, Counter(presses)));
  }
}

=== FILE: promotions.dfy ===
/** The flash-deal section: the countdown to a promotion's end, its two-digit
    display, the discounted price, and the removal of a promotion once its
    countdown runs out. Times are integer milliseconds since the epoch; the
    clock reading is a parameter. */
module Promotions {
  import opened Wrappers
  import Text
  import Seqs

  const MsPerSecond: int := 1000
  const MsPerMinute: int := 60 * 1000
  const MsPerHour: int := 1000 * 60 * 60
  const SecondsPerDay: int := 24 * 60 * 60
  const MsPerDay: int := 24 * 60 * 60 * 1000

  datatype TimeLeft = TimeLeft(hours: int, minutes: int, seconds: int)

  /** `calculateTimeLeft(targetDate)` with the clock read as `nowMs`: `null`
      once the end is reached, otherwise the hours, minutes and seconds left,
      each reduced modulo the next unit (whole days are not shown). */
  function CalculateTimeLeft(targetMs: int, nowMs: int): (r: Option<TimeLeft>)
    ensures r.None? <==> targetMs - nowMs <= 0
    ensures r.Some? ==> 0 <= r.value.hours < 24 && 0 <= r.value.minutes < 60 && 0 <= r.value.seconds < 60
  {
    var difference := targetMs - nowMs;
    if difference <= 0 then None
    else Some(TimeLeft((difference / MsPerHour) % 24, (difference / MsPerMinute) % 60, (difference / MsPerSecond) % 60))
  }

  // ---------------------------------------------------------------------
  // The JavaScript arithmetic behind the integer formulas
  // ---------------------------------------------------------------------

  /** JavaScript's `Math.trunc` on a real. */
  function Trunc(y: real): int {
    if y >= 0.0 then y.Floor else -((-y).Floor)
  }

  /** JavaScript's `%` on numbers: the remainder of truncating division. */
  function JsRem(x: real, m: real): real
    requires m > 0.0
  {
    x - m * (Trunc(x / m) as real)
  }

  /** The source's `Math.floor((difference / k) % n)` computed on reals. */
  function JsFloorMod(difference: int, k: int, n: int): int
    requires k > 0 && n > 0
  {
    JsRem(difference as real / k as real, n as real).Floor
  }

  /** A real between `a` and `a + 1` has floor `a`. */
  lemma FloorBetween(y: real, a: int)
    requires a as real <= y < a as real + 1.0
    ensures y.Floor == a
  {
  }

  /** Dividing `q * m + b` by `m` on reals gives `q + b / m`. */
  lemma RealDivSplit(q: int, b: real, m: real)
    requires m > 0.0
    ensures ((q as real) * m + b) / m == q as real + b / m
  {
    assert (q as real) * m / m == q as real;
  }

  /** A quotient below the divisor is below one. */
  lemma RealDivBelowOne(y: real, m: real)
    requires 0.0 <= y < m
    ensures 0.0 <= y / m < 1.0
  {
  }

  /** With `0 <= f < 1`, the real `q + f` over `n` has floor `q div n`. */
  lemma RealFloorOfShifted(q: int, f: real, n: int)
    requires q >= 0 && n > 0 && 0.0 <= f < 1.0
    ensures ((q as real + f) / n as real).Floor == q / n
  {
    var a := q / n;
    var b := q % n;
    var nr := n as real;
    assert q == a * n + b;
    assert (a * n) as real == (a as real) * nr;
    assert q as real + f == (a as real) * nr + (b as real + f);
    RealDivSplit(a, b as real + f, nr);
    RealDivBelowOne(b as real + f, nr);
    FloorBetween((q as real + f) / nr, a);
  }

  /** For a positive difference the real-number formula equals the integer
      one the model uses: `floor((d / k) % n) == (d div k) mod n`. */
  lemma JsFloorModIsIntegerMod(difference: int, k: int, n: int)
    requires difference > 0 && k > 0 && n > 0
    ensures JsFloorMod(difference, k, n) == (difference / k) % n
  {
    var q := difference / k;
    var r := difference % k;
    var kr := k as real;
    var frac := r as real / kr;
    assert 0.0 <= frac < 1.0;
    assert difference as real == (q as real) * kr + r as real;
    RealDivSplit(q, r as real, kr);
    var x := difference as real / kr;
    assert x == q as real + frac;
    RealFloorOfShifted(q, frac, n);
    assert Trunc(x / n as real) == q / n;
    assert q == (q / n) * n + q % n;
    assert (((q / n) * n) as real) == ((q / n) as real) * (n as real);
    assert JsRem(x, n as real) == (q % n) as real + frac;
    FloorBetween(JsRem(x, n as real), q % n);
  }

  lemma CountdownMatchesSource(targetMs: int, nowMs: int)
    requires targetMs - nowMs > 0
    ensures var t := CalculateTimeLeft(targetMs, nowMs).value;
            var d := targetMs - nowMs;
            && t.hours == JsFloorMod(d, MsPerHour, 24)
            && t.minutes == JsFloorMod(d, MsPerMinute, 60)
            && t.seconds == JsFloorMod(d, MsPerSecond, 60)
  {
    var d := targetMs - nowMs;
    JsFloorModIsIntegerMod(d, MsPerHour, 24);
    JsFloorModIsIntegerMod(d, MsPerMinute, 60);
    JsFloorModIsIntegerMod(d, MsPerSecond, 60);
  }

  // ---------------------------------------------------------------------
  // What the countdown shows
  // ---------------------------------------------------------------------

  /** The three units are the clock reading of the whole seconds left within
      the current day. */
  lemma {:induction false} UnitsOfDaySeconds(d: int)
    requires d > 0
    ensures var t := (d / MsPerSecond) % SecondsPerDay;
            && (d / MsPerHour) % 24 == t / 3600
            && (d / MsPerMinute) % 60 == (t / 60) % 60
            && (d / MsPerSecond) % 60 == t % 60
  {
    var s := d / 1000;
    var days := s / 86400;
    var t := s % 86400;
    assert s == 86400 * days + t;
    assert d / 60000 == s / 60;
    assert d / 3600000 == s / 3600;
    assert s / 3600 == 24 * days + t / 3600;
    assert s / 60 == 1440 * days + t / 60;
    assert s % 60 == t % 60;
  }

  /** Hours, minutes and seconds recombine into the seconds left within the day. */
  lemma TimeLeftRecombines(targetMs: int, nowMs: int)
    requires targetMs - nowMs > 0
    ensures var t := CalculateTimeLeft(targetMs, nowMs).value;
            t.hours * 3600 + t.minutes * 60 + t.seconds == ((targetMs - nowMs) / MsPerSecond) % SecondsPerDay
  {
    var d := targetMs - nowMs;
    UnitsOfDaySeconds(d);
    var t := (d / 1000) % 86400;
    assert t == 3600 * (t / 3600) + t % 3600;
    assert t % 3600 == 60 * ((t / 60) % 60) + t % 60;
  }

  /** The whole seconds left within the current day. */
  function DaySeconds(d: int): int {
    (d / MsPerSecond) % SecondsPerDay
  }

  /** A day more of difference leaves the seconds within the day unchanged. */
  lemma DaySecondsPeriodic(d: int)
    ensures DaySeconds(d + MsPerDay) == DaySeconds(d)
  {
    assert (d + 86400000) / 1000 == d / 1000 + 86400;
  }

  /** The countdown as a function of the seconds left within the day alone. */
  lemma TimeLeftOfDaySeconds(targetMs: int, nowMs: int)
    requires targetMs - nowMs > 0
    ensures var t := DaySeconds(targetMs - nowMs);
            CalculateTimeLeft(targetMs, nowMs) == Some(TimeLeft(t / 3600, (t / 60) % 60, t % 60))
  {
    UnitsOfDaySeconds(targetMs - nowMs);
  }

  /** Moving the end one day later changes nothing on screen. */
  lemma TimeLeftIgnoresOneDay(targetMs: int, nowMs: int)
    requires targetMs - nowMs > 0
    ensures CalculateTimeLeft(targetMs + MsPerDay, nowMs) == CalculateTimeLeft(targetMs, nowMs)
  {
    TimeLeftOfDaySeconds(targetMs, nowMs);
    TimeLeftOfDaySeconds(targetMs + MsPerDay, nowMs);
    DaySecondsPeriodic(targetMs - nowMs);
    assert targetMs + MsPerDay - nowMs == (targetMs - nowMs) + MsPerDay;
  }

  /** Moving the end any whole number of days later changes nothing on screen. */
  lemma {:induction false} TimeLeftIgnoresWholeDays(targetMs: int, nowMs: int, days: nat)
    requires targetMs - nowMs > 0
    ensures CalculateTimeLeft(targetMs + days * MsPerDay, nowMs) == CalculateTimeLeft(targetMs, nowMs)
  {
    if days > 0 {
      TimeLeftIgnoresWholeDays(targetMs, nowMs, days - 1);
      var earlier := targetMs + (days - 1) * MsPerDay;
      TimeLeftIgnoresOneDay(earlier, nowMs);
      assert earlier + MsPerDay == targetMs + days * MsPerDay;
    }
  }

  /** `String(val).padStart(2, '0')` */
  function Pad2(n: nat): string {
    Text.PadStart(Text.NatToString(n), 2, '0')
  }

  /** Every unit the countdown shows is two digits that read back as its value. */
  lemma Pad2RoundTrip(n: nat)
    requires n < 100
    ensures TwoDigitsOf(Pad2(n), n)
  {
    var digits := Text.NatToString(n);
    Text.NatToStringRoundTrip(n);
    if n < 10 {
      assert Pad2(n) == ['0'] + digits;
      assert Pad2(n)[..1] == ['0'];
    } else {
      assert |Text.NatToString(n / 10)| == 1;
      assert Pad2(n) == digits;
    }
  }

  /** One cell of the countdown: the padded value over its unit letter. */
  datatype Cell = Cell(value: string, unit: string)

  /** The three cells of the countdown, hours first. */
  function Cells(t: TimeLeft): seq<Cell>
    requires t.hours >= 0 && t.minutes >= 0 && t.seconds >= 0
  {
    [Cell(Pad2(t.hours), "H"), Cell(Pad2(t.minutes), "M"), Cell(Pad2(t.seconds), "S")]
  }

  /** Two decimal digits that spell `n`. */
  predicate TwoDigitsOf(s: string, n: int) {
    && |s| == 2
    && (forall j :: 0 <= j < |s| ==> Text.IsDigit(s[j]))
    && Text.DecimalValue(s) == n
  }

  /** Every cell of a running countdown (its units are within those bounds, by
      `CalculateTimeLeft`'s contract) is two digits that read back as the unit
      it is labelled with. */
  lemma CellsReadBack(t: TimeLeft)
    requires 0 <= t.hours < 24 && 0 <= t.minutes < 60 && 0 <= t.seconds < 60
    ensures var c := Cells(t);
            && |c| == 3
            && c[0].unit == "H" && c[1].unit == "M" && c[2].unit == "S"
            && TwoDigitsOf(c[0].value, t.hours)
            && TwoDigitsOf(c[1].value, t.minutes)
            && TwoDigitsOf(c[2].value, t.seconds)
  {
    Pad2RoundTrip(t.hours);
    Pad2RoundTrip(t.minutes);
    Pad2RoundTrip(t.seconds);
  }

  // ---------------------------------------------------------------------
  // Deals
  // ---------------------------------------------------------------------

  /** One active promotion joined with its product. */
  datatype Promo = Promo(id: string, productName: string, price: real, discountPercent: real, endsAt: int)

  /** `price * (1 - discount_percent / 100)`, before `toFixed(2)`: the list
      price less the discount's share of it, so a discount between 0 and 100
      percent never raises the price nor takes it below nothing. */
  function DealPrice(p: Promo): (r: real)
    ensures r == p.price - p.price * p.discountPercent / 100.0
    ensures p.price >= 0.0 && 0.0 <= p.discountPercent <= 100.0 ==> 0.0 <= r <= p.price
    ensures p.discountPercent == 0.0 ==> r == p.price
    ensures p.discountPercent == 100.0 ==> r == 0.0
  {
    assert p.price >= 0.0 && 0.0 <= p.discountPercent <= 100.0 ==> 0.0 <= p.price * p.discountPercent / 100.0 <= p.price;
    p.price * (1.0 - p.discountPercent / 100.0)
  }

  /** For a discount between 0 and 100 percent the deal price lies between
      nothing and the list price, and the extremes are what one expects. */
  lemma DealPriceBounds(p: Promo)
    requires p.price >= 0.0 && 0.0 <= p.discountPercent <= 100.0
    ensures 0.0 <= DealPrice(p) <= p.price
    ensures p.discountPercent == 0.0 ==> DealPrice(p) == p.price
    ensures p.discountPercent == 100.0 ==> DealPrice(p) == 0.0
  {
    assert 0.0 <= p.price * p.discountPercent / 100.0 <= p.price;
  }

  function PromoId(p: Promo): string {
    p.id
  }

  /** `onExpire`: `prev.filter(p => p.id !== promo.id)`. */
  function Expire(promos: seq<Promo>, id: string): (r: seq<Promo>)
    ensures !Seqs.HasKey(r, PromoId, id)
    ensures forall i :: 0 <= i < |promos| && promos[i].id != id ==> promos[i] in r
    ensures forall i :: 0 <= i < |r| ==> r[i] in promos
  {
    assert forall i :: 0 <= i < |promos| && promos[i].id != id ==> PromoId(promos[i]) != id;
    Seqs.Drop(promos, PromoId, id)
  }

  /** Expiry keeps the other promotions in their order: it distributes over
      any split of the list, and leaves a list without that id untouched. */
  lemma ExpireKeepsOrder(front: seq<Promo>, back: seq<Promo>, id: string)
    ensures Expire(front + back, id) == Expire(front, id) + Expire(back, id)
    ensures !Seqs.HasKey(front, PromoId, id) ==> Expire(front, id) == front
  {
    Seqs.DropAppend(front, back, PromoId, id);
    if !Seqs.HasKey(front, PromoId, id) {
      Seqs.DropAbsent(front, PromoId, id);
    }
  }

  /** One interval tick of a card's countdown: once the time left is `null`
      the card asks the list to drop its promotion. */
  function Tick(promos: seq<Promo>, promo: Promo, nowMs: int): seq<Promo> {
    if CalculateTimeLeft(promo.endsAt, nowMs).None? then Expire(promos, promo.id) else promos
  }

  /** A tick removes the promotion exactly when its end has been reached, and
      never touches another id. */
  lemma TickRemovesOnlyExpired(promos: seq<Promo>, promo: Promo, nowMs: int)
    requires promo in promos
    ensures promo in Tick(promos, promo, nowMs) <==> nowMs < promo.endsAt
    ensures forall q :: q in promos && q.id != promo.id ==> q in Tick(promos, promo, nowMs)
  {
    var r := Tick(promos, promo, nowMs);
    forall q | q in promos && q.id != promo.id
      ensures q in r
    {
      var i :| 0 <= i < |promos| && promos[i] == q;
    }
  }
}

=== FILE: proxy.dfy ===
/** The request proxy's admin guard: every request first refreshes the
    session; a path under "/admin" then needs a signed-in user whose profile
    says `is_admin`, and is redirected to "/login" or to "/dashboard" with
    an `error=unauthorized` flag otherwise. The session refresh, the user
    lookup and the profile query are remote; their outcomes are inputs. */
module Proxy {
  import opened Wrappers
  import Text
  import SearchParams

  const AdminPrefix: string := "/admin"
  const LoginPath: string := "/login"
  const DashboardPath: string := "/dashboard"
  /** Where every other caller sends a signed-out visitor. */
  const AuthLoginPath: string := "/auth/login"

  /** The static routes that the storefront's pages, links and redirects
      name. A `page.tsx` under a route group such as `(shop)` or
      `(protected)` is served without the group's name; the login form's and
      the footer's links add the sign-up, forgot-password and information
      pages. Dynamic pages (`product/[id]`, `orders/[id]`) are left out. */
  const Pages: set<string> := {
    "/", "/shop", "/faq", "/auth/login", "/auth/sign-up-success", "/checkout",
    "/auth/sign-up", "/auth/forgot-password",
    "/about", "/subscribe", "/events", "/shipping", "/returns", "/privacy",
    "/contact", "/how-it-works", "/reviews", "/unsubscribe", "/wishlist",
    "/dashboard", "/dashboard/orders", "/dashboard/settings", "/dashboard/wishlist",
    "/admin", "/admin/customers", "/admin/mail", "/admin/messages", "/admin/orders",
    "/admin/products", "/admin/promotions", "/admin/reviews", "/admin/settings"
  }

  /** The proxy's answer: the refreshed-session response unchanged, or a
      redirect to a URL. */
  datatype Response = SessionResponse | Redirect(to: SearchParams.Url)

  /** The `profiles` row of the signed-in user; `single()` yields no row when
      the lookup fails. */
  datatype Profile = Profile(isAdmin: bool)

  /** `pathname.startsWith('/admin')`: a plain prefix test. */
  predicate Guarded(pathname: string) {
    Text.StartsWith(pathname, AdminPrefix)
  }

  /** `!profile?.is_admin` fails exactly when the row is missing or not an admin. */
  predicate IsAdmin(profile: Option<Profile>) {
    profile.Some? && profile.value.isAdmin
  }

  /** The redirect for a guarded path without a user: the request URL with
      only its pathname changed. */
  function ToLogin(url: SearchParams.Url): (u: SearchParams.Url)
    ensures u.pathname == LoginPath && u.query == url.query
  {
    url.(pathname := LoginPath)
  }

  /** The redirect for a non-admin user: pathname "/dashboard" and the
      `error` parameter set to "unauthorized", the rest of the query kept. */
  function ToDashboard(url: SearchParams.Url): (u: SearchParams.Url)
    ensures u.pathname == DashboardPath
    ensures SearchParams.Get(u.query, "error") == Some("unauthorized")
    ensures forall other :: other != "error" ==> SearchParams.Get(u.query, other) == SearchParams.Get(url.query, other)
  {
    forall other | other != "error"
      ensures SearchParams.Get(SearchParams.Set(url.query, "error", "unauthorized"), other) == SearchParams.Get(url.query, other)
    {
      SearchParams.GetAfterSet(url.query, "error", "unauthorized", other);
    }
    SearchParams.GetAfterSet(url.query, "error", "unauthorized", "error");
    SearchParams.Url(DashboardPath, SearchParams.Set(url.query, "error", "unauthorized"))
  }

  /** `proxy(request)`. `user` is the signed-in user's id, if any;
      `profileOf` answers the profile query for a user id. */
  function Proxy(url: SearchParams.Url, user: Option<string>, profileOf: string -> Option<Profile>): (r: Response)
    ensures !Guarded(url.pathname) ==> r == SessionResponse
    ensures Guarded(url.pathname) && user.None? ==> r == Redirect(ToLogin(url))
    ensures Guarded(url.pathname) && user.Some? && !IsAdmin(profileOf(user.value)) ==> r == Redirect(ToDashboard(url))
  {
    if Guarded(url.pathname) then
      if user.None? then Redirect(ToLogin(url))
      else if !IsAdmin(profileOf(user.value)) then Redirect(ToDashboard(url))
      else SessionResponse
    else SessionResponse
  }

  /** The guard lets a request through exactly when the path is outside
      "/admin" or the user is a signed-in admin. */
  lemma PassesIff(url: SearchParams.Url, user: Option<string>, profileOf: string -> Option<Profile>)
    ensures Proxy(url, user, profileOf) == SessionResponse
            <==> !Guarded(url.pathname) || (user.Some? && IsAdmin(profileOf(user.value)))
  {
  }

  /** Neither redirect target is itself guarded, so following a redirect
      reaches a page the proxy passes through: no redirect loop. */
  lemma RedirectsSettle(url: SearchParams.Url, user: Option<string>, profileOf: string -> Option<Profile>)
    requires Proxy(url, user, profileOf).Redirect?
    ensures !Guarded(Proxy(url, user, profileOf).to.pathname)
    ensures Proxy(Proxy(url, user, profileOf).to, user, profileOf) == SessionResponse
  {
    assert LoginPath[..|AdminPrefix|][1] != AdminPrefix[1];
    assert DashboardPath[..|AdminPrefix|][1] != AdminPrefix[1];
  }

  /** The prefix test guards every path that merely begins with "/admin",
      such as "/administrator"; "/dashboard" and a bare "/adm" are not guarded. */
  lemma PrefixGuard(rest: string)
    ensures Guarded(AdminPrefix + rest)
    ensures Guarded("/administrator") && !Guarded("/dashboard") && !Guarded("/adm")
  {
    assert (AdminPrefix + rest)[..|AdminPrefix|] == AdminPrefix;
    assert "/administrator"[..6] == AdminPrefix;
    assert "/dashboard"[..6][1] != AdminPrefix[1];
  }

  /** As written, a signed-out visitor to any "/admin" path is sent to
      "/login", a path that no page or link of the storefront names; every
      other sign-in link and redirect uses "/auth/login". */
  lemma SignedOutRedirectMissesPage(url: SearchParams.Url, profileOf: string -> Option<Profile>)
    requires Guarded(url.pathname)
    ensures Proxy(url, None, profileOf).Redirect?
    ensures Proxy(url, None, profileOf).to.pathname !in Pages
    ensures AuthLoginPath in Pages
  {
  }

  /** The sign-in redirect as the rest of the app writes it: the request URL
      with its pathname set to the sign-in page, which exists and is not
      itself guarded. */
  function ToAuthLogin(url: SearchParams.Url): (u: SearchParams.Url)
    ensures u.pathname == AuthLoginPath && u.query == url.query
    ensures u.pathname in Pages && !Guarded(u.pathname)
  {
    assert AuthLoginPath[..|AdminPrefix|][2] != AdminPrefix[2];
    url.(pathname := AuthLoginPath)
  }

  /** The guard with the sign-in redirect corrected: it decides exactly as
      `Proxy` does, and every redirect goes to the sign-in page or the
      dashboard, neither of them guarded. */
  function ProxyIntended(url: SearchParams.Url, user: Option<string>, profileOf: string -> Option<Profile>): (r: Response)
    ensures r.SessionResponse? <==> Proxy(url, user, profileOf).SessionResponse?
    ensures r.Redirect? ==> (r.to.pathname == AuthLoginPath || r.to.pathname == DashboardPath) && !Guarded(r.to.pathname)
    ensures Guarded(url.pathname) && user.None? ==> r == Redirect(ToAuthLogin(url))
    ensures Guarded(url.pathname) && user.Some? && !IsAdmin(profileOf(user.value)) ==> r == Redirect(ToDashboard(url))
  {
    assert DashboardPath[..|AdminPrefix|][1] != AdminPrefix[1];
    if Guarded(url.pathname) then
      if user.None? then Redirect(ToAuthLogin(url))
      else if !IsAdmin(profileOf(user.value)) then Redirect(ToDashboard(url))
      else SessionResponse
    else SessionResponse
  }

  /** With the correction, every redirect lands on an existing page. */
  lemma IntendedRedirectsArePages(url: SearchParams.Url, user: Option<string>, profileOf: string -> Option<Profile>)
    requires ProxyIntended(url, user, profileOf).Redirect?
    ensures ProxyIntended(url, user, profileOf).to.pathname in Pages
    ensures Proxy(url, user, profileOf).Redirect? && Proxy(url, user, profileOf).to.pathname == LoginPath
            <==> ProxyIntended(url, user, profileOf).to.pathname == AuthLoginPath
  {
  }
}

=== FILE: recent_products.dfy ===
/** The "New Arrivals" strip: the stock badge on each card, the image the card
    is given, and when the strip shows at all. */
module RecentProducts {
  import opened Wrappers

  /** A product row; `stock_quantity` and both image columns may be null. */
  datatype Product = Product(id: string, stockQuantity: Option<int>, productImageUrl: Option<string>, imageUrl: Option<string>)

  /** `stock_quantity > 0 && stock_quantity <= 5` (a null stock compares false). */
  predicate IsLowStock(p: Product) {
    p.stockQuantity.Some? && 0 < p.stockQuantity.value <= 5
  }

  /** `stock_quantity === 0` */
  predicate IsOutOfStock(p: Product) {
    p.stockQuantity == Some(0)
  }

  /** The badge over a card, if any. */
  function Badge(p: Product): (b: Option<string>)
    ensures b.Some? <==> IsLowStock(p) || IsOutOfStock(p)
    ensures b == Some("Sold Out") <==> IsOutOfStock(p)
    ensures b == Some("Low Stock") <==> IsLowStock(p)
  {
    if IsLowStock(p) || IsOutOfStock(p) then
      Some(if IsOutOfStock(p) then "Sold Out" else "Low Stock")
    else None
  }

  /** The two flags exclude each other, and a badge shows exactly for stock
      levels 0 to 5; unknown, negative or larger stock shows none. */
  lemma BadgeClassifiesStock(p: Product)
    ensures !(IsLowStock(p) && IsOutOfStock(p))
    ensures Badge(p).Some? <==> p.stockQuantity.Some? && 0 <= p.stockQuantity.value <= 5
  {
  }

  /** JavaScript truthiness of an optional string: present and non-empty. */
  predicate Truthy(s: Option<string>) {
    s.Some? && s.value != ""
  }

  /** `product_image_url || image_url` */
  function CardImage(p: Product): (r: Option<string>)
    ensures Truthy(p.productImageUrl) ==> r == p.productImageUrl
    ensures !Truthy(p.productImageUrl) ==> r == p.imageUrl
  {
    if Truthy(p.productImageUrl) then p.productImageUrl else p.imageUrl
  }

  /** The card gets a usable image whenever either column has one, preferring
      the product image. */
  lemma CardImageFallback(p: Product)
    ensures Truthy(CardImage(p)) <==> Truthy(p.productImageUrl) || Truthy(p.imageUrl)
  {
  }

  /** The strip's state: loading, and the products shown. */
  datatype Strip = Strip(loading: bool, products: seq<Product>)

  /** The query's outcome: an error, or the data (possibly null). */
  datatype Fetched = QueryError | Rows(data: Option<seq<Product>>)

  /** `fetchRecent`: the rows replace the list only on success with data;
      loading ends either way. */
  function AfterFetch(s: Strip, f: Fetched): (r: Strip)
    ensures !r.loading
    ensures f.Rows? && f.data.Some? ==> r.products == f.data.value
    ensures !(f.Rows? && f.data.Some?) ==> r.products == s.products
  {
    if f.Rows? && f.data.Some? then Strip(false, f.data.value) else s.(loading := false)
  }

  /** `loading || products.length === 0` renders nothing. */
  predicate Shown(s: Strip) {
    !s.loading && |s.products| > 0
  }

  /** Starting empty, the strip appears after the fetch exactly when the query
      returned at least one row. */
  lemma ShownIffRowsReturned(f: Fetched)
    ensures Shown(AfterFetch(Strip(true, []), f)) <==> f.Rows? && f.data.Some? && |f.data.value| > 0
  {
  }
}

=== FILE: search_params.dfy ===
/** The part of the WHATWG `URLSearchParams` interface the storefront uses:
    an ordered list of name/value pairs with `get`, `set` and `delete`.
    Serialisation (percent-encoding, `toString`) is not modelled; a URL is
    kept as a path plus this structured query. */
module SearchParams {
  import opened Wrappers
  import Seqs

  datatype Param = Param(name: string, value: string)

  type Params = seq<Param>

  /** A navigation target: a path and its query parameters. */
  datatype Url = Url(pathname: string, query: Params)

  function Name(p: Param): string {
    p.name
  }

  /** `params.get(name)`: the value of the first pair with that name, or null. */
  function Get(ps: Params, name: string): (r: Option<string>)
    ensures r.None? <==> !Seqs.HasKey(ps, Name, name)
    ensures r.Some? ==> exists i :: 0 <= i < |ps| && ps[i] == Param(name, r.value) && !Seqs.HasKey(ps[..i], Name, name)
  {
    if ps == [] then None
    else if ps[0].name == name then
      assert ps[..0] == [];
      Some(ps[0].value)
    else
      var r := Get(ps[1..], name);
      if r.Some? then
        var j :| 0 <= j < |ps| - 1 && ps[1..][j] == Param(name, r.value) && !Seqs.HasKey(ps[1..][..j], Name, name);
        var pre := ps[..j + 1];
        var rest := ps[1..][..j];
        assert pre == [ps[0]] + rest;
        assert !Seqs.HasKey(pre, Name, name) by {
          forall k | 0 <= k < |pre|
            ensures Name(pre[k]) != name
          {
            if k > 0 {
              assert pre[k] == rest[k - 1];
            }
          }
        }
        assert ps[j + 1] == Param(name, r.value);
        r
      else
        r
  }

  /** `params.delete(name)`: every pair with that name removed. */
  function Delete(ps: Params, name: string): Params {
    Seqs.Drop(ps, Name, name)
  }

  /** The first pair named `name` takes value `value`; later pairs with that
      name are removed. */
  function ReplaceFirst(ps: Params, name: string, value: string): (r: Params)
    requires Seqs.HasKey(ps, Name, name)
  {
    if ps[0].name == name then [Param(name, value)] + Delete(ps[1..], name)
    else
      assert Seqs.HasKey(ps[1..], Name, name) by {
        var i :| 0 <= i < |ps| && Name(ps[i]) == name;
        assert i > 0 && ps[1..][i - 1] == ps[i];
      }
      [ps[0]] + ReplaceFirst(ps[1..], name, value)
  }

  /** `params.set(name, value)`: replaces the first pair with that name and
      drops the others, or appends the pair when the name is absent. */
  function Set(ps: Params, name: string, value: string): Params {
    if Seqs.HasKey(ps, Name, name) then ReplaceFirst(ps, name, value) else ps + [Param(name, value)]
  }

  lemma {:induction false} GetAfterReplaceFirst(ps: Params, name: string, value: string, other: string)
    requires Seqs.HasKey(ps, Name, name)
    ensures Get(ReplaceFirst(ps, name, value), name) == Some(value)
    ensures other != name ==> Get(ReplaceFirst(ps, name, value), other) == Get(Delete(ps, name), other)
  {
    if ps[0].name != name {
      assert Seqs.HasKey(ps[1..], Name, name) by {
        var i :| 0 <= i < |ps| && Name(ps[i]) == name;
        assert i > 0 && ps[1..][i - 1] == ps[i];
      }
      GetAfterReplaceFirst(ps[1..], name, value, other);
    }
  }

  lemma {:induction false} GetAppend(ps: Params, extra: Param, name: string)
    ensures Get(ps + [extra], name) == (if Get(ps, name).Some? then Get(ps, name)
                                        else if extra.name == name then Some(extra.value) else None)
  {
    if ps != [] {
      assert (ps + [extra])[1..] == ps[1..] + [extra];
      GetAppend(ps[1..], extra, name);
    }
  }

  /** Deleting `name` never changes what any other name reads as. */
  lemma {:induction false} GetAfterDelete(ps: Params, name: string, other: string)
    ensures Get(Delete(ps, name), name) == None
    ensures other != name ==> Get(Delete(ps, name), other) == Get(ps, other)
  {
    if ps != [] {
      GetAfterDelete(ps[1..], name, other);
    }
  }

  /** After `set(name, value)`, `get(name)` reads `value` and every other
      name reads as before. */
  lemma GetAfterSet(ps: Params, name: string, value: string, other: string)
    ensures Get(Set(ps, name, value), name) == Some(value)
    ensures other != name ==> Get(Set(ps, name, value), other) == Get(ps, other)
  {
    GetAfterDelete(ps, name, other);
    if Seqs.HasKey(ps, Name, name) {
      GetAfterReplaceFirst(ps, name, value, other);
    } else {
      GetAppend(ps, Param(name, value), name);
      GetAppend(ps, Param(name, value), other);
    }
  }

  lemma {:induction false} DeleteReplaceFirst(ps: Params, name: string, value: string)
    requires Seqs.HasKey(ps, Name, name)
    ensures Delete(ReplaceFirst(ps, name, value), name) == Delete(ps, name)
  {
    var r := ReplaceFirst(ps, name, value);
    if ps[0].name == name {
      Seqs.DropAbsent(Delete(ps[1..], name), Name, name);
      assert r[1..] == Delete(ps[1..], name);
    } else {
      assert Seqs.HasKey(ps[1..], Name, name) by {
        var i :| 0 <= i < |ps| && Name(ps[i]) == name;
        assert i > 0 && ps[1..][i - 1] == ps[i];
      }
      assert r[1..] == ReplaceFirst(ps[1..], name, value);
      DeleteReplaceFirst(ps[1..], name, value);
    }
  }

  /** `set` touches only pairs with its own name: removing that name again
      leaves exactly the other pairs, in their original order. */
  lemma DeleteAfterSet(ps: Params, name: string, value: string)
    ensures Delete(Set(ps, name, value), name) == Delete(ps, name)
  {
    if Seqs.HasKey(ps, Name, name) {
      DeleteReplaceFirst(ps, name, value);
    } else {
      Seqs.DropAppend(ps, [Param(name, value)], Name, name);
      assert Seqs.Drop([Param(name, value)], Name, name) == [];
    }
  }

  /** Deleting twice is deleting once. */
  lemma DeleteIdempotent(ps: Params, name: string)
    ensures Delete(Delete(ps, name), name) == Delete(ps, name)
  {
    Seqs.DropAbsent(Delete(ps, name), Name, name);
  }

  lemma {:induction false} ReplaceFirstIdempotent(ps: Params, name: string, value: string)
    requires Seqs.HasKey(ps, Name, name)
    ensures Seqs.HasKey(ReplaceFirst(ps, name, value), Name, name)
    ensures ReplaceFirst(ReplaceFirst(ps, name, value), name, value) == ReplaceFirst(ps, name, value)
  {
    var r := ReplaceFirst(ps, name, value);
    assert Name(r[0]) == name || Name(r[0]) == Name(ps[0]);
    if ps[0].name == name {
      assert Name(r[0]) == name;
      assert r[1..] == Delete(ps[1..], name);
      DeleteIdempotent(ps[1..], name);
    } else {
      assert Seqs.HasKey(ps[1..], Name, name) by {
        var i :| 0 <= i < |ps| && Name(ps[i]) == name;
        assert i > 0 && ps[1..][i - 1] == ps[i];
      }
      ReplaceFirstIdempotent(ps[1..], name, value);
      var rest := ReplaceFirst(ps[1..], name, value);
      assert r == [ps[0]] + rest;
      assert r[1..] == rest;
      var j :| 0 <= j < |rest| && Name(rest[j]) == name;
      assert Name(r[j + 1]) == name;
    }
  }

  /** Appending a pair whose name is new, then setting it to the same value,
      changes nothing. */
  lemma {:induction false} ReplaceFirstOfAppended(ps: Params, name: string, value: string)
    requires !Seqs.HasKey(ps, Name, name)
    ensures Seqs.HasKey(ps + [Param(name, value)], Name, name)
    ensures ReplaceFirst(ps + [Param(name, value)], name, value) == ps + [Param(name, value)]
  {
    var extended := ps + [Param(name, value)];
    assert Name(extended[|ps|]) == name;
    if ps == [] {
      assert extended == [Param(name, value)];
      assert Delete([], name) == [];
    } else {
      assert Name(ps[0]) != name;
      assert !Seqs.HasKey(ps[1..], Name, name) by {
        forall i | 0 <= i < |ps[1..]|
          ensures Name(ps[1..][i]) != name
        {
          assert ps[1..][i] == ps[i + 1];
        }
      }
      assert extended[1..] == ps[1..] + [Param(name, value)];
      ReplaceFirstOfAppended(ps[1..], name, value);
    }
  }

  /** Setting the same value twice is setting it once. */
  lemma SetIdempotent(ps: Params, name: string, value: string)
    ensures Set(Set(ps, name, value), name, value) == Set(ps, name, value)
  {
    if Seqs.HasKey(ps, Name, name) {
      ReplaceFirstIdempotent(ps, name, value);
    } else {
      ReplaceFirstOfAppended(ps, name, value);
    }
  }
}

=== FILE: seqs.dfy ===
/** Keyed sequence operations: the `list.filter(x => key(x) !== k)`,
    `list.some(x => key(x) === k)` and `list.includes(k)` idioms the store,
    the wishlist hook and the promotions list share. A key function picks the
    identifier out of a record (the identity for lists of ids). */
module Seqs {

  /** Some element carries key `k` (`xs.some(x => key(x) === k)`). */
  predicate HasKey<T, K(==)>(xs: seq<T>, key: T -> K, k: K) {
    exists i :: 0 <= i < |xs| && key(xs[i]) == k
  }

  /** Number of elements carrying key `k`. */
  function CountKey<T, K(==)>(xs: seq<T>, key: T -> K, k: K): nat {
    if xs == [] then 0
    else (if key(xs[0]) == k then 1 else 0) + CountKey(xs[1..], key, k)
  }

  /** `xs.filter(x => key(x) !== k)`: every element with key `k` removed. */
  function Drop<T, K(==)>(xs: seq<T>, key: T -> K, k: K): (r: seq<T>)
    ensures |r| == |xs| - CountKey(xs, key, k)
    ensures !HasKey(r, key, k)
    ensures forall i :: 0 <= i < |r| ==> r[i] in xs
    ensures forall i :: 0 <= i < |xs| && key(xs[i]) != k ==> xs[i] in r
  {
    if xs == [] then []
    else if key(xs[0]) == k then Drop(xs[1..], key, k)
    else [xs[0]] + Drop(xs[1..], key, k)
  }

  /** Filtering distributes over concatenation, so the survivors keep their
      relative order. */
  lemma {:induction false} DropAppend<T, K>(a: seq<T>, b: seq<T>, key: T -> K, k: K)
    ensures Drop(a + b, key, k) == Drop(a, key, k) + Drop(b, key, k)
  {
    if a == [] {
      assert a + b == b;
    } else {
      assert (a + b)[1..] == a[1..] + b;
      DropAppend(a[1..], b, key, k);
    }
  }

  lemma {:induction false} CountKeyPositive<T, K>(xs: seq<T>, key: T -> K, k: K, i: nat)
    requires i < |xs| && key(xs[i]) == k
    ensures CountKey(xs, key, k) > 0
  {
    if i > 0 {
      assert xs[1..][i - 1] == xs[i];
      CountKeyPositive(xs[1..], key, k, i - 1);
    }
  }

  /** Filtering out a key that is present makes the list strictly shorter. */
  lemma DropShrinks<T, K>(xs: seq<T>, key: T -> K, k: K, i: nat)
    requires i < |xs| && key(xs[i]) == k
    ensures |Drop(xs, key, k)| < |xs|
  {
    CountKeyPositive(xs, key, k, i);
  }

  /** When no element carries the key, filtering changes nothing. */
  lemma {:induction false} DropAbsent<T, K>(xs: seq<T>, key: T -> K, k: K)
    requires !HasKey(xs, key, k)
    ensures Drop(xs, key, k) == xs
  {
    if xs != [] {
      assert key(xs[0]) != k;
      assert !HasKey(xs[1..], key, k) by {
        forall i | 0 <= i < |xs[1..]|
          ensures key(xs[1..][i]) != k
        {
          assert xs[1..][i] == xs[i + 1];
        }
      }
      DropAbsent(xs[1..], key, k);
    }
  }

  /** Removing a key never changes which other keys are present. */
  lemma DropKeepsOtherKeys<T, K>(xs: seq<T>, key: T -> K, k: K, other: K)
    requires other != k
    ensures HasKey(Drop(xs, key, k), key, other) <==> HasKey(xs, key, other)
  {
    var r := Drop(xs, key, k);
    if HasKey(xs, key, other) {
      var i :| 0 <= i < |xs| && key(xs[i]) == other;
      assert xs[i] in r;
      var j :| 0 <= j < |r| && r[j] == xs[i];
    }
    if HasKey(r, key, other) {
      var j :| 0 <= j < |r| && key(r[j]) == other;
      assert r[j] in xs;
      var i :| 0 <= i < |xs| && xs[i] == r[j];
    }
  }

  /** No two elements share a key. */
  predicate UniqueKeys<T, K(==)>(xs: seq<T>, key: T -> K) {
    forall i, j :: 0 <= i < j < |xs| ==> key(xs[i]) != key(xs[j])
  }

  /** A filter of a list with unique keys still has unique keys. */
  lemma {:induction false} DropKeepsUnique<T, K>(xs: seq<T>, key: T -> K, k: K)
    requires UniqueKeys(xs, key)
    ensures UniqueKeys(Drop(xs, key, k), key)
  {
    if xs != [] {
      assert UniqueKeys(xs[1..], key) by {
        forall i, j | 0 <= i < j < |xs[1..]|
          ensures key(xs[1..][i]) != key(xs[1..][j])
        {
          assert xs[1..][i] == xs[i + 1] && xs[1..][j] == xs[j + 1];
        }
      }
      DropKeepsUnique(xs[1..], key, k);
      var rest := Drop(xs[1..], key, k);
      if key(xs[0]) != k {
        forall j | 0 <= j < |rest|
          ensures key(xs[0]) != key(rest[j])
        {
          assert rest[j] in xs[1..];
          var m :| 0 <= m < |xs[1..]| && xs[1..][m] == rest[j];
          assert xs[1..][m] == xs[m + 1];
        }
        var r := [xs[0]] + rest;
        forall i, j | 0 <= i < j < |r|
          ensures key(r[i]) != key(r[j])
        {
          if i > 0 {
            assert r[i] == rest[i - 1] && r[j] == rest[j - 1];
          }
        }
      }
    }
  }
}

=== FILE: shop_filters.dfy ===
/** The category sidebar on the shop page: four fixed buttons, each
    navigating to `/shop?category=<id>`, the current one highlighted. */
module ShopFilters {
  import opened Wrappers
  import SearchParams
  import ShopPage
  import ShopSearch

  datatype Category = Category(title: string, id: string)

  const Categories: seq<Category> := [
    Category("All Products", "all"),
    Category("Full Kits", "Kits"),
    Category("Single Bottles", "Single"),
    Category("Accessories", "Accessories")
  ]

  /** `router.push(`/shop?category=${cat.id}`)`: a fresh query holding only the
      category. The URL drops any search text, but the search box keeps its
      text and pushes it back (`SettlesWithSearchText`). */
  function Target(c: Category): (u: SearchParams.Url)
    ensures u.pathname == "/shop"
    ensures SearchParams.Get(u.query, "category") == Some(c.id)
    ensures SearchParams.Get(u.query, "q") == None
  {
    SearchParams.Url("/shop", [SearchParams.Param("category", c.id)])
  }

  /** `currentCategory === cat.id` */
  predicate Highlighted(current: string, c: Category) {
    current == c.id
  }

  /** The ids are distinct, so at most one button is highlighted. */
  lemma AtMostOneHighlighted(current: string, i: nat, j: nat)
    requires i < |Categories| && j < |Categories|
    requires Highlighted(current, Categories[i]) && Highlighted(current, Categories[j])
    ensures i == j
  {
  }

  /** With no category in the URL (or an empty one) the page passes "all", so
      "All Products" is highlighted and the listing is unfiltered by category. */
  lemma DefaultHighlightsAll(query: SearchParams.Params)
    requires !ShopPage.Truthy(ShopPage.CategoryParam(query))
    ensures Highlighted(ShopPage.CurrentCategory(ShopPage.CategoryParam(query)), Categories[0])
    ensures !ShopPage.CategoryFilterApplies(ShopPage.CategoryParam(query))
  {
  }

  /** The URL a click pushes highlights that same button and filters by it
      (no filter for "all"), with no search text. */
  lemma ClickHighlightsItself(i: nat)
    requires i < |Categories|
    ensures var q := Target(Categories[i]).query;
            && Highlighted(ShopPage.CurrentCategory(ShopPage.CategoryParam(q)), Categories[i])
            && (ShopPage.CategoryFilterApplies(ShopPage.CategoryParam(q)) <==> i != 0)
            && !ShopPage.Truthy(ShopPage.QParam(q))
  {
  }

  /** The page a click settles on: the search box's text survives the
      navigation (its state is not reset), so its effect re-pushes the clicked
      category's URL with `q` set back to that text. The settled page
      highlights the clicked button and searches for the same text as before. */
  lemma SettlesWithSearchText(i: nat, query: string)
    requires i < |Categories|
    ensures var u := ShopSearch.Target(Target(Categories[i]).query, query);
            && SearchParams.Get(u.query, "category") == Some(Categories[i].id)
            && SearchParams.Get(u.query, "q") == (if query != "" then Some(query) else None)
            && Highlighted(ShopPage.CurrentCategory(ShopPage.CategoryParam(u.query)), Categories[i])
            && (ShopPage.Truthy(ShopPage.QParam(u.query)) <==> query != "")
  {
    ShopSearch.TargetParams(Target(Categories[i]).query, query, "category");
    ShopSearch.SearchKeepsCategory(Target(Categories[i]).query, query);
  }
}

=== FILE: shop_page.dfy ===
/** The shop listing: which products the query keeps for the `category` and
    `q` parameters, the order they are shown in, and the empty-state text.
    The products table is a snapshot (`None` when the query fails); the
    database's filters, `ILIKE` and ordering are spelled out here. */
module ShopPage {
  import opened Wrappers
  import Text
  import SearchParams

  datatype Product = Product(id: string, name: string, category: Option<string>, createdAt: int)

  /** JavaScript truthiness of an optional string: present and non-empty. */
  predicate Truthy(s: Option<string>) {
    s.Some? && s.value != ""
  }

  // ---------------------------------------------------------------------
  // LIKE patterns
  // ---------------------------------------------------------------------

  /** SQL `LIKE` as the database's REST layer reads a pattern: `%` and its
      alias `*` match any run of characters, `_` any one character, and a
      backslash makes the next character literal. */
  function Like(s: string, pat: string): bool
    decreases |s| + |pat|
  {
    if pat == [] then s == []
    else if pat[0] == '%' || pat[0] == '*' then Like(s, pat[1..]) || (s != [] && Like(s[1..], pat))
    else if pat[0] == '\\' && |pat| >= 2 then s != [] && s[0] == pat[1] && Like(s[1..], pat[2..])
    else if pat[0] == '_' then s != [] && Like(s[1..], pat[1..])
    else s != [] && s[0] == pat[0] && Like(s[1..], pat[1..])
  }

  /** `ILIKE`: `LIKE` after lower-casing both sides. */
  predicate ILike(s: string, pat: string) {
    Like(Text.Lower(s), Text.Lower(pat))
  }

  /** A search text with none of the pattern's special characters. */
  predicate NoWildcards(q: string) {
    forall i :: 0 <= i < |q| ==> q[i] != '%' && q[i] != '*' && q[i] != '_' && q[i] != '\\'
  }

  /** A lone `%` matches everything. */
  lemma {:induction false} LikeAnything(s: string)
    ensures Like(s, "%")
    decreases |s|
  {
    if s != [] {
      LikeAnything(s[1..]);
    }
  }

  /** A leading `%` matches when the rest of the pattern matches some suffix. */
  lemma {:induction false} LikeLeadingPercent(s: string, rest: string)
    ensures Like(s, "%" + rest) <==> exists i :: 0 <= i <= |s| && Like(s[i..], rest)
    decreases |s|
  {
    var pat := "%" + rest;
    assert pat[0] == '%' && pat[1..] == rest;
    assert s[0..] == s;
    if s == [] {
      assert Like(s, pat) == Like(s, rest);
    } else {
      assert Like(s, pat) == (Like(s, rest) || Like(s[1..], pat));
      LikeLeadingPercent(s[1..], rest);
      if Like(s[1..], pat) {
        var j :| 0 <= j <= |s[1..]| && Like(s[1..][j..], rest);
        assert s[1..][j..] == s[j + 1..];
      }
      if exists i :: 0 <= i <= |s| && Like(s[i..], rest) {
        var i :| 0 <= i <= |s| && Like(s[i..], rest);
        if i > 0 {
          assert s[1..][i - 1..] == s[i..];
        }
      }
    }
  }

  /** A wildcard-free literal at the head of a pattern matches a prefix of the
      same characters. */
  lemma {:induction false} LikeLiteralHead(s: string, lit: string, rest: string)
    requires NoWildcards(lit)
    ensures Like(s, lit + rest) <==> Text.StartsWith(s, lit) && Like(s[|lit|..], rest)
    decreases |lit|
  {
    if lit == [] {
      assert lit + rest == rest;
      assert s[0..] == s;
    } else {
      assert (lit + rest)[0] == lit[0];
      assert (lit + rest)[1..] == lit[1..] + rest;
      assert NoWildcards(lit[1..]) by {
        forall i | 0 <= i < |lit[1..]|
          ensures lit[1..][i] != '%' && lit[1..][i] != '*' && lit[1..][i] != '_' && lit[1..][i] != '\\'
        {
          assert lit[1..][i] == lit[i + 1];
        }
      }
      if s != [] {
        LikeLiteralHead(s[1..], lit[1..], rest);
        if |lit| <= |s| {
          assert s[1..][|lit[1..]|..] == s[|lit|..];
          assert s[..|lit|] == [s[0]] + s[1..][..|lit[1..]|];
          assert lit == [lit[0]] + lit[1..];
        }
      }
    }
  }

  /** A `*` typed into the search box is a wildcard, not a literal: "a*c"
      finds "abc". */
  lemma StarInSearchIsWildcard()
    ensures Like("abc", "%a*c%") && !Like("abc", "%a\\*c%")
  {
    assert Like("c", "c%") by { LikeAnything(""); }
    assert Like("bc", "*c%");
    assert Like("abc", "a*c%");
  }

  /** The search pattern always ends in `%`, so every backslash in it has a
      character after it to escape: a search text ending in a backslash
      escapes that `%` rather than leaving a dangling escape. */
  lemma SearchPatternEndsInWildcard(q: string)
    ensures var pat := "%" + q + "%"; |pat| >= 2 && pat[|pat| - 1] == '%'
    ensures var pat := "%" + q + "%"; forall i :: 0 <= i < |pat| && pat[i] == '\\' ==> i + 1 < |pat|
  {
  }

  /** `ILIKE '%q%'` for a wildcard-free `q` is case-insensitive substring search. */
  lemma SearchIsSubstring(name: string, q: string)
    requires NoWildcards(q)
    ensures ILike(name, "%" + q + "%") <==> Text.Contains(Text.Lower(name), Text.Lower(q))
  {
    var s := Text.Lower(name);
    var lq := Text.Lower(q);
    assert Text.Lower("%" + q + "%") == "%" + (lq + "%");
    assert NoWildcards(lq);
    LikeLeadingPercent(s, lq + "%");
    forall i | 0 <= i <= |s|
      ensures Like(s[i..], lq + "%") <==> Text.StartsWith(s[i..], lq)
    {
      LikeLiteralHead(s[i..], lq, "%");
      if Text.StartsWith(s[i..], lq) {
        LikeAnything(s[i..][|lq|..]);
      }
    }
  }

  // ---------------------------------------------------------------------
  // The query
  // ---------------------------------------------------------------------

  /** `category && category !== "all"` */
  predicate CategoryFilterApplies(category: Option<string>) {
    Truthy(category) && category.value != "all"
  }

  /** The conditions the query adds: `.eq("category", …)` and
      `.ilike("name", "%q%")`, each only when its parameter asks for it. */
  predicate Keeps(p: Product, category: Option<string>, q: Option<string>) {
    && (CategoryFilterApplies(category) ==> p.category == Some(category.value))
    && (Truthy(q) ==> ILike(p.name, "%" + q.value + "%"))
  }

  function Filter(rows: seq<Product>, category: Option<string>, q: Option<string>): (r: seq<Product>)
    ensures forall i :: 0 <= i < |r| ==> Keeps(r[i], category, q)
    ensures multiset(r) <= multiset(rows)
    ensures forall x :: x in rows && Keeps(x, category, q) ==> multiset(r)[x] == multiset(rows)[x]
  {
    if rows == [] then []
    else
      assert rows == [rows[0]] + rows[1..];
      (if Keeps(rows[0], category, q) then [rows[0]] else []) + Filter(rows[1..], category, q)
  }

  /** Newest first. */
  predicate SortedDesc(xs: seq<Product>) {
    forall i, j :: 0 <= i < j < |xs| ==> xs[i].createdAt >= xs[j].createdAt
  }

  /** Putting a row newer than or as new as the head in front keeps the order. */
  lemma ConsSorted(y: Product, tail: seq<Product>)
    requires SortedDesc(tail)
    requires tail != [] ==> y.createdAt >= tail[0].createdAt
    ensures SortedDesc([y] + tail)
  {
    var r := [y] + tail;
    forall i, j | 0 <= i < j < |r|
      ensures r[i].createdAt >= r[j].createdAt
    {
      if i == 0 {
        assert r[j] == tail[j - 1];
        if j > 1 {
          assert tail[0].createdAt >= tail[j - 1].createdAt;
        }
      } else {
        assert r[i] == tail[i - 1] && r[j] == tail[j - 1];
      }
    }
  }

  /** Insert `x` into a newest-first list, ahead of the rows no newer than it. */
  function Insert(x: Product, ys: seq<Product>): (r: seq<Product>)
    requires SortedDesc(ys)
    ensures |r| == |ys| + 1
    ensures r[0] == x || (ys != [] && r[0] == ys[0])
    ensures SortedDesc(r)
    ensures multiset(r) == multiset(ys) + multiset{x}
  {
    if ys == [] || ys[0].createdAt <= x.createdAt then
      ConsSorted(x, ys);
      [x] + ys
    else
      assert SortedDesc(ys[1..]);
      var tail := Insert(x, ys[1..]);
      InsertBehindHead(x, ys, tail);
      [ys[0]] + tail
  }

  /** The recursive case of `Insert`: a head newer than `x` stays in front of
      the tail `x` was inserted into. */
  lemma InsertBehindHead(x: Product, ys: seq<Product>, tail: seq<Product>)
    requires SortedDesc(ys) && ys != [] && ys[0].createdAt > x.createdAt
    requires SortedDesc(tail) && multiset(tail) == multiset(ys[1..]) + multiset{x}
    requires tail != [] && (tail[0] == x || (ys[1..] != [] && tail[0] == ys[1..][0]))
    ensures SortedDesc([ys[0]] + tail)
    ensures multiset([ys[0]] + tail) == multiset(ys) + multiset{x}
  {
    ConsSorted(ys[0], tail);
    assert ys == [ys[0]] + ys[1..];
  }

  /** `.order("created_at", { ascending: false })`. The database fixes no
      order among equal timestamps, so only the ordering and the contents are
      stated. */
  function SortNewestFirst(xs: seq<Product>): (r: seq<Product>)
    ensures SortedDesc(r)
    ensures multiset(r) == multiset(xs)
  {
    if xs == [] then []
    else
      assert xs == [xs[0]] + xs[1..];
      Insert(xs[0], SortNewestFirst(xs[1..]))
  }

  /** The page's parameters: the first `category` and `q` of the URL. */
  function CategoryParam(query: SearchParams.Params): Option<string> {
    SearchParams.Get(query, "category")
  }

  function QParam(query: SearchParams.Params): Option<string> {
    SearchParams.Get(query, "q")
  }

  /** The products the page lists, or `None` when the query failed. */
  function Listing(table: Option<seq<Product>>, query: SearchParams.Params): (r: Option<seq<Product>>)
    ensures r.None? <==> table.None?
    ensures r.Some? ==> SortedDesc(r.value)
    ensures r.Some? ==> forall x :: x in r.value <==> x in table.value && Keeps(x, CategoryParam(query), QParam(query))
  {
    match table
    case None => None
    case Some(rows) =>
      var kept := Filter(rows, CategoryParam(query), QParam(query));
      var sorted := SortNewestFirst(kept);
      assert forall x :: x in sorted <==> x in multiset(kept);
      Some(sorted)
  }

  /** Without a category (or with "all") and without a search text, the page
      lists the whole table. */
  lemma NoParamsListsAll(table: seq<Product>, query: SearchParams.Params)
    requires !CategoryFilterApplies(CategoryParam(query)) && !Truthy(QParam(query))
    ensures multiset(Listing(Some(table), query).value) == multiset(table)
  {
    var kept := Filter(table, CategoryParam(query), QParam(query));
    assert forall x :: x in table ==> Keeps(x, CategoryParam(query), QParam(query));
    assert forall x :: multiset(kept)[x] == multiset(table)[x] by {
      forall x
        ensures multiset(kept)[x] == multiset(table)[x]
      {
        if x !in table {
          assert multiset(kept)[x] <= multiset(table)[x];
        }
      }
    }
    assert multiset(kept) == multiset(table);
  }

  // ---------------------------------------------------------------------
  // What the grid area shows
  // ---------------------------------------------------------------------

  /** `products && products.length > 0` shows the grid; otherwise the empty state. */
  predicate ShowsGrid(listing: Option<seq<Product>>) {
    listing.Some? && |listing.value| > 0
  }

  /** The empty state's headline. */
  function EmptyMessage(q: Option<string>): (m: string)
    ensures Truthy(q) ==> m == "No results for \"" + q.value + "\""
    ensures !Truthy(q) ==> m == "No products found"
  {
    if Truthy(q) then "No results for \"" + q.value + "\"" else "No products found"
  }

  /** A failed query shows the same empty state as an empty result, and the
      message names the search text exactly when there is one. */
  lemma EmptyStateCases(query: SearchParams.Params)
    ensures !ShowsGrid(Listing(None, query))
    ensures Truthy(QParam(query)) ==> Text.Contains(EmptyMessage(QParam(query)), QParam(query).value)
    ensures !Truthy(QParam(query)) ==> EmptyMessage(QParam(query)) == "No products found"
  {
    if Truthy(QParam(query)) {
      var q := QParam(query).value;
      Text.ContainsRight("No results for \"", q);
      Text.ContainsLeft("No results for \"" + q, "\"");
      Text.ContainsTrans(EmptyMessage(QParam(query)), "No results for \"" + q, q);
    }
  }

  /** `category || "all"`: the category the filter sidebar highlights. */
  function CurrentCategory(category: Option<string>): (c: string)
    ensures c != ""
  {
    if Truthy(category) then category.value else "all"
  }

  /** The sidebar shows "all" exactly when no category filter is applied. */
  lemma CurrentCategoryIsAllIff(category: Option<string>)
    ensures CurrentCategory(category) == "all" <==> !CategoryFilterApplies(category)
  {
  }
}

=== FILE: shop_search.dfy ===
/** The shop's search box: it starts from the URL's `q` and, after the
    debounce, navigates to `/shop` with `q` set to the typed text (or removed
    when the box is empty), keeping every other parameter. The 400 ms timer
    itself is not modelled: each call is the navigation that fires. */
module ShopSearch {
  import opened Wrappers
  import SearchParams
  import ShopPage

  const ShopPath: string := "/shop"

  /** `searchParams.get("q") || ""` */
  function InitialQuery(params: SearchParams.Params): (q: string)
    ensures SearchParams.Get(params, "q").Some? ==> q == SearchParams.Get(params, "q").value
    ensures SearchParams.Get(params, "q").None? ==> q == ""
  {
    SearchParams.Get(params, "q").GetOr("")
  }

  /** The URL the debounced effect pushes for the text in the box. */
  function Target(params: SearchParams.Params, query: string): (u: SearchParams.Url)
    ensures u.pathname == ShopPath
  {
    var next := if query != "" then SearchParams.Set(params, "q", query) else SearchParams.Delete(params, "q");
    SearchParams.Url(ShopPath, next)
  }

  /** After the push, `q` reads as the typed text (absent when empty) and every
      other parameter reads as before. */
  lemma TargetParams(params: SearchParams.Params, query: string, other: string)
    ensures SearchParams.Get(Target(params, query).query, "q") == if query != "" then Some(query) else None
    ensures other != "q" ==> SearchParams.Get(Target(params, query).query, other) == SearchParams.Get(params, other)
  {
    SearchParams.GetAfterSet(params, "q", query, other);
    SearchParams.GetAfterDelete(params, "q", other);
  }

  /** The box and the URL agree: reloading the pushed URL shows the same text. */
  lemma SearchRoundTrip(params: SearchParams.Params, query: string)
    ensures InitialQuery(Target(params, query).query) == query
  {
    TargetParams(params, query, "q");
  }

  /** The pushed URL changes `searchParams`, which re-runs the effect with the
      same text; that second push goes to the same URL, so the loop settles. */
  lemma TargetIdempotent(params: SearchParams.Params, query: string)
    ensures Target(Target(params, query).query, query) == Target(params, query)
  {
    if query != "" {
      SearchParams.SetIdempotent(params, "q", query);
    } else {
      SearchParams.DeleteIdempotent(params, "q");
    }
  }

  /** The listing page then filters by the typed text and by the category the
      URL already had. */
  lemma SearchKeepsCategory(params: SearchParams.Params, query: string)
    ensures ShopPage.CategoryParam(Target(params, query).query) == ShopPage.CategoryParam(params)
    ensures ShopPage.Truthy(ShopPage.QParam(Target(params, query).query)) <==> query != ""
  {
    TargetParams(params, query, "category");
  }
}

=== FILE: shop_store.dfy ===
/** The client-side shop store (`useShopStore`): a wishlist of product ids and
    a cart of lines, with the five actions that update them. Each action is a
    pure function from the old state to the new one; the `persist` layer is
    not modelled. */
module ShopStore {
  import opened Wrappers
  import Seqs

  /** One cart line. */
  datatype CartItem = CartItem(id: string, name: string, price: real, imageUrl: Option<string>, quantity: int)

  /** The product object handed to `addToCart`; `quantity` is whatever the
      caller put there (the product page sets its counter value). */
  datatype Product = Product(id: string, name: string, price: real, imageUrl: Option<string>, quantity: Option<int>)

  datatype ShopState = ShopState(wishlistIds: seq<string>, cart: seq<CartItem>)

  function Initial(): ShopState {
    ShopState([], [])
  }

  /** Key functions: a wishlist entry is its own id; a cart line is keyed by `id`. */
  function SelfId(id: string): string {
    id
  }

  function ItemId(item: CartItem): string {
    item.id
  }

  predicate InCart(cart: seq<CartItem>, id: string) {
    Seqs.HasKey(cart, ItemId, id)
  }

  /** The store's cart invariant: ids are unique and every quantity is at least 1. */
  predicate ValidCart(cart: seq<CartItem>) {
    && Seqs.UniqueKeys(cart, ItemId)
    && forall i :: 0 <= i < |cart| ==> cart[i].quantity >= 1
  }

  // ---------------------------------------------------------------------
  // Wishlist
  // ---------------------------------------------------------------------

  /** `toggleWishlist(id)`: drop every occurrence of `id` if it is listed,
      otherwise append it. */
  function ToggleWishlist(s: ShopState, id: string): (r: ShopState)
    ensures r.cart == s.cart
    ensures id in r.wishlistIds <==> id !in s.wishlistIds
    ensures forall other :: other != id ==> (other in r.wishlistIds <==> other in s.wishlistIds)
    ensures id !in s.wishlistIds ==> |r.wishlistIds| == |s.wishlistIds| + 1 && r.wishlistIds[|s.wishlistIds|] == id
    ensures id in s.wishlistIds ==> |r.wishlistIds| < |s.wishlistIds|
    ensures Seqs.Drop(r.wishlistIds, SelfId, id) == Seqs.Drop(s.wishlistIds, SelfId, id)
  {
    if id in s.wishlistIds then
      var i :| 0 <= i < |s.wishlistIds| && s.wishlistIds[i] == id;
      Seqs.DropShrinks(s.wishlistIds, SelfId, id, i);
      Seqs.DropAbsent(Seqs.Drop(s.wishlistIds, SelfId, id), SelfId, id);
      s.(wishlistIds := Seqs.Drop(s.wishlistIds, SelfId, id))
    else
      Seqs.DropAppend(s.wishlistIds, [id], SelfId, id);
      assert Seqs.Drop([id], SelfId, id) == [];
      s.(wishlistIds := s.wishlistIds + [id])
  }

  /** Toggling an id that is not listed, twice, gives back the original state. */
  lemma ToggleTwiceRestores(s: ShopState, id: string)
    requires id !in s.wishlistIds
    ensures ToggleWishlist(ToggleWishlist(s, id), id) == s
  {
    var ids := s.wishlistIds;
    assert !Seqs.HasKey(ids, SelfId, id);
    Seqs.DropAppend(ids, [id], SelfId, id);
    Seqs.DropAbsent(ids, SelfId, id);
    assert Seqs.Drop([id], SelfId, id) == [];
  }

  // ---------------------------------------------------------------------
  // Cart
  // ---------------------------------------------------------------------

  /** `cart.map(item => item.id === id ? { ...item, quantity: f(item.quantity) } : item)` */
  function MapQuantity(cart: seq<CartItem>, id: string, f: int -> int): (r: seq<CartItem>)
    ensures |r| == |cart|
    ensures forall i :: 0 <= i < |cart| ==>
              r[i] == (if cart[i].id == id then cart[i].(quantity := f(cart[i].quantity)) else cart[i])
  {
    if cart == [] then []
    else
      var head := if cart[0].id == id then cart[0].(quantity := f(cart[0].quantity)) else cart[0];
      [head] + MapQuantity(cart[1..], id, f)
  }

  /** A new cart line for a product: its fields, with quantity forced to 1. */
  function NewLine(p: Product): CartItem {
    CartItem(p.id, p.name, p.price, p.imageUrl, 1)
  }

  /** `addToCart(product)`: one more unit of an existing line, or a new line of
      one unit. The product's own `quantity` is ignored either way. */
  function AddToCart(s: ShopState, p: Product): (r: ShopState)
    ensures r.wishlistIds == s.wishlistIds
    ensures InCart(s.cart, p.id) ==>
              && |r.cart| == |s.cart|
              && forall i :: 0 <= i < |s.cart| ==>
                   r.cart[i] == (if s.cart[i].id == p.id then s.cart[i].(quantity := s.cart[i].quantity + 1) else s.cart[i])
    ensures !InCart(s.cart, p.id) ==>
              && |r.cart| == |s.cart| + 1
              && r.cart[..|s.cart|] == s.cart
              && r.cart[|s.cart|] == CartItem(p.id, p.name, p.price, p.imageUrl, 1)
  {
    if InCart(s.cart, p.id) then s.(cart := MapQuantity(s.cart, p.id, q => q + 1))
    else s.(cart := s.cart + [NewLine(p)])
  }

  /** `Math.max(1, q + delta)` */
  function ClampedAdd(q: int, delta: int): (r: int)
    ensures r >= 1
    ensures r == q + delta || (r == 1 && q + delta < 1)
  {
    if q + delta > 1 then q + delta else 1
  }

  /** `updateQuantity(id, delta)`: the matching line's quantity moves by `delta`
      but never below 1; no line is ever removed this way. */
  function UpdateQuantity(s: ShopState, id: string, delta: int): (r: ShopState)
    ensures r.wishlistIds == s.wishlistIds
    ensures |r.cart| == |s.cart|
    ensures forall i :: 0 <= i < |s.cart| ==>
              && r.cart[i].id == s.cart[i].id
              && (s.cart[i].id != id ==> r.cart[i] == s.cart[i])
              && (s.cart[i].id == id ==> r.cart[i] == s.cart[i].(quantity := ClampedAdd(s.cart[i].quantity, delta)))
    ensures forall i :: 0 <= i < |s.cart| && s.cart[i].id == id ==> r.cart[i].quantity >= 1
  {
    s.(cart := MapQuantity(s.cart, id, q => ClampedAdd(q, delta)))
  }

  /** `removeFromCart(id)`: drop the lines with that id, keep the rest in order. */
  function RemoveFromCart(s: ShopState, id: string): (r: ShopState)
    ensures r.wishlistIds == s.wishlistIds
    ensures !InCart(r.cart, id)
    ensures forall other :: other != id ==> (InCart(r.cart, other) <==> InCart(s.cart, other))
    ensures |r.cart| == |s.cart| - Seqs.CountKey(s.cart, ItemId, id)
  {
    forall other | other != id
      ensures InCart(Seqs.Drop(s.cart, ItemId, id), other) <==> InCart(s.cart, other)
    {
      Seqs.DropKeepsOtherKeys(s.cart, ItemId, id, other);
    }
    s.(cart := Seqs.Drop(s.cart, ItemId, id))
  }

  /** Removal keeps the other lines' relative order: it distributes over any
      split of the cart. */
  lemma RemoveKeepsOrder(front: seq<CartItem>, back: seq<CartItem>, wishlist: seq<string>, id: string)
    ensures RemoveFromCart(ShopState(wishlist, front + back), id).cart ==
              RemoveFromCart(ShopState(wishlist, front), id).cart + RemoveFromCart(ShopState(wishlist, back), id).cart
  {
    Seqs.DropAppend(front, back, ItemId, id);
  }

  /** `clearCart()`: empty the cart, keep the wishlist. */
  function ClearCart(s: ShopState): (r: ShopState)
    ensures r.cart == [] && r.wishlistIds == s.wishlistIds
  {
    s.(cart := [])
  }

  // ---------------------------------------------------------------------
  // The cart invariant
  // ---------------------------------------------------------------------

  lemma AddToCartKeepsValid(s: ShopState, p: Product)
    requires ValidCart(s.cart)
    ensures ValidCart(AddToCart(s, p).cart)
  {
    var r := AddToCart(s, p).cart;
    if !InCart(s.cart, p.id) {
      forall i, j | 0 <= i < j < |r|
        ensures ItemId(r[i]) != ItemId(r[j])
      {
        if j == |s.cart| {
          assert r[i] == s.cart[i];
        } else {
          assert r[i] == s.cart[i] && r[j] == s.cart[j];
        }
      }
    }
  }

  lemma UpdateQuantityKeepsValid(s: ShopState, id: string, delta: int)
    requires ValidCart(s.cart)
    ensures ValidCart(UpdateQuantity(s, id, delta).cart)
  {
  }

  lemma RemoveFromCartKeepsValid(s: ShopState, id: string)
    requires ValidCart(s.cart)
    ensures ValidCart(RemoveFromCart(s, id).cart)
  {
    Seqs.DropKeepsUnique(s.cart, ItemId, id);
    var r := RemoveFromCart(s, id).cart;
    forall i | 0 <= i < |r|
      ensures r[i].quantity >= 1
    {
      assert r[i] in s.cart;
    }
  }

  lemma ClearCartKeepsValid(s: ShopState)
    ensures ValidCart(ClearCart(s).cart)
  {
  }
}

=== FILE: sign_up.dfy ===
/** The sign-up form's submit handler: passwords that differ stop it before
    any remote call; otherwise the sign-up request is made and its outcome
    either navigates to the success page or shows an error. The auth call
    and the router are remote; the outcome is an input and the navigation is
    part of the result. */
module SignUp {
  import opened Wrappers

  datatype Form = Form(email: string, password: string, repeatPassword: string, error: Option<string>, isLoading: bool)

  /** What `supabase.auth.signUp` was asked for. */
  datatype Request = Request(email: string, password: string, emailRedirectTo: string)

  /** What was thrown: an `Error` with its message, or some other value. */
  datatype Thrown = ErrorValue(message: string) | OtherValue

  /** The form after the handler, the request it made (if any) and the page
      it navigated to (if any). */
  datatype Attempt = Attempt(form: Form, request: Option<Request>, navigatedTo: Option<string>)

  const Mismatch: string := "Passwords do not match"
  const Generic: string := "An error occurred"
  const SuccessPath: string := "/auth/sign-up-success"
  const CallbackPath: string := "/auth/callback"

  /** The first two state updates: loading on, any earlier error cleared. */
  function Begin(f: Form): (r: Form)
    ensures r.isLoading && r.error.None?
    ensures r.email == f.email && r.password == f.password && r.repeatPassword == f.repeatPassword
  {
    f.(isLoading := true, error := None)
  }

  /** The `catch` branch's message. */
  function ThrownMessage(t: Thrown): (m: string)
    ensures t.ErrorValue? ==> m == t.message
    ensures t.OtherValue? ==> m == Generic
  {
    match t
    case ErrorValue(message) => message
    case OtherValue => Generic
  }

  /** `handleSignUp`. `origin` is `window.location.origin`; `outcome` is what
      the sign-up call did: `None` when it succeeded, or what it threw. */
  function HandleSignUp(f: Form, origin: string, outcome: Option<Thrown>): (a: Attempt)
    ensures !a.form.isLoading
    ensures a.form.email == f.email && a.form.password == f.password && a.form.repeatPassword == f.repeatPassword
    ensures a.request.None? <==> f.password != f.repeatPassword
    ensures a.request.Some? ==> a.request.value == Request(f.email, f.password, origin + CallbackPath)
    ensures f.password != f.repeatPassword ==> a.form.error == Some(Mismatch) && a.navigatedTo.None?
  {
    var started := Begin(f);
    if f.password != f.repeatPassword then
      Attempt(started.(error := Some(Mismatch), isLoading := false), None, None)
    else
      var request := Request(f.email, f.password, origin + CallbackPath);
      match outcome
      case None => Attempt(started.(isLoading := false), Some(request), Some(SuccessPath))
      case Some(t) => Attempt(started.(error := Some(ThrownMessage(t)), isLoading := false), Some(request), None)
  }

  /** `{error && …}`: the error line renders only for a non-empty message. */
  predicate ErrorShows(f: Form) {
    f.error.Some? && f.error.value != ""
  }

  /** Each completed attempt either navigates to the success page with no
      error recorded, or stays with an error recorded; it navigates exactly
      when the passwords match and the call succeeded. The recorded error is
      visible unless it is an `Error` thrown with an empty message. */
  lemma AttemptOutcomes(f: Form, origin: string, outcome: Option<Thrown>)
    ensures var a := HandleSignUp(f, origin, outcome);
            && (a.navigatedTo.Some? <==> f.password == f.repeatPassword && outcome.None?)
            && (a.navigatedTo.Some? ==> a.navigatedTo.value == SuccessPath && a.form.error.None?)
            && (a.navigatedTo.None? <==> a.form.error.Some?)
    ensures var a := HandleSignUp(f, origin, outcome);
            a.navigatedTo.None? ==>
              (ErrorShows(a.form) <==> !(f.password == f.repeatPassword && outcome == Some(ErrorValue(""))))
  {
  }

  /** A remote failure shows the thrown error's message, or the generic text
      when what was thrown is not an `Error`. */
  lemma RemoteErrorShown(f: Form, origin: string, t: Thrown)
    requires f.password == f.repeatPassword
    ensures HandleSignUp(f, origin, Some(t)).form.error == Some(if t.ErrorValue? then t.message else Generic)
  {
  }

  /** The outcome of the call cannot matter when the passwords differ: no
      call is made. */
  lemma MismatchIgnoresOutcome(f: Form, origin: string, o1: Option<Thrown>, o2: Option<Thrown>)
    requires f.password != f.repeatPassword
    ensures HandleSignUp(f, origin, o1) == HandleSignUp(f, origin, o2)
  {
  }

  /** An earlier error never survives a later attempt: what shows afterwards
      depends only on the later attempt. */
  lemma ErrorFromLatestAttemptOnly(f: Form, origin: string, outcome: Option<Thrown>, earlier: Option<string>)
    ensures HandleSignUp(f.(error := earlier), origin, outcome).form.error == HandleSignUp(f, origin, outcome).form.error
  {
  }
}

=== FILE: text.dfy ===
/** String helpers that stand for the JavaScript string built-ins the storefront
    relies on: `trim`, `startsWith`, `includes`, `join`, `padStart`,
    `String(n)` for non-negative integers, and ASCII lower-casing. */
module Text {

  /** The characters `String.prototype.trim` removes: the ECMAScript
      WhiteSpace set (TAB, VT, FF, ZWNBSP and every Zs space separator)
      together with the four LineTerminator characters. */
  predicate IsJsWhitespace(c: char) {
    || c == '\t' || c == '\n' || c == '\U{000B}' || c == '\U{000C}' || c == '\r'
    || c == ' ' || c == '\U{00A0}' || c == '\U{1680}'
    || ('\U{2000}' <= c <= '\U{200A}')
    || c == '\U{2028}' || c == '\U{2029}' || c == '\U{202F}' || c == '\U{205F}'
    || c == '\U{3000}' || c == '\U{FEFF}'
  }

  /** `s.trimStart()` */
  function TrimStart(s: string): (r: string)
    ensures |r| <= |s| && r == s[|s| - |r|..]
    ensures r != [] ==> !IsJsWhitespace(r[0])
    ensures forall i :: 0 <= i < |s| - |r| ==> IsJsWhitespace(s[i])
  {
    if s != [] && IsJsWhitespace(s[0]) then TrimStart(s[1..]) else s
  }

  /** `s.trimEnd()` */
  function TrimEnd(s: string): (r: string)
    ensures |r| <= |s| && r == s[..|r|]
    ensures r != [] ==> !IsJsWhitespace(r[|r| - 1])
    ensures forall i :: |r| <= i < |s| ==> IsJsWhitespace(s[i])
  {
    if s != [] && IsJsWhitespace(s[|s| - 1]) then TrimEnd(s[..|s| - 1]) else s
  }

  /** `s.trim()` */
  function Trim(s: string): string {
    TrimEnd(TrimStart(s))
  }

  /** A string made only of whitespace (the empty string included). */
  predicate AllWhitespace(s: string) {
    forall i :: 0 <= i < |s| ==> IsJsWhitespace(s[i])
  }

  /** `!s.trim()` holds exactly for the strings made only of whitespace. */
  lemma TrimEmptyIffAllWhitespace(s: string)
    ensures Trim(s) == [] <==> AllWhitespace(s)
  {
  }

  predicate StartsWith(s: string, prefix: string) {
    |prefix| <= |s| && s[..|prefix|] == prefix
  }

  /** `s.includes(sub)`: `sub` occurs in `s` at some offset. */
  predicate Contains(s: string, sub: string) {
    exists i :: 0 <= i <= |s| && StartsWith(s[i..], sub)
  }

  /** A concatenation contains its left operand. */
  lemma ContainsLeft(a: string, b: string)
    ensures Contains(a + b, a)
  {
    assert (a + b)[0..][..|a|] == a;
  }

  /** A concatenation contains its right operand. */
  lemma ContainsRight(a: string, b: string)
    ensures Contains(a + b, b)
  {
    assert (a + b)[|a|..][..|b|] == b;
  }

  /** Containment is transitive. */
  lemma ContainsTrans(s: string, mid: string, sub: string)
    requires Contains(s, mid) && Contains(mid, sub)
    ensures Contains(s, sub)
  {
    var i :| 0 <= i <= |s| && StartsWith(s[i..], mid);
    var j :| 0 <= j <= |mid| && StartsWith(mid[j..], sub);
    assert s[i..][..|mid|] == mid;
    assert |sub| <= |mid| - j;
    forall k | 0 <= k < |sub|
      ensures s[i + j + k] == sub[k]
    {
      assert mid[j..][k] == sub[k];
      assert s[i..][..|mid|][j + k] == s[i + j + k];
    }
    assert s[i + j..][..|sub|] == sub;
  }

  /** `parts.join(sep)` */
  function Join(parts: seq<string>, sep: string): string {
    if |parts| == 0 then ""
    else if |parts| == 1 then parts[0]
    else parts[0] + sep + Join(parts[1..], sep)
  }

  /** Joining one more part adds the separator and that part at the end. */
  lemma {:induction false} JoinSnoc(parts: seq<string>, sep: string, last: string)
    requires |parts| > 0
    ensures Join(parts + [last], sep) == Join(parts, sep) + sep + last
  {
    if |parts| == 1 {
      assert (parts + [last])[1..] == [last];
    } else {
      assert (parts + [last])[1..] == parts[1..] + [last];
      JoinSnoc(parts[1..], sep, last);
    }
  }

  /** Sum of the lengths of the parts. */
  function TotalLength(parts: seq<string>): nat {
    if parts == [] then 0 else |parts[0]| + TotalLength(parts[1..])
  }

  /** A join is as long as its parts plus one separator between each neighbour. */
  lemma {:induction false} JoinLength(parts: seq<string>, sep: string)
    requires |parts| > 0
    ensures |Join(parts, sep)| == TotalLength(parts) + (|parts| - 1) * |sep|
  {
    if |parts| > 1 {
      JoinLength(parts[1..], sep);
    }
  }

  /** Offset at which part `i` starts inside `Join(parts, sep)`. */
  function PartOffset(parts: seq<string>, sep: string, i: nat): nat
    requires i <= |parts|
  {
    TotalLength(parts[..i]) + i * |sep|
  }

  lemma TotalLengthPrefixStep(parts: seq<string>, i: nat)
    requires 0 < i <= |parts|
    ensures TotalLength(parts[..i]) == |parts[0]| + TotalLength(parts[1..][..i - 1])
  {
    assert parts[..i][1..] == parts[1..][..i - 1];
  }

  /** A slice of the right operand, read inside the concatenation. */
  lemma SliceOfRight(a: string, b: string, lo: nat, hi: nat)
    requires lo <= hi <= |b|
    ensures (a + b)[|a| + lo..|a| + hi] == b[lo..hi]
  {
  }

  /** Each part appears verbatim in the join, at its own offset, and (except
      after the last one) is followed by the separator: the join keeps every
      part, whole and in order. */
  lemma {:induction false} JoinPartAt(parts: seq<string>, sep: string, i: nat)
    requires i < |parts|
    ensures PartOffset(parts, sep, i) + |parts[i]| <= |Join(parts, sep)|
    ensures Join(parts, sep)[PartOffset(parts, sep, i)..PartOffset(parts, sep, i) + |parts[i]|] == parts[i]
    ensures i + 1 < |parts| ==>
      PartOffset(parts, sep, i) + |parts[i]| + |sep| <= |Join(parts, sep)| &&
      Join(parts, sep)[PartOffset(parts, sep, i) + |parts[i]|..PartOffset(parts, sep, i) + |parts[i]| + |sep|] == sep
    decreases |parts|, 1
  {
    if i == 0 {
      JoinFirstPart(parts, sep);
    } else {
      JoinLaterPart(parts, sep, i);
    }
  }

  /** The first part starts the join, followed by the separator when more follow. */
  lemma JoinFirstPart(parts: seq<string>, sep: string)
    requires 0 < |parts|
    ensures PartOffset(parts, sep, 0) == 0 && |parts[0]| <= |Join(parts, sep)|
    ensures Join(parts, sep)[..|parts[0]|] == parts[0]
    ensures 1 < |parts| ==>
      |parts[0]| + |sep| <= |Join(parts, sep)| &&
      Join(parts, sep)[|parts[0]|..|parts[0]| + |sep|] == sep
  {
    assert parts[..0] == [];
    if 1 < |parts| {
      var j := Join(parts, sep);
      assert j == parts[0] + sep + Join(parts[1..], sep);
      assert j[..|parts[0]|] == parts[0];
      assert j[|parts[0]|..|parts[0]| + |sep|] == sep;
    }
  }

  /** A later part sits in the join of the tail, shifted by the head part and
      one separator. */
  lemma {:induction false} JoinLaterPart(parts: seq<string>, sep: string, i: nat)
    requires 0 < i < |parts|
    ensures PartOffset(parts, sep, i) + |parts[i]| <= |Join(parts, sep)|
    ensures Join(parts, sep)[PartOffset(parts, sep, i)..PartOffset(parts, sep, i) + |parts[i]|] == parts[i]
    ensures i + 1 < |parts| ==>
      PartOffset(parts, sep, i) + |parts[i]| + |sep| <= |Join(parts, sep)| &&
      Join(parts, sep)[PartOffset(parts, sep, i) + |parts[i]|..PartOffset(parts, sep, i) + |parts[i]| + |sep|] == sep
    decreases |parts|, 0
  {
    var head := parts[0] + sep;
    var rest := Join(parts[1..], sep);
    assert Join(parts, sep) == head + rest;
    JoinPartAt(parts[1..], sep, i - 1);
    TotalLengthPrefixStep(parts, i);
    var o := PartOffset(parts[1..], sep, i - 1);
    assert PartOffset(parts, sep, i) == |head| + o;
    assert parts[1..][i - 1] == parts[i];
    SliceOfRight(head, rest, o, o + |parts[i]|);
    if i + 1 < |parts| {
      SliceOfRight(head, rest, o + |parts[i]|, o + |parts[i]| + |sep|);
    }
  }


  /** With a non-empty separator the join is empty only for no parts or one empty part. */
  lemma JoinEmptyIff(parts: seq<string>, sep: string)
    requires sep != ""
    ensures Join(parts, sep) == "" <==> |parts| == 0 || (|parts| == 1 && parts[0] == "")
  {
  }

  /** Decimal digit `d` as a character. */
  function DigitChar(d: nat): char
    requires d < 10
  {
    ['0', '1', '2', '3', '4', '5', '6', '7', '8', '9'][d]
  }

  predicate IsDigit(c: char) {
    '0' <= c <= '9'
  }

  function DigitValue(c: char): nat
    requires IsDigit(c)
  {
    (c - '0') as nat
  }

  /** `String(n)` for a non-negative integer: its decimal digits, no leading zero. */
  function NatToString(n: nat): (r: string)
    ensures 1 <= |r|
    ensures forall i :: 0 <= i < |r| ==> IsDigit(r[i])
    ensures |r| == 1 <==> n < 10
    ensures |r| > 1 ==> r[0] != '0'
  {
    if n < 10 then [DigitChar(n)] else NatToString(n / 10) + [DigitChar(n % 10)]
  }

  /** The number a string of decimal digits spells. */
  function DecimalValue(s: string): nat
    requires forall i :: 0 <= i < |s| ==> IsDigit(s[i])
  {
    if s == [] then 0 else DecimalValue(s[..|s| - 1]) * 10 + DigitValue(s[|s| - 1])
  }

  /** Printing a number and reading its digits back gives the number. */
  lemma {:induction false} NatToStringRoundTrip(n: nat)
    ensures DecimalValue(NatToString(n)) == n
  {
    if n >= 10 {
      var s := NatToString(n);
      assert s[..|s| - 1] == NatToString(n / 10);
      NatToStringRoundTrip(n / 10);
    }
  }

  /** `s.padStart(width, [fill])` for a one-character fill. */
  function PadStart(s: string, width: nat, fill: char): (r: string)
    ensures |r| == if |s| >= width then |s| else width
    ensures r[|r| - |s|..] == s
    ensures forall i :: 0 <= i < |r| - |s| ==> r[i] == fill
  {
    if |s| >= width then s else seq(width - |s|, _ => fill) + s
  }

  /** ASCII lower-casing of one character. */
  function LowerChar(c: char): char {
    if 'A' <= c <= 'Z' then (c - 'A' + 'a') as char else c
  }

  function Lower(s: string): (r: string)
    ensures |r| == |s|
    ensures forall i :: 0 <= i < |s| ==> r[i] == LowerChar(s[i])
  {
    seq(|s|, i requires 0 <= i < |s| => LowerChar(s[i]))
  }

  /** Folding is stable: a folded string has no ASCII capitals left, so
      folding it again changes nothing; strings without capitals are already
      folded. */
  lemma LowerIdempotent(s: string)
    ensures Lower(Lower(s)) == Lower(s)
    ensures (forall i :: 0 <= i < |s| ==> !('A' <= s[i] <= 'Z')) <==> Lower(s) == s
  {
    if Lower(s) == s {
      forall i | 0 <= i < |s|
        ensures !('A' <= s[i] <= 'Z')
      {
        assert Lower(s)[i] == LowerChar(s[i]);
      }
    }
  }
}

=== FILE: whatsapp.dfy ===
/** The floating WhatsApp button: it strips the support number down to its
    digits and opens `https://wa.me/<digits>?text=<encoded message>`. The URL
    encoder is a parameter; opening the window is left out. */
module Whatsapp {
  import opened Wrappers
  import Text
  import Brand

  const DefaultMessage: string := "Hello shop!ManeF/x, I have a question about the Kirkland Minoxidil kits."
  const UrlPrefix: string := "https://wa.me/"
  const TextParam: string := "?text="

  predicate AllDigits(s: string) {
    forall i :: 0 <= i < |s| ==> Text.IsDigit(s[i])
  }

  /** `s.replace(/\D/g, "")`: keep the characters '0' to '9', drop the rest. */
  function StripNonDigits(s: string): (r: string)
    ensures AllDigits(r)
    ensures |r| <= |s|
  {
    if s == [] then []
    else (if Text.IsDigit(s[0]) then [s[0]] else []) + StripNonDigits(s[1..])
  }

  /** Stripping works piecewise, so the digits keep their original order. */
  lemma {:induction false} StripAppend(a: string, b: string)
    ensures StripNonDigits(a + b) == StripNonDigits(a) + StripNonDigits(b)
  {
    if a == [] {
      assert a + b == b;
    } else {
      assert (a + b)[1..] == a[1..] + b;
      StripAppend(a[1..], b);
    }
  }

  /** A string of digits comes through unchanged. */
  lemma {:induction false} StripKeepsDigits(s: string)
    requires AllDigits(s)
    ensures StripNonDigits(s) == s
  {
    if s != [] {
      StripKeepsDigits(s[1..]);
    }
  }

  /** Each digit occurs in the result as often as in the input, and nothing
      else occurs. */
  lemma {:induction false} StripCounts(s: string, c: char)
    ensures multiset(StripNonDigits(s))[c] == if Text.IsDigit(c) then multiset(s)[c] else 0
  {
    if s != [] {
      StripCounts(s[1..], c);
      assert s == [s[0]] + s[1..];
    }
  }

  /** Stripping twice is stripping once. */
  lemma StripIdempotent(s: string)
    ensures StripNonDigits(StripNonDigits(s)) == StripNonDigits(s)
  {
    StripKeepsDigits(StripNonDigits(s));
  }

  /** A non-digit followed by digits strips to the digits. */
  lemma StripLeadingSign(c: char, digits: string)
    requires !Text.IsDigit(c) && AllDigits(digits)
    ensures StripNonDigits([c] + digits) == digits
  {
    assert ([c] + digits)[1..] == digits;
    StripKeepsDigits(digits);
  }

  /** The support number loses only its leading '+'. */
  lemma SupportNumberDigits()
    ensures StripNonDigits(Brand.SupportPhone) == "233535023614"
  {
    var digits := "233535023614";
    assert Brand.SupportPhone == ['+'] + digits;
    assert AllDigits(digits) by {
      forall i | 0 <= i < |digits|
        ensures Text.IsDigit(digits[i])
      {
      }
    }
    StripLeadingSign('+', digits);
  }

  /** The button's `message` prop: the default applies only when the prop is
      not given, so an explicit empty message stays empty. */
  function MessageOrDefault(message: Option<string>): (m: string)
    ensures message.Some? ==> m == message.value
    ensures message.None? ==> m == DefaultMessage
  {
    message.GetOr(DefaultMessage)
  }

  /** `https://wa.me/${cleanNumber}?text=${encodedMessage}` */
  function ChatUrl(phone: string, message: string, encode: string -> string): (u: string)
    ensures Text.StartsWith(u, UrlPrefix)
  {
    assert (UrlPrefix + StripNonDigits(phone) + TextParam + encode(message))[..|UrlPrefix|] == UrlPrefix;
    UrlPrefix + StripNonDigits(phone) + TextParam + encode(message)
  }

  /** The longest run of digits at the front of `s`. */
  function LeadingDigits(s: string): (r: string)
    ensures AllDigits(r) && Text.StartsWith(s, r)
    ensures |r| < |s| ==> !Text.IsDigit(s[|r|])
  {
    if s == [] || !Text.IsDigit(s[0]) then []
    else [s[0]] + LeadingDigits(s[1..])
  }

  /** A digit run followed by a non-digit is read back as exactly that run. */
  lemma {:induction false} LeadingDigitsOfRun(digits: string, rest: string)
    requires AllDigits(digits)
    requires rest != [] && !Text.IsDigit(rest[0])
    ensures LeadingDigits(digits + rest) == digits
  {
    if digits == [] {
      assert digits + rest == rest;
    } else {
      assert (digits + rest)[1..] == digits[1..] + rest;
      LeadingDigitsOfRun(digits[1..], rest);
    }
  }

  /** The number WhatsApp reads from the link: the digits right after the
      prefix. */
  function NumberOf(url: string): string {
    if Text.StartsWith(url, UrlPrefix) then LeadingDigits(url[|UrlPrefix|..]) else []
  }

  /** The link names exactly the cleaned number, whatever the message encodes
      to: the '?' of "?text=" ends the digit run. */
  lemma ChatUrlNamesNumber(phone: string, message: string, encode: string -> string)
    ensures NumberOf(ChatUrl(phone, message, encode)) == StripNonDigits(phone)
  {
    var clean := StripNonDigits(phone);
    var u := ChatUrl(phone, message, encode);
    assert u[|UrlPrefix|..] == clean + (TextParam + encode(message));
    LeadingDigitsOfRun(clean, TextParam + encode(message));
  }

  /** The button as shipped links to the support number. */
  lemma ButtonLinksSupport(message: Option<string>, encode: string -> string)
    ensures NumberOf(ChatUrl(Brand.SupportPhone, MessageOrDefault(message), encode)) == "233535023614"
  {
    ChatUrlNamesNumber(Brand.SupportPhone, MessageOrDefault(message), encode);
    SupportNumberDigits();
  }
}

=== FILE: wishlist_hook.dfy ===
/** The older `useWishlist` hook: a wishlist of whole product records, keyed
    by `id`, with `toggleWishlist` and `isInWishlist`. The `localStorage`
    load and save around it are not modelled. */
module WishlistHook {
  import Seqs

  datatype Product = Product(id: string, name: string, price: real)

  /** The toast shown after a toggle. */
  datatype Toast = Info(text: string) | Success(text: string)

  function ProductId(p: Product): string {
    p.id
  }

  /** `isInWishlist(id)`: some saved product has that id. */
  predicate IsInWishlist(wishlist: seq<Product>, id: string) {
    Seqs.HasKey(wishlist, ProductId, id)
  }

  /** `toggleWishlist(product)`: remove every saved product with the same id,
      or append the product when none is saved. */
  function ToggleWishlist(wishlist: seq<Product>, product: Product): (r: (seq<Product>, Toast))
    ensures IsInWishlist(r.0, product.id) <==> !IsInWishlist(wishlist, product.id)
    ensures !IsInWishlist(wishlist, product.id) ==>
              r.0 == wishlist + [product] && r.1 == Success("Added to wishlist")
    ensures IsInWishlist(wishlist, product.id) ==>
              |r.0| < |wishlist| && r.1 == Info("Removed from wishlist")
  {
    if IsInWishlist(wishlist, product.id) then
      var i :| 0 <= i < |wishlist| && ProductId(wishlist[i]) == product.id;
      Seqs.DropShrinks(wishlist, ProductId, product.id, i);
      (Seqs.Drop(wishlist, ProductId, product.id), Info("Removed from wishlist"))
    else
      assert ProductId(product) == product.id;
      assert (wishlist + [product])[|wishlist|] == product;
      (wishlist + [product], Success("Added to wishlist"))
  }

  /** A toggle leaves the products with other ids exactly as they were, same
      records in the same order. */
  lemma ToggleKeepsOthers(wishlist: seq<Product>, product: Product)
    ensures Seqs.Drop(ToggleWishlist(wishlist, product).0, ProductId, product.id) ==
            Seqs.Drop(wishlist, ProductId, product.id)
  {
    var k := product.id;
    if IsInWishlist(wishlist, k) {
      Seqs.DropAbsent(Seqs.Drop(wishlist, ProductId, k), ProductId, k);
    } else {
      Seqs.DropAppend(wishlist, [product], ProductId, k);
      assert Seqs.Drop([product], ProductId, k) == [];
    }
  }

  /** Membership of any other id is unaffected by a toggle. */
  lemma ToggleKeepsOtherMembership(wishlist: seq<Product>, product: Product, other: string)
    requires other != product.id
    ensures IsInWishlist(ToggleWishlist(wishlist, product).0, other) <==> IsInWishlist(wishlist, other)
  {
    var r := ToggleWishlist(wishlist, product).0;
    ToggleKeepsOthers(wishlist, product);
    Seqs.DropKeepsOtherKeys(r, ProductId, product.id, other);
    Seqs.DropKeepsOtherKeys(wishlist, ProductId, product.id, other);
  }
}

=== FILE: wrappers.dfy ===
/** Failure-compatible wrappers shared by every module of the model.
    `Option` stands for a JavaScript value that may be null/undefined,
    `Result` for a remote call that either resolves or throws. */
module Wrappers {

  datatype Option<+T> = None | Some(value: T) {

    /** The wrapped value, or `default` when there is none (JavaScript's `x ?? default`). */
    function GetOr(default: T): T {
      match this
      case Some(v) => v
      case None => default
    }
  }

  datatype Result<+R, +E> = Success(value: R) | Failure(error: E) {

    predicate IsFailure() {
      Failure?
    }

    function PropagateFailure<U>(): Result<U, E>
      requires Failure?
    {
      Failure(error)
    }

    function Extract(): R
      requires Success?
    {
      value
    }
  }
}
